=== FILE: README.md ===
# CRM ⇄ document store sync, modelled in Dafny

The system moves sales data between a CRM and a document database.

- **Sync direction** (`mainProcess.py`). A run of type `leads` normalises the
  extracted contacts into a lead frame, upserts it into the `leads` collection
  keyed by `id`, and rebuilds the `resume_lead_status` summary. A run of type
  `deals` normalises the deals, upserts them into `deals` keyed by `id`, then
  rebuilds the per-stage totals (`total_deals`) and the per-close-month summary
  (`resume_close_deals`).
- **Load direction** (`hubspot_client.py`). Contacts, leads and deals are
  pushed from JSON files into the CRM. Contacts get a random lead status.
  Each lead creates a company, then its contact, and falls back to a
  contacts-only run when company creation is refused for lack of permission.
  Deals get a random stage and random links to existing records. A bulk load
  chains the three loads; a bulk delete archives deals, contacts and companies.

The modules follow that structure:

| module | file | contents |
|---|---|---|
| `Wrappers` | wrappers.dfy | `Option`, `Result` |
| `Values` | values.dfy | field values, cells (null = `None`), documents as maps |
| `Text` | text.dfy | `strip`, ASCII `lower`, substring test, `str()` of integers |
| `Frame` | frame.dfy | a rectangular table, `DataFrame(records)`, `rename` |
| `Normalize` | normalize.dfy | status mapping, lead and deal frames, amount coercion |
| `DocStore` | docstore.dfy | a collection as a sequence of documents in scan order (the lead summary's `$first` depends on that order), `UpdateOne(upsert=True)`, `bulk_write` |
| `Upsert` | upsert.dfy | the lead and deal upserts |
| `Order` | order.dfy | the order of the close summary's `$sort` |
| `Rollup` | rollup.dfy | `$group`, the three summaries and their stores |
| `Sync` | sync.dfy | the two runs of the entry point over a database of collections |
| `JsonInput` | json.dfy | parsed JSON, truthiness, the records of an input file |
| `Crm` | crm.dfy | CRM calls as request and outcome, answered by an oracle |
| `Properties` | properties.dfy | the property dicts of `create_contact`, `create_company`, `create_deal` |
| `Loader` | loader.dfy | the contacts, leads, contacts-only, deals and bulk loads |
| `Deletion` | deletion.dfy | the bulk deletes |

Everything the program gets from outside is a parameter:

- **CRM outcomes** come from an `Oracle`, a function from the call's position in the session to "returned this id" or "raised with this text".
- **Random draws** are given per record.
- **Parsing** is injected: `float(text)` and `pd.to_datetime(text)` are functions from text to an optional value.
- **Listings** of existing CRM records are given as id sequences.

## Model

| member | source | states |
|---|---|---|
| Values.Numeric | test-spexs-python/mainProcess.py:230-246 | a cell is summable by `$sum` exactly when it is an integer or a float |
| Text.Trim | test-spexs-python/mainProcess.py:128-130 | the stripped text is a slice of the input with only whitespace cut off before and after it, neither starts nor ends with whitespace, and is empty exactly when the input is all whitespace |
| Text.TrimClean | test-spexs-python/mainProcess.py:128-130 | stripping text with no surrounding whitespace leaves it unchanged |
| Text.Lower | test-spexs-python/hubspot_client.py:260-262 | lower-casing keeps the length, leaves no ASCII capital and keeps every other character |
| Text.ContainsIff | test-spexs-python/hubspot_client.py:260-264 | the substring test holds exactly when the pattern occurs at some position |
| Text.IntToDecimalRoundTrip | test-spexs-python/hubspot_client.py:116-117 | `str()` of an integer is a well-formed decimal that parses back to the same integer |
| Frame.ColumnsOf | test-spexs-python/mainProcess.py:119 | the frame's columns are exactly the keys some record has |
| Frame.FromRecords | test-spexs-python/mainProcess.py:119 | one row per record over all columns; each row reads like its record, a key it lacks being null |
| Frame.RenameRow | test-spexs-python/mainProcess.py:122-126 | every renamed field is under its new name with its old value; other fields are untouched; an old name disappears |
| Frame.Rename | test-spexs-python/mainProcess.py:146-152 | the frame keeps its row count; each row is renamed; columns follow the rename table |
| Normalize.StatusMapping | test-spexs-python/mainProcess.py:101-111 | a label maps to the id of the last reference document carrying it, and every key of the mapping is such a label |
| Normalize.NamePart | test-spexs-python/mainProcess.py:128-130 | a null name part reads as empty text; a non-text part makes the concatenation fail |
| Normalize.FullName | test-spexs-python/mainProcess.py:128-130 | the full name exists exactly when both parts are null or text, and is then the two parts, a null one read as empty text, joined by one space and stripped |
| Normalize.FullNameBothMissing | test-spexs-python/mainProcess.py:128-130 | a lead with neither name has the empty full name |
| Normalize.FullNameJoins | test-spexs-python/mainProcess.py:128-130 | two clean names are joined by one space |
| Normalize.FullNameFirstOnly | test-spexs-python/mainProcess.py:128-130 | with only a first name, the full name is that name stripped |
| Normalize.FullNameLastOnly | test-spexs-python/mainProcess.py:128-130 | with only a last name, the full name is that name stripped |
| Normalize.Truncate | test-spexs-python/mainProcess.py:134-135 | `int()` of a float truncates toward zero, for both signs |
| Normalize.LeadStatusId | test-spexs-python/mainProcess.py:134-135 | an unknown or null label gives 0; an integer id is kept; a float id is truncated toward zero; any other id fails |
| Normalize.FullNames | test-spexs-python/mainProcess.py:128-130 | the column exists exactly when every row's full name does, and then holds each row's full name |
| Normalize.FullNamesText | test-spexs-python/mainProcess.py:128-129 | every full name exists exactly when both name columns hold only text or nulls |
| Normalize.StatusIds | test-spexs-python/mainProcess.py:134-135 | the column exists exactly when every row's status id does, and then holds each row's status id |
| Normalize.LeadsFrame | test-spexs-python/mainProcess.py:114-137 | an empty frame comes back untouched; otherwise normalisation succeeds exactly when the renamed frame has the name and status columns and every row's full name and status id exist, and then the row count is kept and the columns are the renamed ones plus `full_name` and `lead_status_id` |
| Normalize.LeadsFrameOk | test-spexs-python/mainProcess.py:114-137 | an extract with the `firstname`, `lastname` and `hs_lead_status` columns, whose name cells are text or null, always normalises when the mapping's ids are numbers or null |
| Normalize.LeadColumnsRenamed | test-spexs-python/mainProcess.py:122-126 | no wire name survives the rename, and each present wire name shows up under its new name |
| Normalize.AddLeadColumnsChecked | test-spexs-python/mainProcess.py:128-135 | the derived columns are added exactly when both name columns and the status column exist and every full name and status id exists; the failures come in the order pandas meets them: a missing first-name column, then a non-text first name, then a missing last-name column, then a non-text last name, then a missing status column |
| Normalize.AddLeadColumns | test-spexs-python/mainProcess.py:128-135 | the two derived columns are added to every row and nothing else changes |
| Normalize.LeadsFrameRenames | test-spexs-python/mainProcess.py:122-126 | each normalised lead keeps its `id` and `email` and carries its first name, last name and status under the new names |
| Normalize.LeadsFrameDerived | test-spexs-python/mainProcess.py:128-135 | each normalised lead's `full_name` and `lead_status_id` are computed from its own fields |
| Normalize.ToDatetime | test-spexs-python/mainProcess.py:154-158 | a text date becomes the parsed date, or null when it does not parse; a date stays; null and every other value, numbers included, become null |
| Normalize.ParseDates | test-spexs-python/mainProcess.py:154-158 | parsing dates keeps the row's fields |
| Normalize.DealsFrame | test-spexs-python/mainProcess.py:140-160 | the row count is kept; an empty frame is untouched; otherwise no wire name remains |
| Normalize.DealsFrameRows | test-spexs-python/mainProcess.py:146-158 | each normalised deal keeps `id` and `amount`, carries stage, name and type under the new names, and holds its parsed dates |
| Normalize.CoerceAmount | test-spexs-python/mainProcess.py:75-79 | the stored amount is null or a float: text goes through `float()`, an integer becomes the same float, a float stays |
| Normalize.CoerceAmountIdempotent | test-spexs-python/mainProcess.py:75-79 | coercing an amount twice is the same as coercing it once |
| DocStore.FirstMatch | test-spexs-python/mainProcess.py:31-40 | an update targets the first document that matches its filter, or none when no document matches |
| DocStore.ApplyOne | test-spexs-python/mainProcess.py:31-40 | an upsert modifies the first matching document or appends one built from the filter; it sets every given field, keeps the fields it does not set, leaves every other document alone, and counts as modified exactly when the matched document changed |
| DocStore.BulkWrite | test-spexs-python/mainProcess.py:41-46 | every operation is either matched or upserted, and the collection grows by the upserted count |
| DocStore.BulkWriteReplay | test-spexs-python/mainProcess.py:41-46 | replaying the same keyed operations changes nothing and upserts nothing |
| DocStore.BulkWriteUntouched | test-spexs-python/mainProcess.py:41-46 | a document no operation matches is unchanged |
| DocStore.BulkWriteLastWins | test-spexs-python/mainProcess.py:41-46 | after the write, the document with a key holds every field of the last operation on that key |
| DocStore.BulkWriteUnique | test-spexs-python/mainProcess.py:41-46 | keyed upserts never create two documents with the same key |
| Upsert.RowOps | test-spexs-python/mainProcess.py:31-40 | one operation per row, filtered on that row's `id`, setting the whole row |
| Upsert.UpsertRows | test-spexs-python/mainProcess.py:19-51 | an empty frame or one without `id` writes nothing; otherwise every row is matched or upserted |
| Upsert.UpsertLeads | test-spexs-python/mainProcess.py:19-51 | the leads upsert writes nothing for an empty frame or one without `id`, and otherwise accounts for every row |
| Upsert.DealDoc | test-spexs-python/mainProcess.py:75-79 | a deal document is its row with only the amount coerced |
| Upsert.DealDocs | test-spexs-python/mainProcess.py:70-86 | one document per deal row, each the coerced row |
| Upsert.UpsertDeals | test-spexs-python/mainProcess.py:54-98 | the deals upsert writes nothing for an empty frame or one without `id`, and otherwise accounts for every row |
| Upsert.UpsertRowsReplay | test-spexs-python/mainProcess.py:31-46 | upserting the same rows twice leaves the collection as after once, and the second pass inserts nothing |
| Upsert.UpsertRowsCarries | test-spexs-python/mainProcess.py:31-46 | the stored document for an id holds every field of the last row with that id |
| Upsert.UpsertRowsUntouched | test-spexs-python/mainProcess.py:31-46 | a stored document whose id is in no row is unchanged |
| Upsert.UpsertRowsUnique | test-spexs-python/mainProcess.py:31-46 | ids stay unique in the collection |
| Upsert.UpsertLeadsReplay | test-spexs-python/mainProcess.py:19-51 | a second leads upsert with the same frame changes nothing |
| Upsert.UpsertDealsReplay | test-spexs-python/mainProcess.py:54-98 | a second deals upsert with the same frame changes nothing |
| Order.KeyLessTransitive | test-spexs-python/mainProcess.py:301-307 | the year, month, stage sort order is transitive |
| Order.KeyLessTotal | test-spexs-python/mainProcess.py:301-307 | any two distinct close keys are ordered one way or the other |
| Rollup.GroupBy | test-spexs-python/mainProcess.py:170-186 | the buckets have distinct keys; each holds exactly the documents with its key, in scan order; every document is in a bucket; sizes add up to the input |
| Rollup.AddDocGrouping | test-spexs-python/mainProcess.py:170-186 | adding one document to a correct grouping yields a correct grouping of the longer scan |
| Rollup.SumFieldValue | test-spexs-python/mainProcess.py:230-246 | `$sum` equals the total of the numeric values and ignores the rest; with no numeric value it is integer 0 |
| Rollup.SummaryIds | test-spexs-python/mainProcess.py:170-186 | rows built one per bucket of a grouping by a field have distinct ids, and their ids are exactly the values of that field |
| Rollup.LeadStatusSummary | test-spexs-python/mainProcess.py:170-186 | one row per distinct `lead_status_id` of the leads, and no other: the ids are distinct and are exactly the leads' status ids; each row counts the leads with its id and carries the status of the first of them in scan order; the counts add up to the number of leads |
| Rollup.DealsSummary | test-spexs-python/mainProcess.py:230-246 | one row per distinct `deal_stage` of the deals, and no other; each row counts the deals of its stage and sums their numeric amounts, integer 0 when none has one; the counts add up to the number of deals |
| Rollup.CloseKeyOf | test-spexs-python/mainProcess.py:291-299 | the key is the deal's stage with the year and month of its close date, both null when the date is null |
| Rollup.Insert | test-spexs-python/mainProcess.py:301-307 | inserting a new bucket into sorted buckets keeps them sorted and adds exactly that bucket |
| Rollup.SortGroups | test-spexs-python/mainProcess.py:301-307 | the buckets come out sorted by year, month and stage, as a permutation of the input |
| Rollup.CloseGroups | test-spexs-python/mainProcess.py:291-307 | the aggregation fails exactly when some close date is neither null nor a date; otherwise the buckets are a sorted permutation of the grouping |
| Rollup.CloseSummary | test-spexs-python/mainProcess.py:288-317 | the aggregation fails exactly when some close date is neither null nor a date; otherwise there is one row per distinct (year, month, stage) of the deals and no other, in strictly ascending order, each counting the deals with that key and summing their numeric amounts |
| Rollup.CloseGroupsMembers | test-spexs-python/mainProcess.py:291-307 | sorting keeps each bucket exactly the deals with its key |
| Rollup.CloseGroupsKeys | test-spexs-python/mainProcess.py:291-299 | each sorted bucket's key is some deal's close key |
| Rollup.CloseGroupsCover | test-spexs-python/mainProcess.py:291-299 | each deal's close key has a sorted bucket |
| Rollup.SummaryWrite | test-spexs-python/mainProcess.py:190-199 | after the keyed upserts, each row no later row shares a key with is in the first document with its key, a document with no row's key is unchanged, and unique keys stay unique |
| Rollup.StoreSummary | test-spexs-python/mainProcess.py:190-214 | no rows writes nothing; otherwise every row is matched or upserted, each row no later row shares a key with ends up in the first document with its key, a document with no row's key is kept, and unique keys stay unique |
| Rollup.StoreSummaryReplay | test-spexs-python/mainProcess.py:190-199 | storing the same summary rows twice leaves the collection as after once |
| Rollup.StoreById | test-spexs-python/mainProcess.py:190-199 | rows with distinct ids are all stored under their ids, and a document whose id is no source document's key field is kept |
| Rollup.StoreByCloseKey | test-spexs-python/mainProcess.py:322-335 | rows in strictly ascending key order are all stored under their (year, month, deal_stage) key, and a document whose key is no deal's close key is kept |
| Rollup.StoreLeadStatusSummary | test-spexs-python/mainProcess.py:163-220 | no leads writes nothing; otherwise every summary row is stored under its id, a stored document whose id is no lead's status id is kept, and one document per id stays one document per id |
| Rollup.StoreDealsSummary | test-spexs-python/mainProcess.py:223-279 | no deals writes nothing; otherwise every stage row is stored under its id, a stored document whose id is no deal's stage is kept, and one document per id stays one document per id |
| Rollup.StoreCloseSummary | test-spexs-python/mainProcess.py:282-355 | a failed aggregation or no deals writes nothing; otherwise every row is stored under its (year, month, deal_stage) key, a stored document whose key is no deal's close key is kept, and one document per key stays one document per key |
| Sync.Put | test-spexs-python/mainProcess.py:394-409 | storing one collection leaves every other collection as it was |
| Sync.LeadsUpsertStage | test-spexs-python/mainProcess.py:394-399 | the leads upsert touches only `leads`, and nothing for an empty frame |
| Sync.LeadsSummaryStage | test-spexs-python/mainProcess.py:394-399 | the lead summary touches only its own collection, and nothing when there are no leads |
| Sync.SyncLeads | test-spexs-python/mainProcess.py:394-399 | a normalisation error writes nothing; the run touches only `leads` and `resume_lead_status` |
| Sync.SyncLeadsIdempotent | test-spexs-python/mainProcess.py:394-399 | a second leads run with the same extract changes nothing |
| Sync.DealsUpsertStage | test-spexs-python/mainProcess.py:400-409 | the deals upsert touches only `deals`, and nothing for an empty frame |
| Sync.DealsSummaryStage | test-spexs-python/mainProcess.py:400-409 | the stage summary touches only its own collection, and nothing when there are no deals |
| Sync.CloseSummaryStage | test-spexs-python/mainProcess.py:400-409 | the close summary touches only its own collection, and nothing when the aggregation fails |
| Sync.SyncDeals | test-spexs-python/mainProcess.py:400-409 | the run touches only `deals`, `total_deals` and `resume_close_deals` |
| Sync.SyncDealsIdempotent | test-spexs-python/mainProcess.py:400-409 | a second deals run with the same extract changes nothing |
| JsonInput.PyStr | test-spexs-python/hubspot_client.py:116-117 | `str()` of text is the text and of an integer its decimal form |
| JsonInput.Records | test-spexs-python/hubspot_client.py:196-219 | only a list yields records; anything else ends like an empty list |
| JsonInput.FileRecords | test-spexs-python/hubspot_client.py:168-172 | a missing or unreadable file yields no record |
| Crm.TruthyIds | test-spexs-python/hubspot_client.py:216-217 | only non-empty ids are kept, at most one per call |
| Crm.TruthyIdsExact | test-spexs-python/hubspot_client.py:216-217 | every non-empty id a call returned is listed, and every listed id was returned by some call |
| Crm.ReturnedIdsExact | test-spexs-python/hubspot_client.py:520-521 | there is one listed id per call that did not raise; every returned id is listed and every listed id was returned |
| Crm.Succeeded | test-spexs-python/hubspot_client.py:589-594 | the number of calls that did not raise, at most the number of calls |
| Crm.SucceededExact | test-spexs-python/hubspot_client.py:589-594 | every call succeeded exactly when none raised, and none succeeded exactly when all raised |
| Properties.DropFalsy | test-spexs-python/hubspot_client.py:67 | a key is kept exactly when its value is truthy, with its value unchanged |
| Properties.ContactProps | test-spexs-python/hubspot_client.py:55-67 | each of the six fields is submitted exactly when truthy; the lifecycle stage and lead status only for a lead; nothing falsy is submitted |
| Properties.CreateContact | test-spexs-python/hubspot_client.py:50-79 | one contact creation answered by the next outcome; it submits only known keys and no falsy value, the email exactly when truthy, and the lifecycle stage `lead` and the lead status only for a lead |
| Properties.ContactId | test-spexs-python/hubspot_client.py:73-79 | the id is present exactly when the creation did not raise |
| Properties.CompanyProps | test-spexs-python/hubspot_client.py:81-94 | the name always; domain, phone and city exactly when truthy; keyword arguments override |
| Properties.CreateCompany | test-spexs-python/hubspot_client.py:81-106 | one company creation answered by the next outcome; it always submits a name, the domain, phone and city exactly when truthy, and the keyword arguments over them |
| Properties.DealProps | test-spexs-python/hubspot_client.py:108-119 | name and stage always; the amount as text exactly when truthy; keyword arguments override |
| Properties.DealAmountReadsBack | test-spexs-python/hubspot_client.py:116-117 | a non-zero integer amount is submitted as text that parses back to the same integer |
| Properties.CreateDeal | test-spexs-python/hubspot_client.py:108-137 | one deal creation answered by the next outcome; it always submits a name and a stage, the amount as text exactly when truthy, and the keyword arguments over them |
| Loader.Choice | test-spexs-python/hubspot_client.py:198-199 | a random choice is an element of the list |
| Loader.AssignLead | test-spexs-python/hubspot_client.py:197-199 | a contact is a lead exactly when statuses are assigned and the draw is below 0.8; a lead's status is one of the eight, otherwise "NEW" |
| Loader.ContactsFrom | test-spexs-python/hubspot_client.py:196-219 | call i is the contact creation of record i with draw i; the loop reaches the end exactly when every record is an object, and otherwise the calls stop right at the first record that is not one; the ids are the non-empty ones returned; outcomes come from the oracle in order |
| Loader.LoadContacts | test-spexs-python/hubspot_client.py:168-227 | no file means no call; call i creates record i's contact; with all records objects there is one call per record and the truthy ids are returned; otherwise every record before the first non-object got its contact creation, none after, and no id is returned |
| Loader.LoadContactsAssignment | test-spexs-python/hubspot_client.py:196-214 | the i-th contact is submitted as a lead exactly when its draw says so, with one of the eight statuses, and nothing falsy |
| Loader.LeadParts | test-spexs-python/hubspot_client.py:243-246 | a lead record is processed exactly when it and its contact and company parts are objects |
| Loader.WellFormed | test-spexs-python/hubspot_client.py:329-336 | at most one processed record per record |
| Loader.AfterDenial | test-spexs-python/hubspot_client.py:260-265 | the calls after the first refused company creation are strictly fewer than the log |
| Loader.PairedLeads | test-spexs-python/hubspot_client.py:290-294 | each lead is associated and has a non-empty contact id, and needs two calls |
| Loader.ContactsOnlyFrom | test-spexs-python/hubspot_client.py:329-354 | contact creation k carries the k-th well-formed record's contact fields and company name, one per such record, and the count is the creations that got an id |
| Loader.LoadLeadsAsContactsOnly | test-spexs-python/hubspot_client.py:315-362 | no file gives 0 and no call; otherwise contact creation k is the k-th well-formed record's contact with its company name, one per such record, the count being those with an id |
| Loader.LeadsFrom | test-spexs-python/hubspot_client.py:243-305 | the calls follow the records: each well-formed record makes its company creation; a created company is followed by the record's contact creation; a refused one by the contacts-only run; any other failure skips to the next record. The result is a lead list exactly when no company creation was refused, and then it is the company/contact pairs of the log; otherwise it is the count of the contacts-only run that starts right after the refusal |
| Loader.LeadCallsCompanies | test-spexs-python/hubspot_client.py:243-265 | company creation k of a leads pass is the one for the k-th well-formed record, and without a refusal there is one for every well-formed record |
| Loader.LeadCallsPairs | test-spexs-python/hubspot_client.py:250-305 | a created company is followed by the contact creation of the same record; a company creation that failed for any reason but permission is followed by the next well-formed record's company creation |
| Loader.LeadsFromBound | test-spexs-python/hubspot_client.py:243-305 | a leads pass never returns more leads than there are records |
| Loader.LoadLeads | test-spexs-python/hubspot_client.py:229-313 | no file gives no lead and no call; the calls follow the records as in the leads loop, company creation k being the k-th well-formed record's; a lead list means one company creation per well-formed record, and holds the log's successful pairs, each associated with a non-empty contact id; after a refusal the contacts-only count over the whole file is returned, with one contact creation per well-formed record |
| Loader.AssignDeal | test-spexs-python/hubspot_client.py:475-494 | a random stage is one of the seven, else the record's stage or the default; a contact is linked exactly when there are contacts and the draw is below 0.7; a company below 0.6; each linked id exists |
| Loader.DealExtra | test-spexs-python/hubspot_client.py:508-518 | pipeline, close date, type and description are always passed as keyword arguments |
| Loader.DealCall | test-spexs-python/hubspot_client.py:508-518 | the deal creation for the record with its draws: a name, a stage from the allowed ones or the record's own, answered by the oracle |
| Loader.DealsFrom | test-spexs-python/hubspot_client.py:472-529 | records that are not objects are skipped and the loop goes on; call k is the deal creation of the k-th object record with that record's draws, one per object record; the ids are the returned ones; outcomes come from the oracle in order |
| Loader.LoadDeals | test-spexs-python/hubspot_client.py:433-537 | no file means no call; call k is the deal creation of the k-th object record, one per object record; the ids are the ones returned |
| Loader.LoadDealsRecord | test-spexs-python/hubspot_client.py:472-518 | deal creation k carries the k-th object record's name, its amount as text exactly when truthy, its pipeline, close date, type and description, and a stage among the seven when randomised and the record's own otherwise |
| Loader.Summary | test-spexs-python/hubspot_client.py:553-558 | the total is the sum of the three counts |
| Loader.BulkLoadAsWritten | test-spexs-python/hubspot_client.py:539-565 | the bulk load raises exactly when the leads load fell back to contacts only |
| Loader.BulkLoad | test-spexs-python/hubspot_client.py:539-565 | the corrected bulk load always reports; it runs contacts, then leads, then deals, each continuing the session where the previous stopped, and reports their counts; each count is bounded by its file, the total adds up, it makes the same calls, and it agrees whenever the original reports |
| Loader.BulkLoadAsWrittenRaises | test-spexs-python/hubspot_client.py:553-558 | one refused company creation in the leads file makes the original raise while the corrected load reports zero |
| Deletion.ArchiveEach | test-spexs-python/hubspot_client.py:584-594 | one archive call per fetched id, in order, counting the ones that did not raise |
| Deletion.DeleteAll | test-spexs-python/hubspot_client.py:567-603 | nothing fetched means no call and 0; otherwise one archive per id and the count of successes |
| Deletion.DeleteAllData | test-spexs-python/hubspot_client.py:681-708 | deals, then contacts, then companies are archived, each count being that phase's successes |
| Deletion.DeleteAllDataTotal | test-spexs-python/hubspot_client.py:700-701 | the three counts add up to all successful archives, at most the number of fetched records |

## Left out

- CRM SDK calls are the `Oracle`, and the record listings of `get_existing_contacts`, `get_existing_deals` and `get_existing_companies` are given as id sequences. Their paging is not modelled, and neither is the 100-record page limit.
- Database connections and their failures, `print` and logging are not modelled.
- Real `float()` and `pd.to_datetime` parsing is not modelled. Both are injected text-to-value functions.
- Random numbers are not modelled as distributions. Each record gets a given draw: a coin in `[0, 1)` compared against 0.8, 0.7 or 0.6, and an index for `random.choice`.
- The CLI wrappers, configuration and the separate NestJS project are not part of this model.
- Lower-casing is ASCII only; non-ASCII case folding is not modelled.
- `str()` of floats, lists and dicts is a given `render` function.
- pandas specifics are not modelled:
  - duplicate columns after a rename keep only the renamed value;
  - dtypes are not modelled;
  - a null label never matches the status mapping;
  - a text id makes `astype(int)` fail.
- The `_id` field the store adds to documents is not modelled.
- Python floats are modelled as exact reals. The rounding of `float()` and of `$sum` over floats is not modelled.
- Integer and float amounts are different values. The store's cross-type numeric equality is not modelled.
- `$year` and `$month` read the date's own fields; time zones are not modelled.
- `$group` output order is unspecified by the store. The model emits buckets in order of first appearance.
- `bulk_write` failures and their error handler are not modelled.
- A JSON file whose top level is not a list yields no records. The record loop raises on it before any call, so this matches the program's outcome.
- The contacts-only fallback re-reads the leads file and is assumed to see the same content.
- The association helpers only log and make no CRM call, so no call is modelled for them.
- In `delete_all_deals`, a failed listing is treated like an empty one.
- Loader.LeadsFrom: a lead's company id is the id the company creation returned. The program tests the response object itself, which is always truthy.
- The fallback after a refused company creation processes the whole leads file again, as the code does (hubspot_client.py line 265). The records before the refusal therefore get a second contact; a fallback over only the remaining records is not modelled.
- Normalize.ToDatetime: a numeric cell becomes null, where pandas would read it as nanoseconds since the epoch. The CRM extract's dates are always text or null, so this case does not arise there. pandas' inference of one date format for the whole column is not modelled either; each cell is parsed on its own.
- Rollup.CloseKeyOf: a deal without a `deal_stage` field is grouped like one whose stage is null. In the store, `$group` then leaves `deal_stage` out of `_id`, and `result["deal_stage"]` (mainProcess.py line 330) raises `KeyError`. That failure is not modelled. Rows from the CRM extract always carry the column after the rename.
- Loader.LoadContacts: when a record is not an object, the per-file handler returns `[]` after the calls already made. The model keeps those calls but returns no id.

## Findings

| source | as written | input that shows it | evidently intended | confidence | as-written member | corrected member |
|---|---|---|---|---|---|---|
| test-spexs-python/hubspot_client.py:553-558 | the summary applies `len(leads)` to what the leads load returned; after a refused company creation that is the integer count from the contacts-only fallback (line 265), so `len` raises `TypeError` after all three loads have made their calls | a leads file `[{}]` whose company creation answers "403 Forbidden" | count the fallback's contacts as the leads loaded | not executed | Loader.BulkLoadAsWritten | Loader.BulkLoad |

=== FILE: crm.dfy ===
/** The CRM as the loaders see it: every API call is a request plus the
    outcome the CRM gave, and the outcomes are an injected sequence indexed
    by how many calls were made before. */
module Crm {
  import opened JsonInput

  type Props = map<string, Json>

  datatype ObjectType = Contact | Company | Deal

  datatype Request =
    | Create(kind: ObjectType, props: Props)
    | Archive(kind: ObjectType, id: string)

  /** The call returned an object with this id, or raised an exception
      with this text. */
  datatype Outcome = Returned(id: string) | Raised(message: string)

  datatype Call = Call(request: Request, outcome: Outcome)

  /** The calls made so far, oldest first. */
  type Log = seq<Call>

  /** The outcome of the n-th call of the session. */
  type Oracle = nat -> Outcome

  /** Issue `request` as the next call after `log`. */
  function Send(log: Log, oracle: Oracle, request: Request): (c: Call)
    ensures c.request == request
    ensures c.outcome == oracle(|log|)
  {
    Call(request, oracle(|log|))
  }

  /** The creations in `calls` that returned a non-empty id, in order. */
  function TruthyIds(calls: seq<Call>): (ids: seq<string>)
    ensures |ids| <= |calls|
    ensures forall i :: 0 <= i < |ids| ==> ids[i] != ""
  {
    if calls == [] then []
    else
      (if calls[0].outcome.Returned? && calls[0].outcome.id != "" then [calls[0].outcome.id] else [])
      + TruthyIds(calls[1..])
  }

  /** Every non-empty returned id is listed, and only returned ids are. */
  lemma {:induction false} TruthyIdsExact(calls: seq<Call>)
    ensures forall i :: 0 <= i < |calls| && calls[i].outcome.Returned? && calls[i].outcome.id != "" ==>
      calls[i].outcome.id in TruthyIds(calls)
    ensures forall k :: 0 <= k < |TruthyIds(calls)| ==>
      exists i :: 0 <= i < |calls| && calls[i].outcome == Returned(TruthyIds(calls)[k])
    decreases |calls|
  {
    if calls == [] {
      assert TruthyIds(calls) == [];
    } else {
      TruthyIdsExact(calls[1..]);
      assert forall i :: 1 <= i < |calls| ==> calls[i] == calls[1..][i - 1];
      var ids := TruthyIds(calls);
      var rest := TruthyIds(calls[1..]);
      var first := if calls[0].outcome.Returned? && calls[0].outcome.id != "" then [calls[0].outcome.id] else [];
      assert ids == first + rest;
      forall k | 0 <= k < |ids|
        ensures exists i :: 0 <= i < |calls| && calls[i].outcome == Returned(ids[k])
      {
        if k < |first| {
          assert calls[0].outcome == Returned(ids[k]);
        } else {
          assert ids[k] == rest[k - |first|];
          var i :| 0 <= i < |calls[1..]| && calls[1..][i].outcome == Returned(rest[k - |first|]);
          assert calls[i + 1].outcome == Returned(ids[k]);
        }
      }
    }
  }

  /** The ids returned by `calls`, in order, empty ones included. */
  function ReturnedIds(calls: seq<Call>): (ids: seq<string>)
    ensures |ids| <= |calls|
  {
    if calls == [] then []
    else (if calls[0].outcome.Returned? then [calls[0].outcome.id] else []) + ReturnedIds(calls[1..])
  }

  /** One id per call that did not raise: every returned id is listed, and
      only returned ids are. */
  lemma {:induction false} ReturnedIdsExact(calls: seq<Call>)
    ensures |ReturnedIds(calls)| == Succeeded(calls)
    ensures forall i :: 0 <= i < |calls| && calls[i].outcome.Returned? ==> calls[i].outcome.id in ReturnedIds(calls)
    ensures forall k :: 0 <= k < |ReturnedIds(calls)| ==>
      exists i :: 0 <= i < |calls| && calls[i].outcome == Returned(ReturnedIds(calls)[k])
    decreases |calls|
  {
    if calls != [] {
      ReturnedIdsExact(calls[1..]);
      assert forall i :: 1 <= i < |calls| ==> calls[i] == calls[1..][i - 1];
    }
  }

  /** How many of `calls` did not raise. */
  function Succeeded(calls: seq<Call>): (n: nat)
    ensures n <= |calls|
  {
    if calls == [] then 0 else (if calls[0].outcome.Returned? then 1 else 0) + Succeeded(calls[1..])
  }

  /** All calls succeeded exactly when none raised; none succeeded exactly
      when all raised. */
  lemma {:induction false} SucceededExact(calls: seq<Call>)
    ensures Succeeded(calls) == |calls| <==> forall i :: 0 <= i < |calls| ==> calls[i].outcome.Returned?
    ensures Succeeded(calls) == 0 <==> forall i :: 0 <= i < |calls| ==> calls[i].outcome.Raised?
    decreases |calls|
  {
    if calls != [] {
      SucceededExact(calls[1..]);
      assert forall i :: 1 <= i < |calls| ==> calls[i] == calls[1..][i - 1];
    }
  }

  /** Every call in `calls` creates an object of type `kind`. */
  predicate AllCreate(calls: seq<Call>, kind: ObjectType) {
    forall i :: 0 <= i < |calls| ==> calls[i].request.Create? && calls[i].request.kind == kind
  }

  lemma AllCreateCons(c: Call, rest: seq<Call>, kind: ObjectType)
    requires c.request.Create? && c.request.kind == kind && AllCreate(rest, kind)
    ensures AllCreate([c] + rest, kind)
  {
    var calls := [c] + rest;
    forall i | 0 <= i < |calls|
      ensures calls[i].request.Create? && calls[i].request.kind == kind
    {
      if i > 0 {
        assert calls[i] == rest[i - 1];
      }
    }
  }

  /** The i-th of `calls` got the outcome of call number |log| + i. */
  predicate Answered(calls: seq<Call>, log: Log, oracle: Oracle) {
    forall i :: 0 <= i < |calls| ==> calls[i].outcome == oracle(|log| + i)
  }

  /** A call answered at |log| followed by calls answered after it. */
  lemma AnsweredCons(c: Call, rest: seq<Call>, log: Log, oracle: Oracle)
    requires c.outcome == oracle(|log|)
    requires Answered(rest, log + [c], oracle)
    ensures Answered([c] + rest, log, oracle)
  {
    var calls := [c] + rest;
    forall i | 0 <= i < |calls|
      ensures calls[i].outcome == oracle(|log| + i)
    {
      if i > 0 {
        assert calls[i] == rest[i - 1];
        assert |log + [c]| + (i - 1) == |log| + i;
      }
    }
  }

  /** Calls answered after `log`, then calls answered after those. */
  lemma AnsweredAppend(a: seq<Call>, b: seq<Call>, log: Log, oracle: Oracle)
    requires Answered(a, log, oracle)
    requires Answered(b, log + a, oracle)
    ensures Answered(a + b, log, oracle)
  {
    forall i | 0 <= i < |a + b|
      ensures (a + b)[i].outcome == oracle(|log| + i)
    {
      if i >= |a| {
        assert (a + b)[i] == b[i - |a|];
        assert |log + a| + (i - |a|) == |log| + i;
      }
    }
  }
}

=== FILE: deletion.dfy ===
/** The delete loops: archive every fetched record one by one, counting the
    archive calls that did not raise, and the full wipe that runs them for
    deals, contacts and companies in that order. The fetched pages are
    given; a failed fetch behaves like an empty page. */
module Deletion {
  import opened Crm

  datatype Deleted = Deleted(calls: seq<Call>, count: nat)

  /** `calls` archive the records `ids` of type `kind`, one each, in order. */
  predicate Archives(calls: seq<Call>, kind: ObjectType, ids: seq<string>) {
    |calls| == |ids| && forall i :: 0 <= i < |ids| ==> calls[i].request == Archive(kind, ids[i])
  }

  /** One archive call per id, in order. */
  function ArchiveEach(kind: ObjectType, ids: seq<string>, log: Log, oracle: Oracle): (r: Deleted)
    decreases |ids|
    ensures Archives(r.calls, kind, ids)
    ensures Answered(r.calls, log, oracle)
    ensures r.count == Succeeded(r.calls)
  {
    if ids == [] then Deleted([], 0)
    else
      var c := Send(log, oracle, Archive(kind, ids[0]));
      var rest := ArchiveEach(kind, ids[1..], log + [c], oracle);
      assert ([c] + rest.calls)[1..] == rest.calls;
      AnsweredCons(c, rest.calls, log, oracle);
      Deleted([c] + rest.calls, (if c.outcome.Returned? then 1 else 0) + rest.count)
  }

  /** `delete_all_contacts`, `delete_all_companies` and `delete_all_deals`:
      nothing fetched, nothing deleted; otherwise the number of archive
      calls that did not raise. */
  function DeleteAll(kind: ObjectType, fetched: seq<string>, log: Log, oracle: Oracle): (r: Deleted)
    ensures fetched == [] ==> r == Deleted([], 0)
    ensures r.count <= |fetched|
    ensures r.count == Succeeded(r.calls)
    ensures Archives(r.calls, kind, fetched)
    ensures Answered(r.calls, log, oracle)
  {
    if fetched == [] then Deleted([], 0) else ArchiveEach(kind, fetched, log, oracle)
  }

  datatype DeleteSummary = DeleteSummary(contactsDeleted: nat, companiesDeleted: nat, dealsDeleted: nat)

  datatype DeleteRun = DeleteRun(calls: seq<Call>, summary: DeleteSummary)

  /** `delete_all_data`: deals first, then contacts, then companies. */
  function DeleteAllData(deals: seq<string>, contacts: seq<string>, companies: seq<string>,
                         log: Log, oracle: Oracle): (r: DeleteRun)
    ensures |r.calls| == |deals| + |contacts| + |companies|
    ensures Archives(r.calls[..|deals|], Deal, deals)
    ensures Archives(r.calls[|deals|..|deals| + |contacts|], Contact, contacts)
    ensures Archives(r.calls[|deals| + |contacts|..], Company, companies)
    ensures r.summary.dealsDeleted == Succeeded(r.calls[..|deals|])
    ensures r.summary.contactsDeleted == Succeeded(r.calls[|deals|..|deals| + |contacts|])
    ensures r.summary.companiesDeleted == Succeeded(r.calls[|deals| + |contacts|..])
    ensures Answered(r.calls, log, oracle)
  {
    var d := DeleteAll(Deal, deals, log, oracle);
    var c := DeleteAll(Contact, contacts, log + d.calls, oracle);
    var m := DeleteAll(Company, companies, log + d.calls + c.calls, oracle);
    var calls := d.calls + c.calls + m.calls;
    assert calls[..|deals|] == d.calls;
    assert calls[|deals|..|deals| + |contacts|] == c.calls;
    assert calls[|deals| + |contacts|..] == m.calls;
    AnsweredAppend(d.calls, c.calls, log, oracle);
    assert log + d.calls + c.calls == log + (d.calls + c.calls);
    AnsweredAppend(d.calls + c.calls, m.calls, log, oracle);
    DeleteRun(calls, DeleteSummary(c.count, m.count, d.count))
  }

  /** The counts of a segmented log add up. */
  lemma {:induction false} SucceededAppend(a: seq<Call>, b: seq<Call>)
    ensures Succeeded(a + b) == Succeeded(a) + Succeeded(b)
    decreases |a|
  {
    if a != [] {
      assert (a + b)[0] == a[0];
      assert (a + b)[1..] == a[1..] + b;
      SucceededAppend(a[1..], b);
    } else {
      assert a + b == b;
    }
  }

  /** The three counts of a full wipe add up to the archive calls that did
      not raise, which is at most the number of records fetched. */
  lemma DeleteAllDataTotal(deals: seq<string>, contacts: seq<string>, companies: seq<string>, log: Log, oracle: Oracle)
    ensures var r := DeleteAllData(deals, contacts, companies, log, oracle);
      && r.summary.dealsDeleted + r.summary.contactsDeleted + r.summary.companiesDeleted == Succeeded(r.calls)
      && Succeeded(r.calls) <= |deals| + |contacts| + |companies|
  {
    var r := DeleteAllData(deals, contacts, companies, log, oracle);
    var k := |deals| + |contacts|;
    assert r.calls[..k] == r.calls[..|deals|] + r.calls[|deals|..k];
    assert r.calls == r.calls[..k] + r.calls[k..];
    SucceededAppend(r.calls[..|deals|], r.calls[|deals|..k]);
    SucceededAppend(r.calls[..k], r.calls[k..]);
  }
}

=== FILE: docstore.dfy ===
/** The slice of MongoDB the sync path writes through: a collection in
    natural order, `UpdateOne(filter, {"$set": set}, upsert=True)` and an
    ordered `bulk_write` with its matched/modified/upserted tallies. */
module DocStore {
  import opened Wrappers
  import opened Values

  /** `UpdateOne(filter, {"$set": set}, upsert=True)`. */
  datatype Update = Update(filter: Doc, fields: Doc)

  /** A collection's documents in natural order. */
  type Collection = seq<Doc>

  /** Equality query: every filter field equals the document's field, a
      missing field reading as null. */
  predicate Matches(d: Doc, filter: Doc) {
    forall k :: k in filter ==> Get(d, k) == filter[k]
  }

  /** The first document in natural order the filter selects. */
  function FirstMatch(c: Collection, filter: Doc): (r: Option<nat>)
    ensures r.Some? ==> r.value < |c| && Matches(c[r.value], filter)
    ensures r.Some? ==> forall j :: 0 <= j < r.value ==> !Matches(c[j], filter)
    ensures r.None? <==> forall j :: 0 <= j < |c| ==> !Matches(c[j], filter)
  {
    if c == [] then None
    else if Matches(c[0], filter) then Some(0)
    else
      match FirstMatch(c[1..], filter)
      case None => None
      case Some(i) => Some(i + 1)
  }

  /** The collection after one update, whether it matched and whether the
      matched document actually changed. */
  datatype Applied = Applied(c: Collection, matched: bool, modified: bool)

  /** Where one update lands: the first match, or a new last position. */
  function Target(c: Collection, filter: Doc): nat {
    match FirstMatch(c, filter)
    case Some(i) => i
    case None => |c|
  }

  /** One upserting update: the first match gets the `$set` fields, and
      without a match a document of the filter's fields and the `$set`
      fields is appended. */
  function ApplyOne(c: Collection, u: Update): (a: Applied)
    ensures a.matched <==> FirstMatch(c, u.filter).Some?
    ensures |a.c| == |c| + (if a.matched then 0 else 1)
    ensures forall j :: 0 <= j < |c| && j != Target(c, u.filter) ==> a.c[j] == c[j]
    ensures forall k :: k in u.fields ==> Get(a.c[Target(c, u.filter)], k) == u.fields[k]
    ensures a.matched ==>
      forall k :: k !in u.fields ==> Get(a.c[Target(c, u.filter)], k) == Get(c[Target(c, u.filter)], k)
    ensures !a.matched ==>
      forall k :: k !in u.fields ==> Get(a.c[Target(c, u.filter)], k) == Get(u.filter, k)
    ensures a.modified <==> a.matched && a.c[Target(c, u.filter)] != c[Target(c, u.filter)]
  {
    match FirstMatch(c, u.filter)
    case Some(i) => Applied(c[i := c[i] + u.fields], true, c[i] + u.fields != c[i])
    case None => Applied(c + [u.filter + u.fields], false, false)
  }

  /** `BulkWriteResult`: matched, modified and upserted counts. */
  datatype BulkResult = BulkResult(matched: nat, modified: nat, upserted: nat)

  datatype Written = Written(c: Collection, result: BulkResult)

  /** An ordered `bulk_write`: the updates applied one after another. */
  function BulkWrite(c: Collection, ops: seq<Update>): (w: Written)
    ensures w.result.matched + w.result.upserted == |ops|
    ensures w.result.modified <= w.result.matched
    ensures |w.c| == |c| + w.result.upserted
    decreases |ops|
  {
    if ops == [] then Written(c, BulkResult(0, 0, 0))
    else
      var w0 := BulkWrite(c, ops[..|ops| - 1]);
      var a := ApplyOne(w0.c, ops[|ops| - 1]);
      Written(a.c, BulkResult(
        w0.result.matched + (if a.matched then 1 else 0),
        w0.result.modified + (if a.modified then 1 else 0),
        w0.result.upserted + (if a.matched then 0 else 1)))
  }

  // ---------------------------------------------------------------- keyed batches

  /** The update filters on exactly the fields `keys`, and its `$set`
      carries the same values for them (a row's own `id`, a summary's own
      key). */
  predicate KeyedOp(u: Update, keys: set<string>) {
    && u.filter.Keys == keys
    && forall k :: k in keys ==> k in u.fields && u.fields[k] == u.filter[k]
  }

  predicate Keyed(ops: seq<Update>, keys: set<string>) {
    forall i :: 0 <= i < |ops| ==> KeyedOp(ops[i], keys)
  }

  /** The key fields of a document. */
  function Proj(d: Doc, keys: set<string>): (p: Doc)
    ensures p.Keys == keys
    ensures forall k :: k in keys ==> p[k] == Get(d, k)
  {
    map k | k in keys :: Get(d, k)
  }

  /** A filter over `keys` selects exactly the documents whose key fields
      equal it. */
  lemma MatchesProj(d: Doc, filter: Doc, keys: set<string>)
    requires filter.Keys == keys
    ensures Matches(d, filter) <==> Proj(d, keys) == filter
  {
    if Matches(d, filter) {
      assert forall k :: k in keys ==> Proj(d, keys)[k] == filter[k];
    }
  }

  /** `c2` extends `c1` without touching any document's key fields. */
  predicate SameProj(c1: Collection, c2: Collection, keys: set<string>) {
    && |c1| <= |c2|
    && forall j :: 0 <= j < |c1| ==> Proj(c1[j], keys) == Proj(c2[j], keys)
  }

  /** A filter that already selects a document keeps selecting the same
      one while key fields stay put. */
  lemma FirstMatchStable(c1: Collection, c2: Collection, filter: Doc, keys: set<string>)
    requires filter.Keys == keys && SameProj(c1, c2, keys)
    requires FirstMatch(c1, filter).Some?
    ensures FirstMatch(c2, filter) == FirstMatch(c1, filter)
  {
    var i := FirstMatch(c1, filter).value;
    MatchesProj(c1[i], filter, keys);
    MatchesProj(c2[i], filter, keys);
    assert Matches(c2[i], filter);
    forall j | 0 <= j < i
      ensures !Matches(c2[j], filter)
    {
      MatchesProj(c1[j], filter, keys);
      MatchesProj(c2[j], filter, keys);
    }
    var r := FirstMatch(c2, filter);
    assert r.Some?;
    assert r.value <= i;
  }

  /** A keyed update never changes key fields; an appended document holds
      exactly the filter's key fields. */
  lemma ApplyOneProj(c: Collection, u: Update, keys: set<string>)
    requires KeyedOp(u, keys)
    ensures SameProj(c, ApplyOne(c, u).c, keys)
    ensures !ApplyOne(c, u).matched ==> Proj(ApplyOne(c, u).c[|c|], keys) == u.filter
    ensures FirstMatch(ApplyOne(c, u).c, u.filter) == Some(Target(c, u.filter))
  {
    var a := ApplyOne(c, u);
    var t := Target(c, u.filter);
    match FirstMatch(c, u.filter)
    case Some(i) =>
      MatchesProj(c[i], u.filter, keys);
      assert Proj(a.c[i], keys) == Proj(c[i], keys);
      FirstMatchStable(c, a.c, u.filter, keys);
    case None =>
      assert Proj(a.c[|c|], keys) == u.filter;
      MatchesProj(a.c[|c|], u.filter, keys);
      forall j | 0 <= j < |c|
        ensures !Matches(a.c[j], u.filter)
      {
        assert a.c[j] == c[j];
      }
  }

  /** Every update of the batch selects some document of `c`. */
  predicate Placed(c: Collection, ops: seq<Update>) {
    forall i :: 0 <= i < |ops| ==> FirstMatch(c, ops[i].filter).Some?
  }

  /** A keyed batch keeps key fields and leaves every one of its filters
      selecting a document. */
  lemma {:induction false} BulkWriteKeyed(c: Collection, ops: seq<Update>, keys: set<string>)
    requires Keyed(ops, keys)
    ensures SameProj(c, BulkWrite(c, ops).c, keys)
    ensures Placed(BulkWrite(c, ops).c, ops)
    decreases |ops|
  {
    if ops != [] {
      var init := ops[..|ops| - 1];
      var u := ops[|ops| - 1];
      var w0 := BulkWrite(c, init);
      var a := ApplyOne(w0.c, u);
      assert Keyed(init, keys);
      BulkWriteKeyed(c, init, keys);
      ApplyOneProj(w0.c, u, keys);
      assert a.c == BulkWrite(c, ops).c;
      forall i | 0 <= i < |ops|
        ensures FirstMatch(a.c, ops[i].filter).Some?
      {
        if i < |ops| - 1 {
          assert ops[i] == init[i];
          FirstMatchStable(w0.c, a.c, ops[i].filter, keys);
        }
      }
    }
  }

  // ---------------------------------------------------------------- the batch's effect

  /** A position's document before the batch: nothing for a new one. */
  function Base(c: Collection, p: nat): Doc {
    if p < |c| then c[p] else map[]
  }

  /** The `$set` maps of the updates that land on position `p` of `c`,
      later ones overriding earlier ones. */
  function Merged(ops: seq<Update>, c: Collection, p: nat): Doc
    decreases |ops|
  {
    if ops == [] then map[]
    else
      var u := ops[|ops| - 1];
      Merged(ops[..|ops| - 1], c, p) + (if FirstMatch(c, u.filter) == Some(p) then u.fields else map[])
  }

  /** Nothing lands on a position no update selects. */
  lemma {:induction false} MergedNoTarget(ops: seq<Update>, c: Collection, p: nat)
    requires forall i :: 0 <= i < |ops| ==> FirstMatch(c, ops[i].filter) != Some(p)
    ensures Merged(ops, c, p) == map[]
    decreases |ops|
  {
    if ops != [] {
      var init := ops[..|ops| - 1];
      assert forall i :: 0 <= i < |init| ==> init[i] == ops[i];
      MergedNoTarget(init, c, p);
    }
  }

  /** While key fields stay put, every placed update lands where it did. */
  lemma {:induction false} MergedStable(ops: seq<Update>, c1: Collection, c2: Collection, keys: set<string>, p: nat)
    requires Keyed(ops, keys) && Placed(c1, ops) && SameProj(c1, c2, keys)
    ensures Merged(ops, c1, p) == Merged(ops, c2, p)
    decreases |ops|
  {
    if ops != [] {
      var init := ops[..|ops| - 1];
      var u := ops[|ops| - 1];
      assert Keyed(init, keys) && Placed(c1, init) by {
        assert forall i :: 0 <= i < |init| ==> init[i] == ops[i];
      }
      MergedStable(init, c1, c2, keys, p);
      assert KeyedOp(u, keys) && FirstMatch(c1, u.filter).Some?;
      FirstMatchStable(c1, c2, u.filter, keys);
      assert Merged(ops, c1, p) == Merged(init, c1, p) + (if FirstMatch(c1, u.filter) == Some(p) then u.fields else map[]);
      assert Merged(ops, c2, p) == Merged(init, c2, p) + (if FirstMatch(c2, u.filter) == Some(p) then u.fields else map[]);
    }
  }

  /** `(a + b) + s` is `a + (b + s)`. */
  lemma UnionAssoc(a: Doc, b: Doc, s: Doc)
    ensures (a + b) + s == a + (b + s)
  {
  }

  /** A `$set` that already holds the filter's fields absorbs them. */
  lemma FilterAbsorbed(u: Update, keys: set<string>)
    requires KeyedOp(u, keys)
    ensures u.filter + u.fields == u.fields
  {
  }

  /** What a keyed batch does to each position: the document that was
      there (nothing, for a new one) overridden by the `$set` fields of the
      updates that land on it, in batch order. */
  lemma {:induction false} BulkWriteDocs(c: Collection, ops: seq<Update>, keys: set<string>)
    requires Keyed(ops, keys)
    ensures forall p :: 0 <= p < |BulkWrite(c, ops).c| ==>
      BulkWrite(c, ops).c[p] == Base(c, p) + Merged(ops, BulkWrite(c, ops).c, p)
    decreases |ops|
  {
    if ops == [] {
      forall p | 0 <= p < |c|
        ensures c[p] == Base(c, p) + Merged(ops, c, p)
      {
      }
    } else {
      var init := ops[..|ops| - 1];
      var u := ops[|ops| - 1];
      var w0 := BulkWrite(c, init);
      var a := ApplyOne(w0.c, u);
      assert a.c == BulkWrite(c, ops).c;
      assert Keyed(init, keys);
      BulkWriteDocs(c, init, keys);
      BulkWriteKeyed(c, init, keys);
      ApplyOneProj(w0.c, u, keys);
      forall p | 0 <= p < |a.c|
        ensures a.c[p] == Base(c, p) + Merged(ops, a.c, p)
      {
        MergedStable(init, w0.c, a.c, keys, p);
        ApplyOneDoc(c, w0.c, init, u, keys, p);
      }
    }
  }

  /** One step of `BulkWriteDocs`: the update lands on its target and
      leaves every other position alone. */
  lemma ApplyOneDoc(c: Collection, c0: Collection, init: seq<Update>, u: Update, keys: set<string>, p: nat)
    requires KeyedOp(u, keys) && Placed(c0, init) && |c| <= |c0|
    requires p < |c0| ==> c0[p] == Base(c, p) + Merged(init, c0, p)
    requires p < |ApplyOne(c0, u).c|
    ensures ApplyOne(c0, u).c[p] ==
      Base(c, p) + (Merged(init, c0, p) + (if FirstMatch(ApplyOne(c0, u).c, u.filter) == Some(p) then u.fields else map[]))
  {
    var a := ApplyOne(c0, u);
    ApplyOneProj(c0, u, keys);
    var t := Target(c0, u.filter);
    var m := Merged(init, c0, p);
    if p == t && a.matched {
      assert a.c[p] == c0[p] + u.fields;
      UnionAssoc(Base(c, p), m, u.fields);
    } else if p == t {
      assert a.c[p] == u.filter + u.fields;
      MergedNoTarget(init, c0, p);
      FilterAbsorbed(u, keys);
      UnionEmpty(u.fields);
    } else {
      assert p < |c0| && a.c[p] == c0[p];
      UnionEmpty(m);
    }
  }

  lemma UnionEmpty(m: Doc)
    ensures m + map[] == m && map[] + m == m
  {
  }

  /** An already-placed keyed batch inserts nothing. */
  lemma {:induction false} PlacedNoUpsert(c: Collection, ops: seq<Update>, keys: set<string>)
    requires Keyed(ops, keys) && Placed(c, ops)
    ensures BulkWrite(c, ops).result.upserted == 0
    decreases |ops|
  {
    if ops != [] {
      var init := ops[..|ops| - 1];
      var u := ops[|ops| - 1];
      assert Keyed(init, keys);
      assert Placed(c, init);
      PlacedNoUpsert(c, init, keys);
      BulkWriteKeyed(c, init, keys);
      FirstMatchStable(c, BulkWrite(c, init).c, u.filter, keys);
    }
  }

  /** `BulkWriteDocs` at one position. */
  lemma BulkWriteDocAt(c: Collection, ops: seq<Update>, keys: set<string>, p: nat)
    requires Keyed(ops, keys)
    requires p < |BulkWrite(c, ops).c|
    ensures BulkWrite(c, ops).c[p] == Base(c, p) + Merged(ops, BulkWrite(c, ops).c, p)
  {
    BulkWriteDocs(c, ops, keys);
  }

  /** `BulkWriteKeyed` at one old position. */
  lemma BulkWriteProjAt(c: Collection, ops: seq<Update>, keys: set<string>, p: nat)
    requires Keyed(ops, keys)
    requires p < |c|
    ensures Proj(BulkWrite(c, ops).c[p], keys) == Proj(c[p], keys)
  {
    BulkWriteKeyed(c, ops, keys);
  }

  /** `BulkWriteKeyed` for one update. */
  lemma BulkWritePlacedAt(c: Collection, ops: seq<Update>, keys: set<string>, i: nat)
    requires Keyed(ops, keys)
    requires i < |ops|
    ensures FirstMatch(BulkWrite(c, ops).c, ops[i].filter).Some?
  {
    BulkWriteKeyed(c, ops, keys);
  }

  /** Replaying a keyed batch leaves the collection as the first run left
      it and inserts nothing. */
  lemma BulkWriteReplay(c: Collection, ops: seq<Update>, keys: set<string>)
    requires Keyed(ops, keys)
    ensures BulkWrite(BulkWrite(c, ops).c, ops).c == BulkWrite(c, ops).c
    ensures BulkWrite(BulkWrite(c, ops).c, ops).result.upserted == 0
  {
    var c1 := BulkWrite(c, ops).c;
    var c2 := BulkWrite(c1, ops).c;
    BulkWriteKeyed(c, ops, keys);
    PlacedNoUpsert(c1, ops, keys);
    BulkWriteKeyed(c1, ops, keys);
    assert |c2| == |c1|;
    forall p | 0 <= p < |c2|
      ensures c2[p] == c1[p]
    {
      ReplayAt(c, ops, keys, p);
    }
  }

  /** One position of `BulkWriteReplay`. */
  lemma ReplayAt(c: Collection, ops: seq<Update>, keys: set<string>, p: nat)
    requires Keyed(ops, keys)
    requires Placed(BulkWrite(c, ops).c, ops)
    requires SameProj(BulkWrite(c, ops).c, BulkWrite(BulkWrite(c, ops).c, ops).c, keys)
    requires p < |BulkWrite(c, ops).c| == |BulkWrite(BulkWrite(c, ops).c, ops).c|
    ensures BulkWrite(BulkWrite(c, ops).c, ops).c[p] == BulkWrite(c, ops).c[p]
  {
    var c1 := BulkWrite(c, ops).c;
    var c2 := BulkWrite(c1, ops).c;
    var m := Merged(ops, c1, p);
    BulkWriteDocAt(c, ops, keys, p);
    assert c1[p] == Base(c, p) + m;
    BulkWriteDocAt(c1, ops, keys, p);
    MergedStable(ops, c1, c2, keys, p);
    assert c2[p] == c1[p] + m;
    UnionAssoc(Base(c, p), m, m);
    UnionIdem(m);
  }

  lemma UnionIdem(m: Doc)
    ensures m + m == m
  {
  }

  /** Documents no filter of a keyed batch selects come out unchanged. */
  lemma BulkWriteUntouched(c: Collection, ops: seq<Update>, keys: set<string>, p: nat)
    requires Keyed(ops, keys)
    requires p < |c|
    requires forall i :: 0 <= i < |ops| ==> !Matches(c[p], ops[i].filter)
    ensures BulkWrite(c, ops).c[p] == c[p]
  {
    var c1 := BulkWrite(c, ops).c;
    BulkWriteProjAt(c, ops, keys, p);
    forall i | 0 <= i < |ops|
      ensures FirstMatch(c1, ops[i].filter) != Some(p)
    {
      assert KeyedOp(ops[i], keys);
      MatchesProj(c[p], ops[i].filter, keys);
      MatchesProj(c1[p], ops[i].filter, keys);
    }
    MergedNoTarget(ops, c1, p);
    BulkWriteDocAt(c, ops, keys, p);
    UnionEmpty(c[p]);
  }

  /** Updates after `i` that land elsewhere leave `p`'s merged fields as
      they were after `i`. */
  lemma {:induction false} MergedSince(ops: seq<Update>, c: Collection, p: nat, i: nat)
    requires i < |ops|
    requires forall j :: i < j < |ops| ==> FirstMatch(c, ops[j].filter) != Some(p)
    ensures Merged(ops, c, p) == Merged(ops[..i + 1], c, p)
    decreases |ops|
  {
    if |ops| > i + 1 {
      var init := ops[..|ops| - 1];
      assert forall j :: 0 <= j < |init| ==> init[j] == ops[j];
      assert init[..i + 1] == ops[..i + 1];
      MergedSince(init, c, p, i);
    } else {
      assert ops[..i + 1] == ops;
    }
  }

  /** After a keyed batch, the update that is the last with its filter
      has every one of its `$set` fields on the document it selects. */
  lemma BulkWriteLastWins(c: Collection, ops: seq<Update>, keys: set<string>, i: nat)
    requires Keyed(ops, keys)
    requires i < |ops|
    requires forall j :: i < j < |ops| ==> ops[j].filter != ops[i].filter
    ensures FirstMatch(BulkWrite(c, ops).c, ops[i].filter).Some?
    ensures var d := BulkWrite(c, ops).c[FirstMatch(BulkWrite(c, ops).c, ops[i].filter).value];
      forall k :: k in ops[i].fields ==> k in d && d[k] == ops[i].fields[k]
  {
    var c1 := BulkWrite(c, ops).c;
    BulkWritePlacedAt(c, ops, keys, i);
    var p := FirstMatch(c1, ops[i].filter).value;
    assert KeyedOp(ops[i], keys);
    MatchesProj(c1[p], ops[i].filter, keys);
    forall j | i < j < |ops|
      ensures FirstMatch(c1, ops[j].filter) != Some(p)
    {
      assert KeyedOp(ops[j], keys);
      MatchesProj(c1[p], ops[j].filter, keys);
    }
    MergedLast(ops, c1, p, i);
    BulkWriteDocAt(c, ops, keys, p);
  }

  /** The fields of the last update landing on `p` survive in its merged
      fields. */
  lemma MergedLast(ops: seq<Update>, c: Collection, p: nat, i: nat)
    requires i < |ops|
    requires FirstMatch(c, ops[i].filter) == Some(p)
    requires forall j :: i < j < |ops| ==> FirstMatch(c, ops[j].filter) != Some(p)
    ensures forall k :: k in ops[i].fields ==> k in Merged(ops, c, p) && Merged(ops, c, p)[k] == ops[i].fields[k]
  {
    MergedSince(ops, c, p, i);
    var pre := ops[..i + 1];
    assert pre[..|pre| - 1] == ops[..i];
    assert Merged(pre, c, p) == Merged(ops[..i], c, p) + ops[i].fields;
  }

  /** No two documents share their key fields. */
  predicate UniqueKeys(c: Collection, keys: set<string>) {
    forall i, j :: 0 <= i < j < |c| ==> Proj(c[i], keys) != Proj(c[j], keys)
  }

  /** A keyed update inserts only when no document has its key, so keys
      that were unique stay unique. */
  lemma ApplyOneUnique(c: Collection, u: Update, keys: set<string>)
    requires KeyedOp(u, keys) && UniqueKeys(c, keys)
    ensures UniqueKeys(ApplyOne(c, u).c, keys)
  {
    var a := ApplyOne(c, u);
    ApplyOneProj(c, u, keys);
    if !a.matched {
      forall j | 0 <= j < |c|
        ensures Proj(a.c[j], keys) != Proj(a.c[|c|], keys)
      {
        MatchesProj(c[j], u.filter, keys);
      }
    }
  }

  /** Starting from a collection with one document per key, a keyed batch
      leaves one document per key. */
  lemma {:induction false} BulkWriteUnique(c: Collection, ops: seq<Update>, keys: set<string>)
    requires Keyed(ops, keys) && UniqueKeys(c, keys)
    ensures UniqueKeys(BulkWrite(c, ops).c, keys)
    decreases |ops|
  {
    if ops != [] {
      var init := ops[..|ops| - 1];
      assert Keyed(init, keys);
      BulkWriteUnique(c, init, keys);
      ApplyOneUnique(BulkWrite(c, init).c, ops[|ops| - 1], keys);
    }
  }
}

=== FILE: frame.dfy ===
/** The slice of pandas the sync path uses: a frame built from a list of
    records, its `empty` test and `rename(columns=...)`. */
module Frame {
  import opened Wrappers
  import opened Values

  /** Columns and rows of a frame; every row is a `Doc` over the columns. */
  datatype Table = Table(columns: set<string>, rows: seq<Doc>)

  /** Every row holds exactly the frame's columns (a missing cell is null). */
  predicate Rectangular(t: Table) {
    forall i :: 0 <= i < |t.rows| ==> t.rows[i].Keys == t.columns
  }

  type Frame = t: Table | Rectangular(t) witness Table({}, [])

  /** pandas `DataFrame.empty`: true when there are no rows or no columns. */
  predicate IsEmpty(f: Frame) {
    |f.rows| == 0 || f.columns == {}
  }

  /** The union of the records' keys, i.e. the frame's columns. */
  function ColumnsOf(recs: seq<Doc>): (cols: set<string>)
    ensures forall i, k :: 0 <= i < |recs| && k in recs[i] ==> k in cols
    ensures forall k :: k in cols ==> exists i :: 0 <= i < |recs| && k in recs[i]
  {
    if recs == [] then {}
    else
      ColumnsOf(recs[..|recs| - 1]) + recs[|recs| - 1].Keys
  }

  /** `pd.DataFrame(records)`: one row per record over the union of their
      keys, a key a record lacks becoming a null cell. */
  function FromRecords(recs: seq<Doc>): (f: Frame)
    ensures f.columns == ColumnsOf(recs)
    ensures |f.rows| == |recs|
    ensures forall i, k :: 0 <= i < |recs| ==> Get(f.rows[i], k) == Get(recs[i], k)
  {
    var cols := ColumnsOf(recs);
    Table(cols, seq(|recs|, i requires 0 <= i < |recs| => map k | k in cols :: Get(recs[i], k)))
  }

  /** No two wire names are renamed to the same canonical name. */
  predicate Injective(table: map<string, string>) {
    forall a, b :: a in table && b in table && a != b ==> table[a] != table[b]
  }

  /** The columns after `rename`: every renamed column under its new name. */
  function RenameSet(cols: set<string>, table: map<string, string>): set<string> {
    (set k | k in cols && k !in table) + (set k | k in cols && k in table :: table[k])
  }

  /** One row after `rename`. When a row holds both a wire name and its
      canonical name, the renamed wire value is kept. */
  function RenameRow(r: Doc, table: map<string, string>): (r': Doc)
    requires Injective(table)
    ensures r'.Keys == RenameSet(r.Keys, table)
    ensures forall s :: s in table && s in r ==> table[s] in r' && r'[table[s]] == r[s]
    ensures forall k :: k !in table && k !in table.Values ==> Get(r', k) == Get(r, k)
    ensures forall s :: s in table && s !in table.Values ==> s !in r'
  {
    var kept := map k | k in r && k !in table :: r[k];
    var moved := map k | k in r && k in table :: table[k] := r[k];
    kept + moved
  }

  /** `df.rename(columns=table)`. */
  function Rename(f: Frame, table: map<string, string>): (g: Frame)
    requires Injective(table)
    ensures g.columns == RenameSet(f.columns, table)
    ensures |g.rows| == |f.rows|
    ensures forall i :: 0 <= i < |f.rows| ==> g.rows[i] == RenameRow(f.rows[i], table)
    ensures forall s :: s in table && s !in table.Values ==> s !in g.columns
    ensures forall s :: s in table && s in f.columns ==> table[s] in g.columns
    ensures forall k :: k !in table && k !in table.Values ==> (k in g.columns <==> k in f.columns)
  {
    Table(RenameSet(f.columns, table), seq(|f.rows|, i requires 0 <= i < |f.rows| => RenameRow(f.rows[i], table)))
  }
}

=== FILE: json.dfy ===
/** The JSON input files of the loaders, as `json.load` hands them back,
    with Python's truthiness and `dict.get`. */
module JsonInput {
  import opened Text

  /** A parsed JSON value. Integers and floats stay apart, as in Python. */
  datatype Json =
    | JNull
    | JBool(b: bool)
    | JInt(i: int)
    | JNum(x: real)
    | JStr(s: string)
    | JList(items: seq<Json>)
    | JObject(fields: map<string, Json>)

  type Object = map<string, Json>

  /** Python's truth value of a parsed JSON value. */
  predicate Truthy(j: Json) {
    match j
    case JNull => false
    case JBool(b) => b
    case JInt(i) => i != 0
    case JNum(x) => x != 0.0
    case JStr(s) => s != []
    case JList(items) => items != []
    case JObject(fields) => fields != map[]
  }

  /** `m.get(k, default)`. */
  function Lookup(m: Object, k: string, default: Json): (j: Json)
    ensures k in m ==> j == m[k]
    ensures k !in m ==> j == default
  {
    if k in m then m[k] else default
  }

  /** `str(j)`. Strings, integers, booleans and null are written out; the
      text of a float, list or dict is given by `render`. */
  function PyStr(j: Json, render: Json -> string): (s: string)
    ensures j.JStr? ==> s == j.s
    ensures j.JInt? ==> s == IntToDecimal(j.i)
  {
    match j
    case JStr(t) => t
    case JInt(i) => IntToDecimal(i)
    case JBool(b) => if b then "True" else "False"
    case JNull => "None"
    case _ => render(j)
  }

  /** What opening and parsing a loader's input file yields: the path does
      not exist, it exists but cannot be read or parsed, or its content. */
  datatype JsonFile = Missing | Unreadable | Parsed(value: Json)

  /** The records a loader's `for` loop processes. Only a list yields
      records: iterating a dict or a string yields `str` elements whose
      `.get` raises before any CRM call, and `len()` of a number, boolean
      or null raises, so each of those ends like an empty list. */
  function Records(v: Json): (rs: seq<Json>)
    ensures v.JList? ==> rs == v.items
    ensures !v.JList? ==> rs == []
  {
    if v.JList? then v.items else []
  }

  /** The records of a file: none unless it parsed. */
  function FileRecords(file: JsonFile): (rs: seq<Json>)
    ensures file.Parsed? ==> rs == Records(file.value)
    ensures !file.Parsed? ==> rs == []
  {
    if file.Parsed? then Records(file.value) else []
  }
}

=== FILE: loader.dfy ===
/** The loaders that push the JSON files into the CRM: contacts with a
    random lead status, leads (a company plus its contact) with the
    contacts-only fallback on a permission error, and deals with a random
    stage and random links to existing records. Random draws are given per
    record; CRM outcomes come from the oracle. */
module Loader {
  import opened Wrappers
  import opened Text
  import opened JsonInput
  import opened Crm
  import opened Properties

  const LeadStatuses: seq<string> := [
    "NEW", "OPEN", "IN_PROGRESS", "OPEN_DEAL", "UNQUALIFIED",
    "ATTEMPTED_TO_CONTACT", "CONNECTED", "BAD_TIMING"]

  const DealStages: seq<string> := [
    "appointmentscheduled", "qualifiedtobuy", "presentationscheduled",
    "decisionmakerboughtin", "contractsent", "closedwon", "closedlost"]

  const DefaultStage: string := "appointmentscheduled"

  /** `random.choice(xs)`, the draw given as an index. */
  function Choice<T>(xs: seq<T>, pick: nat): (x: T)
    requires xs != []
    ensures x in xs
  {
    xs[pick % |xs|]
  }

  predicate AllObjects(records: seq<Json>) {
    forall i :: 0 <= i < |records| ==> records[i].JObject?
  }

  // ---------------------------------------------------------------- contacts

  /** The draws for one contact: `random.random()` and `random.choice`. */
  datatype ContactDraw = ContactDraw(coin: real, pick: nat)

  datatype LeadAssignment = LeadAssignment(isLead: bool, status: string)

  /** A contact is a lead with probability 0.8 when lead statuses are
      assigned, and then gets one of the eight statuses; otherwise it is a
      plain contact with status "NEW". */
  function AssignLead(addLeadStatus: bool, d: ContactDraw): (a: LeadAssignment)
    ensures a.isLead <==> addLeadStatus && d.coin < 0.8
    ensures a.isLead ==> a.status in LeadStatuses
    ensures !a.isLead ==> a.status == "NEW"
  {
    var isLead := addLeadStatus && d.coin < 0.8;
    LeadAssignment(isLead, if isLead then Choice(LeadStatuses, d.pick) else "NEW")
  }

  /** The `create_contact` arguments for one record of the contacts file;
      a missing field reads as "". */
  function FileContactArgs(m: Object, a: LeadAssignment): ContactArgs {
    ContactArgs(
      Lookup(m, "email", JStr("")), Lookup(m, "firstname", JStr("")), Lookup(m, "lastname", JStr("")),
      Lookup(m, "phone", JStr("")), Lookup(m, "company", JStr("")), Lookup(m, "jobtitle", JStr("")),
      a.isLead, JStr(a.status))
  }

  /** The contact request for record `m` drawn with `d`. */
  function ContactRequest(m: Object, addLeadStatus: bool, d: ContactDraw): Request {
    Create(Contact, ContactProps(FileContactArgs(m, AssignLead(addLeadStatus, d))))
  }

  /** A pass over the records: the calls made, the ids kept, and whether
      the loop got to the end. */
  datatype Pass = Pass(calls: seq<Call>, ids: seq<string>, finished: bool)

  /** The contacts loop from record number `next` on. A record that is not
      a dict raises out of the loop. */
  function ContactsFrom(records: seq<Json>, next: nat, addLeadStatus: bool, draws: nat -> ContactDraw,
                        log: Log, oracle: Oracle): (r: Pass)
    decreases |records|
    ensures r.finished <==> AllObjects(records)
    ensures |r.calls| <= |records|
    ensures r.finished ==> |r.calls| == |records|
    ensures !r.finished ==> |r.calls| < |records| && !records[|r.calls|].JObject?
    ensures r.ids == TruthyIds(r.calls)
    ensures Answered(r.calls, log, oracle)
    ensures ContactCalls(records, next, addLeadStatus, draws, r.calls)
  {
    if records == [] then Pass([], [], true)
    else if !records[0].JObject? then Pass([], [], false)
    else
      var c := CreateContact(log, oracle, FileContactArgs(records[0].fields, AssignLead(addLeadStatus, draws(next))));
      var rest := ContactsFrom(records[1..], next + 1, addLeadStatus, draws, log + [c], oracle);
      var id := ContactId(c);
      assert ([c] + rest.calls)[1..] == rest.calls;
      AnsweredCons(c, rest.calls, log, oracle);
      ContactCallsCons(records, next, addLeadStatus, draws, c, rest.calls);
      assert !rest.finished ==> records[1 + |rest.calls|] == records[1..][|rest.calls|];
      Pass([c] + rest.calls, (if id.Some? && id.value != "" then [id.value] else []) + rest.ids, rest.finished)
  }

  /** Call i was made for record i, drawn with draw `next + i`. */
  predicate ContactCalls(records: seq<Json>, next: nat, addLeadStatus: bool, draws: nat -> ContactDraw, calls: seq<Call>)
    requires |calls| <= |records|
  {
    forall i :: 0 <= i < |calls| ==>
      records[i].JObject? && calls[i].request == ContactRequest(records[i].fields, addLeadStatus, draws(next + i))
  }

  lemma ContactCallsCons(records: seq<Json>, next: nat, addLeadStatus: bool, draws: nat -> ContactDraw,
                         c: Call, rest: seq<Call>)
    requires records != [] && records[0].JObject? && |rest| < |records|
    requires c.request == ContactRequest(records[0].fields, addLeadStatus, draws(next))
    requires ContactCalls(records[1..], next + 1, addLeadStatus, draws, rest)
    ensures ContactCalls(records, next, addLeadStatus, draws, [c] + rest)
  {
    var calls := [c] + rest;
    forall i | 0 <= i < |calls|
      ensures records[i].JObject? && calls[i].request == ContactRequest(records[i].fields, addLeadStatus, draws(next + i))
    {
      if i > 0 {
        assert calls[i] == rest[i - 1] && records[i] == records[1..][i - 1];
        assert next + 1 + (i - 1) == next + i;
      }
    }
  }

  /** The contacts and ids a loader run produced. */
  datatype Created = Created(calls: seq<Call>, ids: seq<string>)

  /** `load_contacts_from_json`: a missing or unreadable file gives [];
      a record that is not a dict aborts the loop and gives [] as well,
      though the contacts created before it stay created. */
  function LoadContacts(file: JsonFile, addLeadStatus: bool, draws: nat -> ContactDraw,
                        log: Log, oracle: Oracle): (r: Created)
    ensures !file.Parsed? ==> r == Created([], [])
    ensures |r.calls| <= |FileRecords(file)|
    ensures AllObjects(FileRecords(file)) ==> |r.calls| == |FileRecords(file)| && r.ids == TruthyIds(r.calls)
    ensures !AllObjects(FileRecords(file)) ==> r.ids == []
    ensures !AllObjects(FileRecords(file)) ==>
      |r.calls| < |FileRecords(file)| && !FileRecords(file)[|r.calls|].JObject?
    ensures |r.ids| <= |r.calls|
    ensures AllCreate(r.calls, Contact) && Answered(r.calls, log, oracle)
    ensures ContactCalls(FileRecords(file), 0, addLeadStatus, draws, r.calls)
  {
    match file
    case Parsed(v) =>
      var p := ContactsFrom(Records(v), 0, addLeadStatus, draws, log, oracle);
      Created(p.calls, if p.finished then p.ids else [])
    case _ => Created([], [])
  }

  /** The i-th contact call is a lead exactly when lead statuses are
      assigned and its draw is below 0.8; a lead's status is one of the
      eight; nothing submitted is falsy. */
  lemma LoadContactsAssignment(file: JsonFile, addLeadStatus: bool, draws: nat -> ContactDraw,
                               log: Log, oracle: Oracle, i: nat)
    requires i < |LoadContacts(file, addLeadStatus, draws, log, oracle).calls|
    ensures var p := LoadContacts(file, addLeadStatus, draws, log, oracle).calls[i].request.props;
      && AllTruthy(p)
      && ("lifecyclestage" in p <==> addLeadStatus && draws(i).coin < 0.8)
      && ("hs_lead_status" in p <==> addLeadStatus && draws(i).coin < 0.8)
      && ("hs_lead_status" in p ==> p["hs_lead_status"].JStr? && p["hs_lead_status"].s in LeadStatuses)
  {
    var records := FileRecords(file);
    var a := AssignLead(addLeadStatus, draws(i));
    var args := FileContactArgs(records[i].fields, a);
    var p := ContactProps(args);
    assert LoadContacts(file, addLeadStatus, draws, log, oracle).calls[i].request.props == p;
    if a.isLead {
      StatusesNonEmpty(a.status);
      assert Truthy(args.leadStatus);
    }
  }

  lemma StatusesNonEmpty(s: string)
    requires s in LeadStatuses
    ensures s != ""
  {
  }

  // ---------------------------------------------------------------- leads

  /** One created lead: the contact id, the company (the creation
      response), and whether the association succeeded. */
  datatype Lead = Lead(contactId: string, companyId: string, associated: bool)

  /** `load_leads_from_json` returns a list of leads, or, after the
      fallback, the integer count of contacts-only mode. */
  datatype LeadsResult = Leads(leads: seq<Lead>) | ContactsCreated(count: nat)

  datatype LeadsPass = LeadsPass(calls: seq<Call>, result: LeadsResult)

  /** The contact and company dicts of one lead record, both defaulting to
      `{}`; None when the record or either part is not a dict, which makes
      the record's own handler skip it before any call. */
  function LeadParts(record: Json): (parts: Option<(Object, Object)>)
    ensures parts.Some? <==>
      && record.JObject?
      && Lookup(record.fields, "contact", JObject(map[])).JObject?
      && Lookup(record.fields, "company", JObject(map[])).JObject?
  {
    if !record.JObject? then None
    else
      var contact := Lookup(record.fields, "contact", JObject(map[]));
      var company := Lookup(record.fields, "company", JObject(map[]));
      if contact.JObject? && company.JObject? then Some((contact.fields, company.fields)) else None
  }

  /** The number of lead records that get as far as a CRM call. */
  function WellFormed(records: seq<Json>): (n: nat)
    ensures n <= |records|
  {
    if records == [] then 0 else (if LeadParts(records[0]).Some? then 1 else 0) + WellFormed(records[1..])
  }

  /** The `create_contact` arguments for a lead, in both lead modes:
      missing fields are None, the company name is the contact's company,
      and the contact is a lead with status "NEW". */
  function LeadContactArgs(contact: Object, company: Object): ContactArgs {
    ContactArgs(
      Lookup(contact, "email", JNull), Lookup(contact, "firstname", JNull), Lookup(contact, "lastname", JNull),
      Lookup(contact, "phone", JNull), Lookup(company, "name", JNull), Lookup(contact, "jobtitle", JNull),
      true, JStr("NEW"))
  }

  /** The company of a lead; `country` and `industry` go in as keyword
      arguments, so they are submitted even when None. */
  function LeadCompanyArgs(company: Object): CompanyArgs {
    CompanyArgs(
      Lookup(company, "name", JNull), Lookup(company, "domain", JNull),
      Lookup(company, "phone", JNull), Lookup(company, "city", JNull),
      map["country" := Lookup(company, "country", JNull), "industry" := Lookup(company, "industry", JNull)])
  }

  /** The company creation of a well-formed lead record. */
  function LeadCompanyRequest(parts: (Object, Object)): Request {
    CompanyRequest(LeadCompanyArgs(parts.1))
  }

  /** The contact creation of a lead record whose company was created. */
  function LeadContactRequest(parts: (Object, Object)): Request {
    Create(Contact, ContactProps(LeadContactArgs(parts.0, parts.1)))
  }

  /** The contact and company parts of the well-formed lead records, in
      file order. */
  function LeadPartsOf(records: seq<Json>): (ps: seq<(Object, Object)>)
    ensures |ps| == WellFormed(records)
  {
    if records == [] then []
    else (match LeadParts(records[0]) case None => [] case Some(parts) => [parts]) + LeadPartsOf(records[1..])
  }

  /** The lower-cased error text mentions 403, forbidden, permission or
      scope. */
  predicate IsPermissionError(message: string) {
    var e := Lower(message);
    Contains(e, "403") || Contains(e, "forbidden") || Contains(e, "permission") || Contains(e, "scope")
  }

  /** A company creation that failed for lack of permission. */
  predicate PermissionDenied(c: Call) {
    c.request.Create? && c.request.kind == Company && c.outcome.Raised? && IsPermissionError(c.outcome.message)
  }

  /** The calls after the first permission-denied company creation. */
  function AfterDenial(calls: seq<Call>): (rest: Option<seq<Call>>)
    ensures rest.Some? ==> |rest.value| < |calls|
  {
    if calls == [] then None
    else if PermissionDenied(calls[0]) then Some(calls[1..])
    else AfterDenial(calls[1..])
  }

  /** The leads a log shows: a company creation that returned, followed by
      a contact creation that returned a non-empty id. */
  function PairedLeads(calls: seq<Call>): (leads: seq<Lead>)
    ensures 2 * |leads| <= |calls|
    ensures forall i :: 0 <= i < |leads| ==> leads[i].associated && leads[i].contactId != ""
  {
    if |calls| >= 2 && calls[0].request.Create? && calls[0].request.kind == Company && calls[0].outcome.Returned?
      && calls[1].outcome.Returned? && calls[1].outcome.id != "" then
      [Lead(calls[1].outcome.id, calls[0].outcome.id, true)] + PairedLeads(calls[2..])
    else if calls == [] then []
    else PairedLeads(calls[1..])
  }

  datatype Counted = Counted(calls: seq<Call>, count: nat)

  /** Call k submits `requestOf(ps[k])`, one call per element of `ps`. */
  predicate CallsFollow(ps: seq<(Object, Object)>, requestOf: ((Object, Object)) -> Request, calls: seq<Call>) {
    |calls| == |ps| && forall k :: 0 <= k < |calls| ==> calls[k].request == requestOf(ps[k])
  }

  lemma CallsFollowCons(p: (Object, Object), ps: seq<(Object, Object)>, requestOf: ((Object, Object)) -> Request,
                        c: Call, rest: seq<Call>)
    requires c.request == requestOf(p)
    requires CallsFollow(ps, requestOf, rest)
    ensures CallsFollow([p] + ps, requestOf, [c] + rest)
  {
    var calls := [c] + rest;
    forall k | 0 <= k < |calls|
      ensures calls[k].request == requestOf(([p] + ps)[k])
    {
      if k > 0 {
        assert calls[k] == rest[k - 1] && ([p] + ps)[k] == ps[k - 1];
      }
    }
  }

  /** Call k is the contact creation of the k-th well-formed lead record,
      one call per such record. */
  predicate ContactsOnlyCalls(records: seq<Json>, calls: seq<Call>) {
    CallsFollow(LeadPartsOf(records), LeadContactRequest, calls)
  }

  /** The contacts-only loop: one contact per well-formed record, no
      company. */
  function ContactsOnlyFrom(records: seq<Json>, log: Log, oracle: Oracle): (r: Counted)
    decreases |records|
    ensures |r.calls| == WellFormed(records)
    ensures r.count == |TruthyIds(r.calls)|
    ensures AllCreate(r.calls, Contact)
    ensures Answered(r.calls, log, oracle)
    ensures ContactsOnlyCalls(records, r.calls)
  {
    if records == [] then Counted([], 0)
    else match LeadParts(records[0])
      case None =>
        var rest := ContactsOnlyFrom(records[1..], log, oracle);
        assert LeadPartsOf(records) == LeadPartsOf(records[1..]);
        rest
      case Some(parts) =>
        var c := CreateContact(log, oracle, LeadContactArgs(parts.0, parts.1));
        var rest := ContactsOnlyFrom(records[1..], log + [c], oracle);
        var id := ContactId(c);
        assert ([c] + rest.calls)[1..] == rest.calls;
        AnsweredCons(c, rest.calls, log, oracle);
        AllCreateCons(c, rest.calls, Contact);
        assert LeadPartsOf(records) == [parts] + LeadPartsOf(records[1..]);
        CallsFollowCons(parts, LeadPartsOf(records[1..]), LeadContactRequest, c, rest.calls);
        Counted([c] + rest.calls, (if id.Some? && id.value != "" then 1 else 0) + rest.count)
  }

  /** `load_leads_as_contacts_only`: a missing or unreadable file gives 0;
      otherwise the whole file is processed again, one contact per
      well-formed record, and the contacts with an id are counted. */
  function LoadLeadsAsContactsOnly(file: JsonFile, log: Log, oracle: Oracle): (r: Counted)
    ensures !file.Parsed? ==> r == Counted([], 0)
    ensures |r.calls| == WellFormed(FileRecords(file))
    ensures r.count == |TruthyIds(r.calls)| && r.count <= |FileRecords(file)|
    ensures AllCreate(r.calls, Contact)
    ensures Answered(r.calls, log, oracle)
    ensures ContactsOnlyCalls(FileRecords(file), r.calls)
  {
    match file
    case Parsed(v) => ContactsOnlyFrom(Records(v), log, oracle)
    case _ => Counted([], 0)
  }

  /** What a leads pass shows about its own log: the outcomes come from
      the oracle in order; the result is a list of leads exactly when no
      company creation was denied, and then it holds the company/contact
      pairs of the log; otherwise it is the count of the contacts-only run
      that follows the denial, started at that point of the log. */
  predicate Consistent(r: LeadsPass, file: JsonFile, log: Log, oracle: Oracle) {
    && Answered(r.calls, log, oracle)
    && (r.result.Leads? <==> AfterDenial(r.calls).None?)
    && (r.result.Leads? ==> r.result.leads == PairedLeads(r.calls))
    && (r.result.ContactsCreated? ==> FallbackRun(r.calls, r.result.count, file, log, oracle))
  }

  /** The calls after the first denial are the contacts-only run started
      right after it, and `count` is that run's count. */
  predicate FallbackRun(calls: seq<Call>, count: nat, file: JsonFile, log: Log, oracle: Oracle) {
    RunAfterDenial(calls, count, log, ContactsOnlyRun(file, oracle))
  }

  /** `load_leads_as_contacts_only` on `file`, started on a given log. */
  function ContactsOnlyRun(file: JsonFile, oracle: Oracle): Log -> Counted {
    l => LoadLeadsAsContactsOnly(file, l, oracle)
  }

  /** The calls after the first denial are what `run` makes when started
      right after it, and `count` is its count. */
  predicate RunAfterDenial(calls: seq<Call>, count: nat, log: Log, run: Log -> Counted) {
    match AfterDenial(calls)
    case None => false
    case Some(fallback) =>
      var fb := run(log + calls[..|calls| - |fallback|]);
      fallback == fb.calls && count == fb.count
  }

  /** The calls a leads pass makes, record by record: none for a record
      that is not well formed; for a well-formed one, see
      `LeadRecordCalls`. */
  predicate LeadCalls(records: seq<Json>, calls: seq<Call>)
    decreases |records|, 1
  {
    if records == [] then calls == []
    else match LeadParts(records[0])
      case None => LeadCalls(records[1..], calls)
      case Some(parts) => LeadRecordCalls(parts, records[1..], calls)
  }

  /** A well-formed record's company creation comes first. A created
      company is followed by the record's contact creation and then the
      next records. A permission denial is followed by contact creations
      only: the contacts-only run. Any other failure skips the record. */
  predicate LeadRecordCalls(parts: (Object, Object), tail: seq<Json>, calls: seq<Call>)
    decreases |tail| + 1, 0
  {
    && calls != [] && calls[0].request == LeadCompanyRequest(parts)
    && if calls[0].outcome.Returned? then
         |calls| >= 2 && calls[1].request == LeadContactRequest(parts) && LeadCalls(tail, calls[2..])
       else if IsPermissionError(calls[0].outcome.message) then AllCreate(calls[1..], Contact)
       else LeadCalls(tail, calls[1..])
  }

  /** The leads loop. A company creation failing for lack of permission
      abandons the loop and returns the contacts-only count over the whole
      file; any other failure skips the record. */
  function LeadsFrom(records: seq<Json>, file: JsonFile, log: Log, oracle: Oracle): (r: LeadsPass)
    decreases |records|, 2
    ensures Consistent(r, file, log, oracle)
    ensures LeadCalls(records, r.calls)
  {
    if records == [] then LeadsPass([], Leads([]))
    else match LeadParts(records[0])
      case None => LeadsFrom(records[1..], file, log, oracle)
      case Some(parts) => LeadFrom(parts, records[1..], file, log, oracle)
  }

  /** One well-formed record: create its company, then go on as the
      outcome says. */
  function LeadFrom(parts: (Object, Object), tail: seq<Json>, file: JsonFile, log: Log, oracle: Oracle): (r: LeadsPass)
    decreases |tail| + 1, 1
    ensures Consistent(r, file, log, oracle)
    ensures LeadRecordCalls(parts, tail, r.calls)
  {
    var co := CreateCompany(log, oracle, LeadCompanyArgs(parts.1));
    if co.outcome.Returned? then PairFrom(co, parts, tail, file, log, oracle)
    else if IsPermissionError(co.outcome.message) then
      var fb := LoadLeadsAsContactsOnly(file, log + [co], oracle);
      FallbackConsistent(co, fb, file, log, oracle);
      assert ([co] + fb.calls)[1..] == fb.calls;
      LeadsPass([co] + fb.calls, ContactsCreated(fb.count))
    else
      var rest := LeadsFrom(tail, file, log + [co], oracle);
      SkipConsistent(co, rest, file, log, oracle);
      assert ([co] + rest.calls)[1..] == rest.calls;
      LeadsPass([co] + rest.calls, rest.result)
  }

  /** The company was created: create the contact, and keep the pair as a
      lead when the contact got an id and no denial came later. */
  function PairFrom(co: Call, parts: (Object, Object), tail: seq<Json>, file: JsonFile, log: Log, oracle: Oracle): (r: LeadsPass)
    requires co == CreateCompany(log, oracle, LeadCompanyArgs(parts.1)) && co.outcome.Returned?
    decreases |tail| + 1, 0
    ensures Consistent(r, file, log, oracle)
    ensures PairedCalls(co, parts, tail, r.calls)
  {
    var ct := CreateContact(log + [co], oracle, LeadContactArgs(parts.0, parts.1));
    var rest := LeadsFrom(tail, file, log + [co, ct], oracle);
    var id := ContactId(ct);
    PairCalls(co, ct, rest.calls, parts, tail);
    if rest.result.Leads? && id.Some? && id.value != "" then
      LeadAdded(co, ct, rest, file, log, oracle);
      // `associate_contact_to_company` always answers True.
      LeadsPass([co, ct] + rest.calls, Leads([Lead(id.value, co.outcome.id, true)] + rest.result.leads))
    else
      LeadKept(co, ct, rest, file, log, oracle);
      LeadsPass([co, ct] + rest.calls, rest.result)
  }

  /** The calls of a created company's record: the company creation, the
      contact creation, then the following records' calls. */
  predicate PairedCalls(co: Call, parts: (Object, Object), tail: seq<Json>, calls: seq<Call>) {
    |calls| >= 2 && calls[0] == co && calls[1].request == LeadContactRequest(parts) && LeadCalls(tail, calls[2..])
  }

  lemma PairCalls(co: Call, ct: Call, rest: seq<Call>, parts: (Object, Object), tail: seq<Json>)
    requires ct.request == LeadContactRequest(parts) && LeadCalls(tail, rest)
    ensures PairedCalls(co, parts, tail, [co, ct] + rest)
  {
    assert ([co, ct] + rest)[2..] == rest;
  }

  /** Each record adds at most one lead. */
  lemma {:induction false} LeadsFromBound(records: seq<Json>, file: JsonFile, log: Log, oracle: Oracle)
    ensures var r := LeadsFrom(records, file, log, oracle);
      r.result.Leads? ==> |r.result.leads| <= |records|
    decreases |records|, 2
  {
    if records != [] {
      match LeadParts(records[0])
      case None =>
        LeadsFromBound(records[1..], file, log, oracle);
      case Some(parts) =>
        LeadFromBound(parts, records[1..], file, log, oracle);
    }
  }

  lemma {:induction false} LeadFromBound(parts: (Object, Object), tail: seq<Json>, file: JsonFile, log: Log, oracle: Oracle)
    ensures var r := LeadFrom(parts, tail, file, log, oracle);
      r.result.Leads? ==> |r.result.leads| <= |tail| + 1
    decreases |tail| + 1, 1
  {
    var co := CreateCompany(log, oracle, LeadCompanyArgs(parts.1));
    if co.outcome.Returned? {
      PairFromBound(co, parts, tail, file, log, oracle);
    } else if !IsPermissionError(co.outcome.message) {
      LeadsFromBound(tail, file, log + [co], oracle);
    }
  }

  lemma {:induction false} PairFromBound(co: Call, parts: (Object, Object), tail: seq<Json>, file: JsonFile, log: Log, oracle: Oracle)
    requires co == CreateCompany(log, oracle, LeadCompanyArgs(parts.1)) && co.outcome.Returned?
    ensures var r := PairFrom(co, parts, tail, file, log, oracle);
      r.result.Leads? ==> |r.result.leads| <= |tail| + 1
    decreases |tail| + 1, 0
  {
    var ct := CreateContact(log + [co], oracle, LeadContactArgs(parts.0, parts.1));
    LeadsFromBound(tail, file, log + [co, ct], oracle);
  }

  lemma FallbackConsistent(co: Call, fb: Counted, file: JsonFile, log: Log, oracle: Oracle)
    requires PermissionDenied(co) && co.outcome == oracle(|log|)
    requires fb == LoadLeadsAsContactsOnly(file, log + [co], oracle)
    ensures Consistent(LeadsPass([co] + fb.calls, ContactsCreated(fb.count)), file, log, oracle)
  {
    var calls := [co] + fb.calls;
    assert calls[1..] == fb.calls;
    AnsweredCons(co, fb.calls, log, oracle);
    assert calls[..|calls| - |fb.calls|] == [co];
  }

  lemma SkipConsistent(co: Call, rest: LeadsPass, file: JsonFile, log: Log, oracle: Oracle)
    requires co.outcome == oracle(|log|) && co.outcome.Raised? && !PermissionDenied(co)
    requires Consistent(rest, file, log + [co], oracle)
    ensures Consistent(LeadsPass([co] + rest.calls, rest.result), file, log, oracle)
  {
    var calls := [co] + rest.calls;
    assert calls[1..] == rest.calls;
    AnsweredCons(co, rest.calls, log, oracle);
    if rest.result.ContactsCreated? {
      FallbackShift([co], rest, file, log, oracle);
    }
  }

  /** The facts about a returned company creation and its contact
      creation that do not depend on the contact's outcome. */
  lemma PairPrefix(co: Call, ct: Call, rest: seq<Call>, log: Log, oracle: Oracle)
    requires co.outcome.Returned? && ct.request.Create? && ct.request.kind == Contact
    requires co.outcome == oracle(|log|) && ct.outcome == oracle(|log| + 1)
    requires Answered(rest, log + [co, ct], oracle)
    ensures Answered([co, ct] + rest, log, oracle)
    ensures AfterDenial([co, ct] + rest) == AfterDenial(rest)
  {
    assert [co, ct] + rest == [co] + ([ct] + rest);
    assert log + [co, ct] == log + [co] + [ct];
    AnsweredCons(ct, rest, log + [co], oracle);
    AnsweredCons(co, [ct] + rest, log, oracle);
    AfterDenialPair(co, ct, rest);
  }

  /** A returned company and a contact with a non-empty id make a lead. */
  lemma LeadAdded(co: Call, ct: Call, rest: LeadsPass, file: JsonFile, log: Log, oracle: Oracle)
    requires co.request.Create? && co.request.kind == Company && co.outcome.Returned?
    requires ct.request.Create? && ct.request.kind == Contact
    requires ct.outcome.Returned? && ct.outcome.id != ""
    requires co.outcome == oracle(|log|) && ct.outcome == oracle(|log| + 1)
    requires rest.result.Leads? && Consistent(rest, file, log + [co, ct], oracle)
    ensures Consistent(LeadsPass([co, ct] + rest.calls,
      Leads([Lead(ct.outcome.id, co.outcome.id, true)] + rest.result.leads)), file, log, oracle)
  {
    PairPrefix(co, ct, rest.calls, log, oracle);
    PairedLeadsPair(co, ct, rest.calls);
  }

  /** Otherwise the pair adds no lead. */
  lemma LeadKept(co: Call, ct: Call, rest: LeadsPass, file: JsonFile, log: Log, oracle: Oracle)
    requires co.request.Create? && co.request.kind == Company && co.outcome.Returned?
    requires ct.request.Create? && ct.request.kind == Contact
    requires !(rest.result.Leads? && ct.outcome.Returned? && ct.outcome.id != "")
    requires co.outcome == oracle(|log|) && ct.outcome == oracle(|log| + 1)
    requires Consistent(rest, file, log + [co, ct], oracle)
    ensures Consistent(LeadsPass([co, ct] + rest.calls, rest.result), file, log, oracle)
  {
    PairPrefix(co, ct, rest.calls, log, oracle);
    if rest.result.ContactsCreated? {
      FallbackShift([co, ct], rest, file, log, oracle);
    } else {
      PairedLeadsPair(co, ct, rest.calls);
    }
  }

  /** A denial further on keeps its fallback when calls without a denial
      come before it. */
  lemma FallbackShift(prefix: seq<Call>, rest: LeadsPass, file: JsonFile, log: Log, oracle: Oracle)
    requires rest.result.ContactsCreated?
    requires Consistent(rest, file, log + prefix, oracle)
    requires Answered(prefix + rest.calls, log, oracle)
    requires AfterDenial(prefix + rest.calls) == AfterDenial(rest.calls)
    ensures Consistent(LeadsPass(prefix + rest.calls, rest.result), file, log, oracle)
  {
    RunAfterDenialShift(prefix, rest.calls, rest.result.count, log, ContactsOnlyRun(file, oracle));
  }

  lemma RunAfterDenialShift(prefix: seq<Call>, calls: seq<Call>, count: nat, log: Log, run: Log -> Counted)
    requires RunAfterDenial(calls, count, log + prefix, run)
    requires AfterDenial(prefix + calls) == AfterDenial(calls)
    ensures RunAfterDenial(prefix + calls, count, log, run)
  {
    SliceShift(log, prefix, calls, |AfterDenial(calls).value|);
  }

  /** The log before the last `n` calls is the same whether `prefix` is
      counted in the log or in the calls. */
  lemma SliceShift(log: Log, prefix: seq<Call>, calls: seq<Call>, n: nat)
    requires n <= |calls|
    ensures log + (prefix + calls)[..|prefix + calls| - n] == (log + prefix) + calls[..|calls| - n]
  {
    LogPrefixShift(log, prefix, calls, |calls| - n);
  }

  lemma LogPrefixShift(log: Log, prefix: seq<Call>, calls: seq<Call>, k: nat)
    requires k <= |calls|
    ensures log + (prefix + calls)[..|prefix| + k] == (log + prefix) + calls[..k]
  {
    assert (prefix + calls)[..|prefix| + k] == prefix + calls[..k];
  }

  lemma AfterDenialPair(co: Call, ct: Call, rest: seq<Call>)
    requires co.outcome.Returned?
    requires ct.request.Create? && ct.request.kind == Contact
    ensures AfterDenial([co, ct] + rest) == AfterDenial(rest)
  {
    var calls := [co, ct] + rest;
    assert calls[1..] == [ct] + rest;
    assert calls[1..][1..] == rest;
  }

  /** A returned company creation followed by a contact creation adds a
      lead to the log's leads exactly when the contact id is non-empty. */
  lemma PairedLeadsPair(co: Call, ct: Call, rest: seq<Call>)
    requires co.request.Create? && co.request.kind == Company && co.outcome.Returned?
    requires ct.request.Create? && ct.request.kind == Contact
    ensures var id := ContactId(ct);
      PairedLeads([co, ct] + rest) ==
        (if id.Some? && id.value != "" then [Lead(id.value, co.outcome.id, true)] else []) + PairedLeads(rest)
  {
    var calls := [co, ct] + rest;
    assert calls[2..] == rest;
    assert calls[1..] == [ct] + rest;
    assert ([ct] + rest)[1..] == rest;
  }

  /** The company creations in `calls`, in order. */
  function CompanyRequests(calls: seq<Call>): (rs: seq<Request>)
    ensures |rs| <= |calls|
  {
    if calls == [] then []
    else
      var head := if calls[0].request.Create? && calls[0].request.kind == Company then [calls[0].request] else [];
      head + CompanyRequests(calls[1..])
  }

  /** A log that opens with a company creation. */
  lemma CompanyFirst(calls: seq<Call>)
    requires calls != [] && calls[0].request.Create? && calls[0].request.kind == Company
    ensures CompanyRequests(calls) == [calls[0].request] + CompanyRequests(calls[1..])
    ensures AfterDenial(calls) == if PermissionDenied(calls[0]) then Some(calls[1..]) else AfterDenial(calls[1..])
  {
  }

  /** A log that opens with a created company and a contact creation. */
  lemma CompanyContactFirst(calls: seq<Call>)
    requires |calls| >= 2 && calls[0].request.Create? && calls[0].request.kind == Company
    requires calls[0].outcome.Returned? && calls[1].request.Create? && calls[1].request.kind == Contact
    ensures CompanyRequests(calls) == [calls[0].request] + CompanyRequests(calls[2..])
    ensures AfterDenial(calls) == AfterDenial(calls[2..])
  {
    var tail := calls[1..];
    assert tail[1..] == calls[2..];
    assert CompanyRequests(tail) == CompanyRequests(tail[1..]);
    assert AfterDenial(tail) == AfterDenial(tail[1..]);
  }

  /** Contact creations hold no company creation. */
  lemma {:induction false} CompanyRequestsNone(calls: seq<Call>)
    requires AllCreate(calls, Contact)
    ensures CompanyRequests(calls) == []
  {
    if calls != [] {
      CompanyRequestsNone(calls[1..]);
    }
  }

  /** Company creation k is the company creation of part k. */
  predicate CompaniesOf(rs: seq<Request>, ps: seq<(Object, Object)>) {
    |rs| <= |ps| && forall k :: 0 <= k < |rs| ==> rs[k] == LeadCompanyRequest(ps[k])
  }

  lemma CompaniesOfCons(parts: (Object, Object), rs: seq<Request>, ps: seq<(Object, Object)>)
    requires CompaniesOf(rs, ps)
    ensures CompaniesOf([LeadCompanyRequest(parts)] + rs, [parts] + ps)
  {
    var rs', ps' := [LeadCompanyRequest(parts)] + rs, [parts] + ps;
    forall k | 0 <= k < |rs'|
      ensures rs'[k] == LeadCompanyRequest(ps'[k])
    {
      if k > 0 {
        assert rs'[k] == rs[k - 1] && ps'[k] == ps[k - 1];
      }
    }
  }

  /** The k-th company creation of a leads pass is the k-th well-formed
      record's, and when no company creation is denied there is one for
      every well-formed record. */
  lemma {:induction false} LeadCallsCompanies(records: seq<Json>, calls: seq<Call>)
    requires LeadCalls(records, calls)
    ensures CompaniesOf(CompanyRequests(calls), LeadPartsOf(records))
    ensures AfterDenial(calls).None? ==> |CompanyRequests(calls)| == WellFormed(records)
    decreases |records|, 1
  {
    if records != [] {
      match LeadParts(records[0])
      case None =>
        LeadCallsCompanies(records[1..], calls);
      case Some(parts) =>
        assert LeadPartsOf(records) == [parts] + LeadPartsOf(records[1..]);
        LeadRecordCallsCompanies(parts, records[1..], calls);
    }
  }

  lemma {:induction false} LeadRecordCallsCompanies(parts: (Object, Object), tail: seq<Json>, calls: seq<Call>)
    requires LeadRecordCalls(parts, tail, calls)
    ensures CompaniesOf(CompanyRequests(calls), [parts] + LeadPartsOf(tail))
    ensures AfterDenial(calls).None? ==> |CompanyRequests(calls)| == 1 + WellFormed(tail)
    decreases |tail| + 1, 0
  {
    var c := calls[0];
    CompanyFirst(calls);
    if c.outcome.Returned? {
      var rest := calls[2..];
      CompanyContactFirst(calls);
      LeadCallsCompanies(tail, rest);
      CompaniesOfCons(parts, CompanyRequests(rest), LeadPartsOf(tail));
    } else if IsPermissionError(c.outcome.message) {
      CompanyRequestsNone(calls[1..]);
      CompaniesOfCons(parts, [], LeadPartsOf(tail));
    } else {
      LeadCallsCompanies(tail, calls[1..]);
      CompaniesOfCons(parts, CompanyRequests(calls[1..]), LeadPartsOf(tail));
    }
  }

  /** A leads pass that makes any call starts with the company creation
      of the first well-formed record. */
  lemma {:induction false} LeadCallsHead(records: seq<Json>, calls: seq<Call>)
    requires LeadCalls(records, calls) && calls != []
    ensures WellFormed(records) > 0 && calls[0].request == LeadCompanyRequest(LeadPartsOf(records)[0])
    decreases |records|
  {
    if LeadParts(records[0]).None? {
      LeadCallsHead(records[1..], calls);
    }
  }

  /** The company creation at position i of `calls` is the one of part k,
      where k counts the company creations before it. When the company
      was created, the contact creation of part k comes next. When it
      failed for any reason but permission, the next call is part k + 1's
      company creation, so the record is skipped and the loop goes on. */
  predicate CompanyAt(calls: seq<Call>, i: nat, ps: seq<(Object, Object)>)
    requires i < |calls|
  {
    var k := |CompanyRequests(calls[..i])|;
    && k < |ps|
    && calls[i].request == LeadCompanyRequest(ps[k])
    && (calls[i].outcome.Returned? ==>
          i + 1 < |calls| && calls[i + 1].request == LeadContactRequest(ps[k]))
    && (calls[i].outcome.Raised? && !IsPermissionError(calls[i].outcome.message) && i + 1 < |calls| ==>
          k + 1 < |ps| && calls[i + 1].request == LeadCompanyRequest(ps[k + 1]))
  }

  /** `CompanyAt` read past a prefix of `n` calls that holds exactly one
      company creation, that of `parts`. */
  lemma CompanyAtShift(calls: seq<Call>, n: nat, i: nat, parts: (Object, Object), ps: seq<(Object, Object)>)
    requires 1 <= n <= i < |calls|
    requires |CompanyRequests(calls[..i])| == 1 + |CompanyRequests(calls[n..][..i - n])|
    requires CompanyAt(calls[n..], i - n, ps)
    ensures CompanyAt(calls, i, [parts] + ps)
  {
    var k' := |CompanyRequests(calls[n..][..i - n])|;
    assert ([parts] + ps)[k' + 1] == ps[k'];
    assert calls[i] == calls[n..][i - n];
    if i + 1 < |calls| {
      assert calls[i + 1] == calls[n..][i - n + 1];
      if k' + 1 < |ps| {
        assert ([parts] + ps)[k' + 2] == ps[k' + 1];
      }
    }
  }

  /** Every company creation of a leads pass is placed as `CompanyAt`
      says among the well-formed records. */
  lemma {:induction false} LeadCallsPairs(records: seq<Json>, calls: seq<Call>, i: nat)
    requires LeadCalls(records, calls)
    requires i < |calls| && calls[i].request.Create? && calls[i].request.kind == Company
    ensures CompanyAt(calls, i, LeadPartsOf(records))
    decreases |records|, 2
  {
    match LeadParts(records[0])
    case None =>
      LeadCallsPairs(records[1..], calls, i);
    case Some(parts) =>
      assert LeadPartsOf(records) == [parts] + LeadPartsOf(records[1..]);
      LeadRecordCallsPairs(parts, records[1..], calls, i);
  }

  lemma {:induction false} LeadRecordCallsPairs(parts: (Object, Object), tail: seq<Json>, calls: seq<Call>, i: nat)
    requires LeadRecordCalls(parts, tail, calls)
    requires i < |calls| && calls[i].request.Create? && calls[i].request.kind == Company
    ensures CompanyAt(calls, i, [parts] + LeadPartsOf(tail))
    decreases |tail| + 1, 1
  {
    var c := calls[0];
    if i == 0 {
      OwnCompanyAt(parts, tail, calls);
    } else if c.outcome.Returned? {
      if i >= 2 {
        LaterRecordPairs(parts, tail, calls, 2, i);
      }
    } else if IsPermissionError(c.outcome.message) {
      assert false;
    } else {
      LaterRecordPairs(parts, tail, calls, 1, i);
    }
  }

  /** A company creation after the record's own `n` calls belongs to a
      later record. */
  lemma {:induction false} LaterRecordPairs(parts: (Object, Object), tail: seq<Json>, calls: seq<Call>, n: nat, i: nat)
    requires 1 <= n <= i < |calls| && n <= 2
    requires calls[0].request.Create? && calls[0].request.kind == Company
    requires n == 2 ==> calls[0].outcome.Returned? && calls[1].request.Create? && calls[1].request.kind == Contact
    requires LeadCalls(tail, calls[n..])
    requires calls[i].request.Create? && calls[i].request.kind == Company
    ensures CompanyAt(calls, i, [parts] + LeadPartsOf(tail))
    decreases |tail| + 1, 0
  {
    assert calls[n..][i - n] == calls[i];
    LeadCallsPairs(tail, calls[n..], i - n);
    LaterCompanyAt(calls, n, i, parts, LeadPartsOf(tail));
  }

  lemma OwnCompanyAt(parts: (Object, Object), tail: seq<Json>, calls: seq<Call>)
    requires LeadRecordCalls(parts, tail, calls)
    ensures CompanyAt(calls, 0, [parts] + LeadPartsOf(tail))
  {
    var c := calls[0];
    if c.outcome.Returned? {
    } else if IsPermissionError(c.outcome.message) {
    } else if 1 < |calls| {
      LeadCallsHead(tail, calls[1..]);
    }
    FirstCompanyAt(calls, parts, LeadPartsOf(tail));
  }

  /** The record's own company creation opens its calls. */
  lemma FirstCompanyAt(calls: seq<Call>, parts: (Object, Object), ps: seq<(Object, Object)>)
    requires calls != [] && calls[0].request == LeadCompanyRequest(parts)
    requires calls[0].outcome.Returned? ==> |calls| >= 2 && calls[1].request == LeadContactRequest(parts)
    requires calls[0].outcome.Raised? && !IsPermissionError(calls[0].outcome.message) && 1 < |calls| ==>
      ps != [] && calls[1].request == LeadCompanyRequest(ps[0])
    ensures CompanyAt(calls, 0, [parts] + ps)
  {
    assert calls[..0] == [];
    assert ps != [] ==> ([parts] + ps)[1] == ps[0];
  }

  /** A company creation after the record's own `n` calls belongs to the
      following records. */
  lemma LaterCompanyAt(calls: seq<Call>, n: nat, i: nat, parts: (Object, Object), ps: seq<(Object, Object)>)
    requires 1 <= n <= i < |calls| && n <= 2
    requires calls[0].request.Create? && calls[0].request.kind == Company
    requires n == 2 ==> calls[0].outcome.Returned? && calls[1].request.Create? && calls[1].request.kind == Contact
    requires CompanyAt(calls[n..], i - n, ps)
    ensures CompanyAt(calls, i, [parts] + ps)
  {
    var pre := calls[..i];
    if n == 2 {
      CompanyContactFirst(pre);
      assert pre[2..] == calls[2..][..i - 2];
    } else {
      CompanyFirst(pre);
      assert pre[1..] == calls[1..][..i - 1];
    }
    CompanyAtShift(calls, n, i, parts, ps);
  }

  /** `load_leads_from_json`: a missing or unreadable file gives []. */
  function LoadLeads(file: JsonFile, log: Log, oracle: Oracle): (r: LeadsPass)
    ensures !file.Parsed? ==> r == LeadsPass([], Leads([]))
    ensures Consistent(r, file, log, oracle)
    ensures LeadCalls(FileRecords(file), r.calls)
    ensures CompaniesOf(CompanyRequests(r.calls), LeadPartsOf(FileRecords(file)))
    ensures r.result.Leads? ==> |CompanyRequests(r.calls)| == WellFormed(FileRecords(file))
    ensures r.result.Leads? ==> |r.result.leads| <= |FileRecords(file)|
    ensures r.result.Leads? ==> forall i :: 0 <= i < |r.result.leads| ==>
      r.result.leads[i].associated && r.result.leads[i].contactId != ""
    ensures r.result.ContactsCreated? ==>
      var fallback := AfterDenial(r.calls).value;
      && AllCreate(fallback, Contact)
      && |fallback| == WellFormed(FileRecords(file))
      && r.result.count <= |FileRecords(file)|
  {
    var r := if file.Parsed? then LeadsFrom(Records(file.value), file, log, oracle) else LeadsPass([], Leads([]));
    LeadsFromBound(FileRecords(file), file, log, oracle);
    LeadCallsCompanies(FileRecords(file), r.calls);
    r
  }

  // ---------------------------------------------------------------- deals

  /** The draws for one deal: the stage choice, then for the contact and
      for the company a `random.random()` and a `random.choice`. */
  datatype DealDraw = DealDraw(stagePick: nat, contactCoin: real, contactPick: nat, companyCoin: real, companyPick: nat)

  datatype DealAssignment = DealAssignment(stage: Json, contactId: Option<string>, companyId: Option<string>)

  /** The stage is random among the seven when stages are randomised and
      the record's own (default "appointmentscheduled") otherwise; an
      existing contact is linked with probability 0.7 and an existing
      company with probability 0.6, when associations are requested and
      there is one to pick. */
  function AssignDeal(deal: Object, randomize: bool, associate: bool, contacts: seq<string>,
                      companies: seq<string>, d: DealDraw): (a: DealAssignment)
    ensures randomize ==> a.stage.JStr? && a.stage.s in DealStages
    ensures !randomize ==> a.stage == Lookup(deal, "dealstage", JStr(DefaultStage))
    ensures a.contactId.Some? <==> associate && contacts != [] && d.contactCoin < 0.7
    ensures a.contactId.Some? ==> a.contactId.value in contacts
    ensures a.companyId.Some? <==> associate && companies != [] && d.companyCoin < 0.6
    ensures a.companyId.Some? ==> a.companyId.value in companies
  {
    var stage := if randomize then JStr(Choice(DealStages, d.stagePick)) else Lookup(deal, "dealstage", JStr(DefaultStage));
    var contact := if associate && contacts != [] && d.contactCoin < 0.7 then Some(Choice(contacts, d.contactPick)) else None;
    var company := if associate && companies != [] && d.companyCoin < 0.6 then Some(Choice(companies, d.companyPick)) else None;
    DealAssignment(stage, contact, company)
  }

  /** The keyword arguments `load_deals_with_smart_associations` passes
      through to `create_deal`, None when absent. */
  function DealExtra(deal: Object): (extra: Props)
    ensures extra.Keys == {"pipeline", "closedate", "dealtype", "description"}
  {
    map["pipeline" := Lookup(deal, "pipeline", JNull), "closedate" := Lookup(deal, "closedate", JNull),
        "dealtype" := Lookup(deal, "dealtype", JNull), "description" := Lookup(deal, "description", JNull)]
  }

  /** The deal creation for one record. The picked contact and company go
      only to the association helpers, which make no call. */
  function DealRequest(deal: Object, a: DealAssignment, render: Json -> string): Request {
    Create(Deal, DealProps(Lookup(deal, "dealname", JNull), Lookup(deal, "amount", JNull), a.stage, DealExtra(deal), render))
  }

  /** The deal creation for a record drawn with `d`. */
  function RecordDealRequest(deal: Object, randomize: bool, associate: bool, contacts: seq<string>,
                             companies: seq<string>, d: DealDraw, render: Json -> string): Request {
    DealRequest(deal, AssignDeal(deal, randomize, associate, contacts, companies, d), render)
  }

  /** The positions of the records that are objects, in file order. */
  function ObjectPositions(records: seq<Json>): (ps: seq<nat>)
    ensures forall k :: 0 <= k < |ps| ==> ps[k] < |records| && records[ps[k]].JObject?
    ensures AllObjects(records) ==> |ps| == |records|
  {
    if records == [] then []
    else
      var shifted := ShiftUp(ObjectPositions(records[1..]));
      if records[0].JObject? then [0] + shifted else shifted
  }

  /** Every position moved one record on. */
  function ShiftUp(ps: seq<nat>): (qs: seq<nat>)
    ensures |qs| == |ps|
    ensures forall k :: 0 <= k < |ps| ==> qs[k] == ps[k] + 1
  {
    seq(|ps|, k requires 0 <= k < |ps| => ps[k] + 1)
  }

  lemma ShiftUpIncreasing(ps: seq<nat>)
    requires Increasing(ps)
    ensures Increasing(ShiftUp(ps)) && Increasing([0] + ShiftUp(ps))
  {
    var qs := ShiftUp(ps);
    forall k, l | 0 <= k < l < |[0] + qs|
      ensures ([0] + qs)[k] < ([0] + qs)[l]
    {
      if k > 0 {
        assert ([0] + qs)[k] == qs[k - 1];
      }
      assert ([0] + qs)[l] == qs[l - 1];
    }
  }

  predicate Increasing(ps: seq<nat>) {
    forall k, l :: 0 <= k < l < |ps| ==> ps[k] < ps[l]
  }

  /** The positions come in file order. */
  lemma {:induction false} ObjectPositionsIncreasing(records: seq<Json>)
    ensures Increasing(ObjectPositions(records))
  {
    if records != [] {
      ObjectPositionsIncreasing(records[1..]);
      ShiftUpIncreasing(ObjectPositions(records[1..]));
    }
  }

  /** Every object record has its position listed. */
  lemma {:induction false} ObjectPositionsCover(records: seq<Json>, j: nat)
    requires j < |records| && records[j].JObject?
    ensures j in ObjectPositions(records)
  {
    var rest := ObjectPositions(records[1..]);
    var shifted := ShiftUp(rest);
    var ps := ObjectPositions(records);
    assert ps == if records[0].JObject? then [0] + shifted else shifted;
    if j == 0 {
      assert ps[0] == 0;
    } else {
      ObjectPositionsCover(records[1..], j - 1);
      var k :| 0 <= k < |rest| && rest[k] == j - 1;
      assert shifted[k] == j;
      if records[0].JObject? {
        assert ps[k + 1] == j;
      } else {
        assert ps[k] == j;
      }
    }
  }

  /** The deal creation for a record, given the record's position in the
      file as the index of its draw. */
  function DealRequestOf(randomize: bool, associate: bool, contacts: seq<string>, companies: seq<string>,
                         draws: nat -> DealDraw, render: Json -> string): (Object, nat) -> Request {
    (deal: Object, j: nat) => RecordDealRequest(deal, randomize, associate, contacts, companies, draws(j), render)
  }

  /** The deal loop's calls: call k is the creation `requestOf` gives for
      the k-th object record and its position, and there is one per object
      record; records that are not objects are skipped. */
  predicate DealCalls(records: seq<Json>, next: nat, requestOf: (Object, nat) -> Request, calls: seq<Call>) {
    var ps := ObjectPositions(records);
    && |calls| == |ps|
    && forall k :: 0 <= k < |calls| ==> calls[k].request == requestOf(records[ps[k]].fields, next + ps[k])
  }

  lemma DealCallsCons(records: seq<Json>, next: nat, requestOf: (Object, nat) -> Request, c: Call, rest: seq<Call>)
    requires records != [] && records[0].JObject?
    requires c.request == requestOf(records[0].fields, next)
    requires DealCalls(records[1..], next + 1, requestOf, rest)
    ensures DealCalls(records, next, requestOf, [c] + rest)
  {
    var calls := [c] + rest;
    var ps, ps' := ObjectPositions(records), ObjectPositions(records[1..]);
    forall k | 0 <= k < |calls|
      ensures calls[k].request == requestOf(records[ps[k]].fields, next + ps[k])
    {
      if k > 0 {
        assert calls[k] == rest[k - 1] && ps[k] == ps'[k - 1] + 1;
        assert records[ps[k]] == records[1..][ps'[k - 1]];
      }
    }
  }

  lemma DealCallsSkip(records: seq<Json>, next: nat, requestOf: (Object, nat) -> Request, calls: seq<Call>)
    requires records != [] && !records[0].JObject?
    requires DealCalls(records[1..], next + 1, requestOf, calls)
    ensures DealCalls(records, next, requestOf, calls)
  {
    var ps, ps' := ObjectPositions(records), ObjectPositions(records[1..]);
    forall k | 0 <= k < |calls|
      ensures calls[k].request == requestOf(records[ps[k]].fields, next + ps[k])
    {
      assert ps[k] == ps'[k] + 1;
      assert records[ps[k]] == records[1..][ps'[k]];
    }
  }

  /** A deal creation with a name and a stage, the stage one of the seven
      when stages are randomised. */
  predicate DealRequestOk(req: Request, randomize: bool) {
    && req.Create? && req.kind == Deal
    && "dealname" in req.props && "dealstage" in req.props
    && (randomize ==> req.props["dealstage"].JStr? && req.props["dealstage"].s in DealStages)
  }

  /** Every call in `calls` is a deal creation as `DealRequestOk` says. */
  predicate DealCallsOk(calls: seq<Call>, randomize: bool) {
    forall i :: 0 <= i < |calls| ==> DealRequestOk(calls[i].request, randomize)
  }

  lemma DealCallsOkCons(c: Call, rest: seq<Call>, randomize: bool)
    requires DealRequestOk(c.request, randomize) && DealCallsOk(rest, randomize)
    ensures DealCallsOk([c] + rest, randomize)
  {
    var calls := [c] + rest;
    forall i | 0 <= i < |calls|
      ensures DealRequestOk(calls[i].request, randomize)
    {
      if i > 0 {
        assert calls[i] == rest[i - 1];
      }
    }
  }

  /** The creation call for one deal record: its stage is drawn or read,
      and it always carries a name and a stage. */
  function DealCall(deal: Object, randomize: bool, associate: bool, contacts: seq<string>, companies: seq<string>,
                    d: DealDraw, render: Json -> string, log: Log, oracle: Oracle): (c: Call)
    ensures DealRequestOk(c.request, randomize)
    ensures !randomize ==> c.request.props["dealstage"] == Lookup(deal, "dealstage", JStr(DefaultStage))
    ensures c.request == RecordDealRequest(deal, randomize, associate, contacts, companies, d, render)
    ensures c.outcome == oracle(|log|)
  {
    var a := AssignDeal(deal, randomize, associate, contacts, companies, d);
    CreateDeal(log, oracle, Lookup(deal, "dealname", JNull), Lookup(deal, "amount", JNull), a.stage, DealExtra(deal), render)
  }

  /** The deals loop from record number `next` on. A record that is not a
      dict, or whose creation raises, is skipped; a created deal's id is
      kept whatever it is. */
  function DealsFrom(records: seq<Json>, next: nat, randomize: bool, associate: bool,
                     contacts: seq<string>, companies: seq<string>, draws: nat -> DealDraw,
                     render: Json -> string, log: Log, oracle: Oracle): (r: Created)
    decreases |records|
    ensures |r.calls| <= |records|
    ensures AllObjects(records) ==> |r.calls| == |records|
    ensures r.ids == ReturnedIds(r.calls)
    ensures Answered(r.calls, log, oracle)
    ensures DealCallsOk(r.calls, randomize)
    ensures DealCalls(records, next, DealRequestOf(randomize, associate, contacts, companies, draws, render), r.calls)
  {
    if records == [] then Created([], [])
    else if !records[0].JObject? then
      var r := DealsFrom(records[1..], next + 1, randomize, associate, contacts, companies, draws, render, log, oracle);
      DealCallsSkip(records, next, DealRequestOf(randomize, associate, contacts, companies, draws, render), r.calls);
      r
    else
      var c := DealCall(records[0].fields, randomize, associate, contacts, companies, draws(next), render, log, oracle);
      var rest := DealsFrom(records[1..], next + 1, randomize, associate, contacts, companies, draws, render, log + [c], oracle);
      assert ([c] + rest.calls)[1..] == rest.calls;
      AnsweredCons(c, rest.calls, log, oracle);
      DealCallsOkCons(c, rest.calls, randomize);
      DealCallsCons(records, next, DealRequestOf(randomize, associate, contacts, companies, draws, render), c, rest.calls);
      Created([c] + rest.calls, (if c.outcome.Returned? then [c.outcome.id] else []) + rest.ids)
  }

  /** `load_deals_with_smart_associations`: a missing or unreadable file
      gives []; the existing contacts and companies are the pages fetched
      before the loop. */
  function LoadDeals(file: JsonFile, randomize: bool, associate: bool,
                     existingContacts: seq<string>, existingCompanies: seq<string>,
                     draws: nat -> DealDraw, render: Json -> string, log: Log, oracle: Oracle): (r: Created)
    ensures !file.Parsed? ==> r == Created([], [])
    ensures |r.calls| <= |FileRecords(file)|
    ensures AllObjects(FileRecords(file)) ==> |r.calls| == |FileRecords(file)|
    ensures r.ids == ReturnedIds(r.calls)
    ensures AllCreate(r.calls, Deal) && Answered(r.calls, log, oracle)
    ensures DealCallsOk(r.calls, randomize)
    ensures DealCalls(FileRecords(file), 0, DealRequestOf(randomize, associate, if associate then existingContacts else [],
                      if associate then existingCompanies else [], draws, render), r.calls)
  {
    match file
    case Parsed(v) =>
      var contacts := if associate then existingContacts else [];
      var companies := if associate then existingCompanies else [];
      DealsFrom(Records(v), 0, randomize, associate, contacts, companies, draws, render, log, oracle)
    case _ => Created([], [])
  }

  /** The deal properties `p` carry the record's name, its amount as text
      exactly when the amount is truthy, its pipeline, close date, type and
      description, and a stage that is one of the seven when stages are
      randomised and the record's own otherwise. */
  predicate CarriesDeal(p: Props, deal: Object, randomize: bool, render: Json -> string) {
    && "dealname" in p && p["dealname"] == Lookup(deal, "dealname", JNull)
    && ("amount" in p <==> Truthy(Lookup(deal, "amount", JNull)))
    && ("amount" in p ==> p["amount"] == JStr(PyStr(Lookup(deal, "amount", JNull), render)))
    && (forall f :: f in DealExtra(deal) ==> f in p && p[f] == DealExtra(deal)[f])
    && "dealstage" in p
    && (randomize ==> p["dealstage"].JStr? && p["dealstage"].s in DealStages)
    && (!randomize ==> p["dealstage"] == Lookup(deal, "dealstage", JStr(DefaultStage)))
  }

  /** A record's deal creation carries the record. */
  lemma RecordDealCarries(deal: Object, randomize: bool, associate: bool, contacts: seq<string>,
                          companies: seq<string>, d: DealDraw, render: Json -> string)
    ensures CarriesDeal(RecordDealRequest(deal, randomize, associate, contacts, companies, d, render).props,
                        deal, randomize, render)
  {
    var a := AssignDeal(deal, randomize, associate, contacts, companies, d);
    var p := DealProps(Lookup(deal, "dealname", JNull), Lookup(deal, "amount", JNull), a.stage, DealExtra(deal), render);
    assert RecordDealRequest(deal, randomize, associate, contacts, companies, d, render).props == p;
  }

  /** Deal creation k of a load carries the k-th object record of the
      file. */
  lemma LoadDealsRecord(file: JsonFile, randomize: bool, associate: bool,
                        existingContacts: seq<string>, existingCompanies: seq<string>,
                        draws: nat -> DealDraw, render: Json -> string, log: Log, oracle: Oracle, k: nat)
    requires k < |LoadDeals(file, randomize, associate, existingContacts, existingCompanies, draws, render, log, oracle).calls|
    ensures var records := FileRecords(file);
      var j := ObjectPositions(records)[k];
      && j < |records|
      && CarriesDeal(LoadDeals(file, randomize, associate, existingContacts, existingCompanies, draws, render, log, oracle)
                       .calls[k].request.props, records[j].fields, randomize, render)
  {
    var records := FileRecords(file);
    var contacts := if associate then existingContacts else [];
    var companies := if associate then existingCompanies else [];
    var j := ObjectPositions(records)[k];
    var r := LoadDeals(file, randomize, associate, existingContacts, existingCompanies, draws, render, log, oracle);
    assert r.calls[k].request == DealRequestOf(randomize, associate, contacts, companies, draws, render)(records[j].fields, j);
    RecordDealCarries(records[j].fields, randomize, associate, contacts, companies, draws(j), render);
  }

  // ---------------------------------------------------------------- bulk load

  datatype LoadSummary = LoadSummary(contactsLoaded: nat, leadsLoaded: nat, dealsLoaded: nat, totalRecords: nat)

  /** The three files, the random draws, the existing records the deals
      loader fetches, and the text of `str()` on floats and containers. */
  datatype BulkInput = BulkInput(
    contactsFile: JsonFile, leadsFile: JsonFile, dealsFile: JsonFile,
    contactDraws: nat -> ContactDraw, dealDraws: nat -> DealDraw,
    existingContacts: seq<string>, existingCompanies: seq<string>, render: Json -> string)

  /** The three loads in order: contacts with lead statuses, leads, then
      deals with random stages and associations. */
  datatype Loads = Loads(contacts: Created, leads: LeadsPass, deals: Created)

  function RunLoads(input: BulkInput, log: Log, oracle: Oracle): (l: Loads)
    ensures l.contacts == LoadContacts(input.contactsFile, true, input.contactDraws, log, oracle)
    ensures l.leads == LoadLeads(input.leadsFile, log + l.contacts.calls, oracle)
    ensures l.deals == LoadDeals(input.dealsFile, true, true, input.existingContacts, input.existingCompanies,
      input.dealDraws, input.render, log + l.contacts.calls + l.leads.calls, oracle)
  {
    var c := LoadContacts(input.contactsFile, true, input.contactDraws, log, oracle);
    var l := LoadLeads(input.leadsFile, log + c.calls, oracle);
    var d := LoadDeals(input.dealsFile, true, true, input.existingContacts, input.existingCompanies,
      input.dealDraws, input.render, log + c.calls + l.calls, oracle);
    Loads(c, l, d)
  }

  /** The calls of the three loads, or the summary, or the error that
      escaped. */
  datatype BulkRun = BulkRun(calls: seq<Call>, summary: Result<LoadSummary, string>)

  function Summary(contacts: nat, leads: nat, deals: nat): (s: LoadSummary)
    ensures s.totalRecords == s.contactsLoaded + s.leadsLoaded + s.dealsLoaded
    ensures s.contactsLoaded == contacts && s.leadsLoaded == leads && s.dealsLoaded == deals
  {
    LoadSummary(contacts, leads, deals, contacts + leads + deals)
  }

  /** `bulk_load_all_data_with_relationships` as written: `len(leads)` on
      the integer the contacts-only fallback returns raises `TypeError`,
      after all three loads have run. */
  function BulkLoadAsWritten(input: BulkInput, log: Log, oracle: Oracle): (r: BulkRun)
    ensures r.summary.Err? <==> RunLoads(input, log, oracle).leads.result.ContactsCreated?
    ensures r.summary.Ok? ==>
      r.summary.value.totalRecords == r.summary.value.contactsLoaded + r.summary.value.leadsLoaded + r.summary.value.dealsLoaded
  {
    var l := RunLoads(input, log, oracle);
    var calls := l.contacts.calls + l.leads.calls + l.deals.calls;
    match l.leads.result
    case ContactsCreated(_) => BulkRun(calls, Err("TypeError: object of type 'int' has no len()"))
    case Leads(leads) => BulkRun(calls, Ok(Summary(|l.contacts.ids|, |leads|, |l.deals.ids|)))
  }

  /** The number of leads loaded: the list's length, or the fallback's
      count of contacts. */
  function LeadsLoaded(r: LeadsResult): nat {
    match r
    case Leads(leads) => |leads|
    case ContactsCreated(count) => count
  }

  /** The bulk load as evidently intended: the fallback's count stands in
      for the number of leads. */
  function BulkLoad(input: BulkInput, log: Log, oracle: Oracle): (r: BulkRun)
    ensures r.summary.Ok?
    ensures r.summary.value.totalRecords == r.summary.value.contactsLoaded + r.summary.value.leadsLoaded + r.summary.value.dealsLoaded
    ensures r.summary.value.contactsLoaded <= |FileRecords(input.contactsFile)|
    ensures r.summary.value.leadsLoaded <= |FileRecords(input.leadsFile)|
    ensures r.summary.value.dealsLoaded <= |FileRecords(input.dealsFile)|
    ensures r.calls == BulkLoadAsWritten(input, log, oracle).calls
    ensures BulkLoadAsWritten(input, log, oracle).summary.Ok? ==> BulkLoadAsWritten(input, log, oracle).summary == r.summary
    ensures var c := LoadContacts(input.contactsFile, true, input.contactDraws, log, oracle);
      var l := LoadLeads(input.leadsFile, log + c.calls, oracle);
      var d := LoadDeals(input.dealsFile, true, true, input.existingContacts, input.existingCompanies,
        input.dealDraws, input.render, log + c.calls + l.calls, oracle);
      && r.calls == c.calls + l.calls + d.calls
      && r.summary.value.contactsLoaded == |c.ids|
      && r.summary.value.leadsLoaded == LeadsLoaded(l.result)
      && r.summary.value.dealsLoaded == |d.ids|
  {
    var l := RunLoads(input, log, oracle);
    var calls := l.contacts.calls + l.leads.calls + l.deals.calls;
    BulkRun(calls, Ok(Summary(|l.contacts.ids|, LeadsLoaded(l.leads.result), |l.deals.ids|)))
  }

  /** The leads load of the counterexample falls back and creates no
      contact. */
  lemma DeniedLeadsFile(oracle: Oracle)
    requires oracle(0) == Raised("403 Forbidden") && oracle(1).Raised?
    ensures LoadLeads(Parsed(JList([JObject(map[])])), [], oracle).result == ContactsCreated(0)
  {
    var file := Parsed(JList([JObject(map[])]));
    var e := Lower("403 Forbidden");
    assert e[..3] == "403";
    assert IsPermissionError("403 Forbidden");
    var recs := [JObject(map[])];
    var parts: (Object, Object) := (map[], map[]);
    assert LeadParts(recs[0]) == Some(parts);
    var co := CreateCompany([], oracle, LeadCompanyArgs(parts.1));
    var fb := LoadLeadsAsContactsOnly(file, [co], oracle);
    assert LeadFrom(parts, [], file, [], oracle) == LeadsPass([co] + fb.calls, ContactsCreated(fb.count));
    assert LoadLeads(file, [], oracle) == LeadsFrom(recs, file, [], oracle);
    var c := CreateContact([co], oracle, LeadContactArgs(parts.0, parts.1));
    assert fb == ContactsOnlyFrom(recs, [co], oracle);
    assert fb.calls == [c] + ContactsOnlyFrom([], [co, c], oracle).calls;
  }

  /** A leads file holding one empty record, whose company creation is
      refused with "403 Forbidden" and whose fallback contact creation
      fails too, makes the bulk load as written raise, whatever the draws
      and existing records; the corrected bulk load reports nothing
      loaded. */
  lemma BulkLoadAsWrittenRaises(contactDraws: nat -> ContactDraw, dealDraws: nat -> DealDraw,
                                existingContacts: seq<string>, existingCompanies: seq<string>,
                                render: Json -> string, oracle: Oracle)
    requires oracle(0) == Raised("403 Forbidden") && oracle(1).Raised?
    ensures var input := BulkInput(Missing, Parsed(JList([JObject(map[])])), Missing,
        contactDraws, dealDraws, existingContacts, existingCompanies, render);
      && BulkLoadAsWritten(input, [], oracle).summary.Err?
      && BulkLoad(input, [], oracle).summary == Ok(Summary(0, 0, 0))
  {
    var file := Parsed(JList([JObject(map[])]));
    var input := BulkInput(Missing, file, Missing, contactDraws, dealDraws, existingContacts, existingCompanies, render);
    var l := RunLoads(input, [], oracle);
    assert l.contacts == Created([], []);
    DeniedLeadsFile(oracle);
    assert l.leads.result == ContactsCreated(0);
    assert l.deals == Created([], []);
  }
}

=== FILE: normalize.dfy ===
/** Field normalisation of the extracted CRM records: the lead frame
    (renames, `full_name`, `lead_status_id`) and the deal frame (renames,
    date parsing), plus the `amount` coercion applied before deals are
    stored. */
module Normalize {
  import opened Wrappers
  import opened Values
  import opened Text
  import opened Frame

  /** The conversions the source borrows from Python and pandas, injected:
      `float(s)` on text and `pd.to_datetime(s, errors='coerce')`. Each
      answers `None` where the source would fail or produce NaT. */
  datatype Parsers = Parsers(number: string -> Option<real>, date: string -> Option<Date>)

  /** What makes `get_leads_dataframe` raise: a column it indexes is
      missing, a name is not text, or a status id is not a number. */
  datatype FrameError = MissingColumn(name: string) | NotText(column: string) | NotInteger(column: string)

  const LeadRenames: map<string, string> :=
    map["firstname" := "first_name", "lastname" := "last_name", "hs_lead_status" := "lead_status"]

  const DealRenames: map<string, string> :=
    map["dealtype" := "deal_type", "dealstage" := "deal_stage", "dealname" := "deal_name",
        "closedate" := "close_date", "createdate" := "create_date"]

  lemma RenameTablesInjective()
    ensures Injective(LeadRenames) && Injective(DealRenames)
  {
  }

  /** No wire name is also a canonical name, and `id`, `email` and `amount`
      are not renamed. */
  lemma RenameTablesDisjoint()
    ensures "firstname" !in LeadRenames.Values && "lastname" !in LeadRenames.Values
    ensures "hs_lead_status" !in LeadRenames.Values
    ensures "id" !in LeadRenames.Values && "email" !in LeadRenames.Values
    ensures "dealtype" !in DealRenames.Values && "dealstage" !in DealRenames.Values
    ensures "dealname" !in DealRenames.Values && "closedate" !in DealRenames.Values
    ensures "createdate" !in DealRenames.Values
    ensures "id" !in DealRenames.Values && "amount" !in DealRenames.Values
  {
  }

  // ---------------------------------------------------------------- status mapping

  /** A reference document that contributes to the mapping. */
  predicate IsStatusDoc(d: Doc) {
    "lead_status" in d && "id" in d
  }

  /** `docs[i]` is the last reference document carrying `status`. */
  ghost predicate LastWithLabel(docs: seq<Doc>, status: Cell, i: int) {
    && 0 <= i < |docs|
    && IsStatusDoc(docs[i])
    && docs[i]["lead_status"] == status
    && forall j :: i < j < |docs| && IsStatusDoc(docs[j]) ==> docs[j]["lead_status"] != status
  }

  /** `get_lead_status_mapping`: label to id over the reference documents
      that have both fields; a later document overwrites an earlier one. */
  function StatusMapping(docs: seq<Doc>): (m: map<Cell, Cell>)
    ensures forall l, i :: LastWithLabel(docs, l, i) ==> l in m && m[l] == docs[i]["id"]
    ensures forall l :: l in m ==> exists i :: LastWithLabel(docs, l, i)
  {
    if docs == [] then map[]
    else
      var init := docs[..|docs| - 1];
      var d := docs[|docs| - 1];
      var m := StatusMapping(init);
      LastWithLabelInit(docs);
      if IsStatusDoc(d) then
        assert LastWithLabel(docs, d["lead_status"], |docs| - 1);
        m[d["lead_status"] := d["id"]]
      else m
  }

  /** The last carrier of a label before the final document stays the
      last one over the whole sequence unless the final document carries
      that label too. */
  lemma LastWithLabelInit(docs: seq<Doc>)
    requires docs != []
    ensures var init := docs[..|docs| - 1];
      forall l, i :: LastWithLabel(docs, l, i) && i < |docs| - 1 ==> LastWithLabel(init, l, i)
    ensures var init := docs[..|docs| - 1]; var d := docs[|docs| - 1];
      forall l, i :: LastWithLabel(init, l, i) && (!IsStatusDoc(d) || d["lead_status"] != l) ==> LastWithLabel(docs, l, i)
  {
  }

  // ---------------------------------------------------------------- full name

  /** `fillna('')` on a name cell; adding a non-text value to `' '` raises. */
  function NamePart(c: Cell, column: string): (r: Result<string, FrameError>)
    ensures c.None? ==> r == Ok("")
    ensures c.Some? && c.value.VStr? ==> r == Ok(c.value.s)
    ensures c.Some? && !c.value.VStr? ==> r.Err?
  {
    match c
    case None => Ok("")
    case Some(VStr(s)) => Ok(s)
    case Some(_) => Err(NotText(column))
  }

  /** `(first.fillna('') + ' ' + last.fillna('')).str.strip()` for one row:
      both names, missing ones as empty text, joined by a space and
      stripped; a name that is not text raises. */
  function FullName(first: Cell, last: Cell): (r: Result<string, FrameError>)
    ensures r.Ok? <==> (first.None? || first.value.VStr?) && (last.None? || last.value.VStr?)
    ensures r.Ok? ==> r.value == Trim(NamePart(first, "first_name").value + " " + NamePart(last, "last_name").value)
    ensures r.Ok? ==> r.value == [] || (!IsSpace(r.value[0]) && !IsSpace(r.value[|r.value| - 1]))
  {
    match NamePart(first, "first_name")
    case Err(e) => Err(e)
    case Ok(a) =>
      match NamePart(last, "last_name")
      case Err(e) => Err(e)
      case Ok(b) => Ok(Trim(a + " " + b))
  }

  /** Two missing names give the empty full name. */
  lemma FullNameBothMissing()
    ensures FullName(None, None) == Ok("")
  {
    assert AllSpace("" + " " + "");
  }

  /** Two names without surrounding blanks are joined by one space. */
  lemma FullNameJoins(a: string, b: string)
    requires a != [] && !IsSpace(a[0]) && !IsSpace(a[|a| - 1])
    requires b != [] && !IsSpace(b[0]) && !IsSpace(b[|b| - 1])
    ensures FullName(Some(VStr(a)), Some(VStr(b))) == Ok(a + " " + b)
  {
    TrimClean(a + " " + b);
  }

  /** A missing last name leaves the stripped first name. */
  lemma FullNameFirstOnly(a: string)
    ensures FullName(Some(VStr(a)), None) == Ok(Trim(a))
  {
    assert a + " " + "" == a + [' '];
    TrimSpaceSuffix(a, ' ');
  }

  /** A missing first name leaves the stripped last name. */
  lemma FullNameLastOnly(b: string)
    ensures FullName(None, Some(VStr(b))) == Ok(Trim(b))
  {
    assert "" + " " + b == [' '] + b;
    TrimSpacePrefix(' ', b);
  }

  // ---------------------------------------------------------------- status id

  /** Python `int(x)` on a float: truncation toward zero. */
  function Truncate(x: real): (r: int)
    ensures x >= 0.0 ==> r as real <= x < r as real + 1.0
    ensures x < 0.0 ==> r as real - 1.0 < x <= r as real
  {
    if x >= 0.0 then x.Floor else -((-x).Floor)
  }

  /** `lead_status.map(mapping).fillna(0).astype(int)` for one row. A null
      label never matches; an integer id is taken as is, a float id is
      truncated and any other id makes `astype(int)` raise. */
  function LeadStatusId(status: Cell, mapping: map<Cell, Cell>): (r: Result<int, FrameError>)
    ensures status.None? || status !in mapping ==> r == Ok(0)
    ensures status.Some? && status in mapping ==>
      match mapping[status]
      case None => r == Ok(0)
      case Some(VInt(i)) => r == Ok(i)
      case Some(VNum(x)) => r == Ok(Truncate(x))
      case Some(_) => r.Err?
  {
    var mapped: Cell := if status.Some? && status in mapping then mapping[status] else None;
    match mapped
    case None => Ok(0)
    case Some(VInt(i)) => Ok(i)
    case Some(VNum(x)) => Ok(Truncate(x))
    case Some(_) => Err(NotInteger("lead_status_id"))
  }

  // ---------------------------------------------------------------- lead frame

  /** The `full_name` column; the first row that fails makes the whole
      column fail. */
  function FullNames(rows: seq<Doc>): (r: Result<seq<string>, FrameError>)
    ensures r.Ok? <==> forall i :: 0 <= i < |rows| ==> FullName(Get(rows[i], "first_name"), Get(rows[i], "last_name")).Ok?
    ensures r.Ok? ==> |r.value| == |rows|
    ensures r.Ok? ==>
      forall i :: 0 <= i < |rows| ==> r.value[i] == FullName(Get(rows[i], "first_name"), Get(rows[i], "last_name")).value
  {
    if rows == [] then Ok([])
    else
      match FullName(Get(rows[0], "first_name"), Get(rows[0], "last_name"))
      case Err(e) => Err(e)
      case Ok(n) =>
        match FullNames(rows[1..])
        case Err(e) => Err(e)
        case Ok(ns) => Ok([n] + ns)
  }

  /** The `lead_status_id` column. */
  function StatusIds(rows: seq<Doc>, mapping: map<Cell, Cell>): (r: Result<seq<int>, FrameError>)
    ensures r.Ok? <==> forall i :: 0 <= i < |rows| ==> LeadStatusId(Get(rows[i], "lead_status"), mapping).Ok?
    ensures r.Ok? ==> |r.value| == |rows|
    ensures r.Ok? ==>
      forall i :: 0 <= i < |rows| ==> r.value[i] == LeadStatusId(Get(rows[i], "lead_status"), mapping).value
  {
    if rows == [] then Ok([])
    else
      match LeadStatusId(Get(rows[0], "lead_status"), mapping)
      case Err(e) => Err(e)
      case Ok(n) =>
        match StatusIds(rows[1..], mapping)
        case Err(e) => Err(e)
        case Ok(ns) => Ok([n] + ns)
  }

  /** The transform half of `get_leads_dataframe`, given the extracted
      contacts and the status mapping. An empty frame comes back untouched;
      otherwise the wire names are renamed and `full_name` and
      `lead_status_id` are added (the row-level facts are `LeadsFrameRenames`
      and `LeadsFrameDerived`). */
  function LeadsFrame(records: seq<Doc>, mapping: map<Cell, Cell>): (r: Result<Frame, FrameError>)
    ensures IsEmpty(FromRecords(records)) ==> r == Ok(FromRecords(records))
    ensures r.Ok? ==> |r.value.rows| == |records|
    ensures !IsEmpty(FromRecords(records)) && r.Ok? ==>
      && "first_name" in LeadColumns(records) && "last_name" in LeadColumns(records)
      && "lead_status" in LeadColumns(records)
      && r.value.columns == LeadColumns(records) + {"full_name", "lead_status_id"}
    ensures !IsEmpty(FromRecords(records)) ==>
      (r.Ok? <==>
        && "first_name" in LeadColumns(records) && "last_name" in LeadColumns(records)
        && "lead_status" in LeadColumns(records)
        && FullNames(LeadRows(records)).Ok? && StatusIds(LeadRows(records), mapping).Ok?)
  {
    var f := FromRecords(records);
    if IsEmpty(f) then Ok(f)
    else
      RenameTablesInjective();
      AddLeadColumnsChecked(Rename(f, LeadRenames), mapping)
  }

  /** The columns of the renamed contact frame. */
  function LeadColumns(records: seq<Doc>): set<string> {
    RenameTablesInjective();
    Rename(FromRecords(records), LeadRenames).columns
  }

  /** The rows of the renamed contact frame. */
  function LeadRows(records: seq<Doc>): seq<Doc> {
    RenameTablesInjective();
    Rename(FromRecords(records), LeadRenames).rows
  }

  /** The wire names are gone from the renamed contact frame. */
  lemma LeadColumnsRenamed(records: seq<Doc>)
    ensures "firstname" !in LeadColumns(records) && "lastname" !in LeadColumns(records)
    ensures "hs_lead_status" !in LeadColumns(records)
    ensures "firstname" in ColumnsOf(records) ==> "first_name" in LeadColumns(records)
    ensures "lastname" in ColumnsOf(records) ==> "last_name" in LeadColumns(records)
    ensures "hs_lead_status" in ColumnsOf(records) ==> "lead_status" in LeadColumns(records)
  {
    RenameTablesInjective();
    RenameTablesDisjoint();
  }

  /** Every cell of a name column is null or text, so `fillna('')` and
      the concatenation accept it. */
  predicate NamesText(rows: seq<Doc>, column: string) {
    forall i :: 0 <= i < |rows| ==> NamePart(Get(rows[i], column), column).Ok?
  }

  /** The full names exist exactly when both name columns are text. */
  lemma {:induction false} FullNamesText(rows: seq<Doc>)
    ensures FullNames(rows).Ok? <==> NamesText(rows, "first_name") && NamesText(rows, "last_name")
  {
    if FullNames(rows).Ok? {
      forall i | 0 <= i < |rows|
        ensures NamePart(Get(rows[i], "first_name"), "first_name").Ok?
        ensures NamePart(Get(rows[i], "last_name"), "last_name").Ok?
      {
        assert FullName(Get(rows[i], "first_name"), Get(rows[i], "last_name")).Ok?;
      }
    }
  }

  /** The renamed frame's checks and new columns, in the order pandas
      evaluates `first.fillna('') + ' ' + last.fillna('')`: the first-name
      column must exist and hold text before the last-name column is
      looked up; then the status column must exist and every status id
      must convert. */
  function AddLeadColumnsChecked(g: Frame, mapping: map<Cell, Cell>): (r: Result<Frame, FrameError>)
    ensures r.Ok? <==>
      && "first_name" in g.columns && "last_name" in g.columns && "lead_status" in g.columns
      && FullNames(g.rows).Ok? && StatusIds(g.rows, mapping).Ok?
    ensures r.Ok? ==> r.value == AddLeadColumns(g, FullNames(g.rows).value, StatusIds(g.rows, mapping).value)
    ensures "first_name" !in g.columns ==> r == Err(MissingColumn("first_name"))
    ensures "first_name" in g.columns && !NamesText(g.rows, "first_name") ==> r == Err(NotText("first_name"))
    ensures "first_name" in g.columns && NamesText(g.rows, "first_name") && "last_name" !in g.columns ==>
      r == Err(MissingColumn("last_name"))
    ensures "first_name" in g.columns && NamesText(g.rows, "first_name") && "last_name" in g.columns ==>
      (!NamesText(g.rows, "last_name") ==> r == Err(NotText("last_name")))
    ensures "first_name" in g.columns && "last_name" in g.columns && FullNames(g.rows).Ok? && "lead_status" !in g.columns ==>
      r == Err(MissingColumn("lead_status"))
  {
    FullNamesText(g.rows);
    if "first_name" !in g.columns then Err(MissingColumn("first_name"))
    else if !NamesText(g.rows, "first_name") then Err(NotText("first_name"))
    else if "last_name" !in g.columns then Err(MissingColumn("last_name"))
    else if !NamesText(g.rows, "last_name") then Err(NotText("last_name"))
    else
      var names := FullNames(g.rows).value;
      if "lead_status" !in g.columns then Err(MissingColumn("lead_status"))
      else
        match StatusIds(g.rows, mapping)
        case Err(e) => Err(e)
        case Ok(ids) => Ok(AddLeadColumns(g, names, ids))
  }

  /** `df['full_name'] = ...; df['lead_status_id'] = ...`. */
  function AddLeadColumns(g: Frame, names: seq<string>, ids: seq<int>): (h: Frame)
    requires |names| == |g.rows| == |ids|
    ensures h.columns == g.columns + {"full_name", "lead_status_id"}
    ensures |h.rows| == |g.rows|
    ensures forall i :: 0 <= i < |g.rows| ==>
      h.rows[i] == g.rows[i]["full_name" := Some(VStr(names[i]))]["lead_status_id" := Some(VInt(ids[i]))]
  {
    Table(g.columns + {"full_name", "lead_status_id"},
      seq(|g.rows|, i requires 0 <= i < |g.rows| =>
        g.rows[i]["full_name" := Some(VStr(names[i]))]["lead_status_id" := Some(VInt(ids[i]))]))
  }

  /** The concrete entries of both rename tables. */
  lemma RenameLookups()
    ensures "firstname" in LeadRenames && LeadRenames["firstname"] == "first_name"
    ensures "lastname" in LeadRenames && LeadRenames["lastname"] == "last_name"
    ensures "hs_lead_status" in LeadRenames && LeadRenames["hs_lead_status"] == "lead_status"
    ensures "id" !in LeadRenames && "email" !in LeadRenames
    ensures "dealstage" in DealRenames && DealRenames["dealstage"] == "deal_stage"
    ensures "dealname" in DealRenames && DealRenames["dealname"] == "deal_name"
    ensures "dealtype" in DealRenames && DealRenames["dealtype"] == "deal_type"
    ensures "closedate" in DealRenames && DealRenames["closedate"] == "close_date"
    ensures "createdate" in DealRenames && DealRenames["createdate"] == "create_date"
    ensures "id" !in DealRenames && "amount" !in DealRenames
  {
  }

  /** One contact row through the rename. */
  lemma LeadRowRenamed(src: Doc)
    requires Injective(LeadRenames)
    ensures var mid := RenameRow(src, LeadRenames);
      && Get(mid, "id") == Get(src, "id")
      && Get(mid, "email") == Get(src, "email")
      && ("firstname" in src ==> Get(mid, "first_name") == Get(src, "firstname"))
      && ("lastname" in src ==> Get(mid, "last_name") == Get(src, "lastname"))
      && ("hs_lead_status" in src ==> Get(mid, "lead_status") == Get(src, "hs_lead_status"))
  {
    RenameLookups();
    RenameTablesDisjoint();
  }

  /** Row by row, a normalised lead keeps `id` and `email` and carries the
      wire names under their new names. */
  lemma LeadsFrameRenames(records: seq<Doc>, mapping: map<Cell, Cell>, i: int)
    requires !IsEmpty(FromRecords(records)) && LeadsFrame(records, mapping).Ok?
    requires 0 <= i < |records|
    ensures var row := LeadsFrame(records, mapping).value.rows[i];
      && Get(row, "id") == Get(records[i], "id")
      && Get(row, "email") == Get(records[i], "email")
      && ("firstname" in records[i] ==> Get(row, "first_name") == Get(records[i], "firstname"))
      && ("lastname" in records[i] ==> Get(row, "last_name") == Get(records[i], "lastname"))
      && ("hs_lead_status" in records[i] ==> Get(row, "lead_status") == Get(records[i], "hs_lead_status"))
  {
    RenameTablesInjective();
    var f := FromRecords(records);
    var g := Rename(f, LeadRenames);
    var names := FullNames(g.rows).value;
    var ids := StatusIds(g.rows, mapping).value;
    var src := f.rows[i];
    LeadsFrameRowAt(records, mapping, i);
    assert g.rows[i] == RenameRow(src, LeadRenames);
    assert records[i].Keys <= src.Keys;
    LeadRowKeeps(records[i], src, Some(VStr(names[i])), Some(VInt(ids[i])));
  }

  /** One record through `FromRecords`, the rename and the two added
      columns. */
  lemma LeadRowKeeps(rec: Doc, src: Doc, name: Cell, id: Cell)
    requires Injective(LeadRenames)
    requires rec.Keys <= src.Keys && forall k :: Get(src, k) == Get(rec, k)
    ensures var row := RenameRow(src, LeadRenames)["full_name" := name]["lead_status_id" := id];
      && Get(row, "id") == Get(rec, "id")
      && Get(row, "email") == Get(rec, "email")
      && ("firstname" in rec ==> Get(row, "first_name") == Get(rec, "firstname"))
      && ("lastname" in rec ==> Get(row, "last_name") == Get(rec, "lastname"))
      && ("hs_lead_status" in rec ==> Get(row, "lead_status") == Get(rec, "hs_lead_status"))
  {
    LeadRowRenamed(src);
    AddedColumnsKeep(RenameRow(src, LeadRenames), name, id);
  }

  /** Row by row, a normalised lead carries the `full_name` and
      `lead_status_id` computed from its own renamed fields. */
  lemma LeadsFrameDerived(records: seq<Doc>, mapping: map<Cell, Cell>, i: int)
    requires !IsEmpty(FromRecords(records)) && LeadsFrame(records, mapping).Ok?
    requires 0 <= i < |records|
    ensures var row := LeadsFrame(records, mapping).value.rows[i];
      && FullName(Get(row, "first_name"), Get(row, "last_name")).Ok?
      && LeadStatusId(Get(row, "lead_status"), mapping).Ok?
      && Get(row, "full_name") == Some(VStr(FullName(Get(row, "first_name"), Get(row, "last_name")).value))
      && Get(row, "lead_status_id") == Some(VInt(LeadStatusId(Get(row, "lead_status"), mapping).value))
  {
    RenameTablesInjective();
    var g := Rename(FromRecords(records), LeadRenames);
    var names := FullNames(g.rows).value;
    var ids := StatusIds(g.rows, mapping).value;
    var mid := g.rows[i];
    LeadsFrameRowAt(records, mapping, i);
    AddedColumnsKeep(mid, Some(VStr(names[i])), Some(VInt(ids[i])));
    assert names[i] == FullName(Get(mid, "first_name"), Get(mid, "last_name")).value;
    assert ids[i] == LeadStatusId(Get(mid, "lead_status"), mapping).value;
  }

  /** A null or text cell, which `fillna('')` turns into text. */
  predicate TextOrNull(c: Cell) {
    c.None? || c.value.VStr?
  }

  /** Every status id in the mapping is null or a number, so
      `astype(int)` accepts it. */
  predicate NumericIds(mapping: map<Cell, Cell>) {
    forall c :: c in mapping ==> mapping[c].None? || mapping[c].value.VInt? || mapping[c].value.VNum?
  }

  /** Every record's name cells are null or text. */
  predicate NameCellsText(records: seq<Doc>) {
    forall i :: 0 <= i < |records| ==>
      TextOrNull(Get(records[i], "firstname")) && TextOrNull(Get(records[i], "lastname"))
  }

  /** An extract that names both name columns and the status column, whose
      name cells are null or text, normalises under a mapping whose ids are
      numbers. */
  lemma LeadsFrameOk(records: seq<Doc>, mapping: map<Cell, Cell>)
    requires records != []
    requires "firstname" in ColumnsOf(records) && "lastname" in ColumnsOf(records)
    requires "hs_lead_status" in ColumnsOf(records)
    requires NameCellsText(records)
    requires NumericIds(mapping)
    ensures !IsEmpty(FromRecords(records))
    ensures LeadsFrame(records, mapping).Ok?
  {
    LeadColumnsRenamed(records);
    LeadRowsText(records);
    FullNamesText(LeadRows(records));
    NumericStatusIds(LeadRows(records), mapping);
  }

  /** The renamed name columns hold the records' own name cells. */
  lemma LeadRowsText(records: seq<Doc>)
    requires "firstname" in ColumnsOf(records) && "lastname" in ColumnsOf(records)
    requires NameCellsText(records)
    ensures NamesText(LeadRows(records), "first_name") && NamesText(LeadRows(records), "last_name")
  {
    RenameTablesInjective();
    var f := FromRecords(records);
    var rows := LeadRows(records);
    forall i | 0 <= i < |rows|
      ensures NamePart(Get(rows[i], "first_name"), "first_name").Ok?
      ensures NamePart(Get(rows[i], "last_name"), "last_name").Ok?
    {
      assert f.rows[i].Keys == f.columns;
      LeadRowText(f.rows[i], records[i]);
    }
  }

  /** Under a numeric mapping every status id converts. */
  lemma NumericStatusIds(rows: seq<Doc>, mapping: map<Cell, Cell>)
    requires NumericIds(mapping)
    ensures StatusIds(rows, mapping).Ok?
  {
    forall i | 0 <= i < |rows|
      ensures LeadStatusId(Get(rows[i], "lead_status"), mapping).Ok?
    {
      NumericStatusId(Get(rows[i], "lead_status"), mapping);
    }
  }

  /** A status id drawn from a numeric mapping always converts. */
  lemma NumericStatusId(status: Cell, mapping: map<Cell, Cell>)
    requires NumericIds(mapping)
    ensures LeadStatusId(status, mapping).Ok?
  {
    if status.Some? && status in mapping {
      assert mapping[status].None? || mapping[status].value.VInt? || mapping[status].value.VNum?;
    }
  }

  /** One contact row: its renamed name cells are the record's own. */
  lemma LeadRowText(src: Doc, rec: Doc)
    requires Injective(LeadRenames)
    requires "firstname" in src && "lastname" in src
    requires Get(src, "firstname") == Get(rec, "firstname") && Get(src, "lastname") == Get(rec, "lastname")
    requires TextOrNull(Get(rec, "firstname")) && TextOrNull(Get(rec, "lastname"))
    ensures NamePart(Get(RenameRow(src, LeadRenames), "first_name"), "first_name").Ok?
    ensures NamePart(Get(RenameRow(src, LeadRenames), "last_name"), "last_name").Ok?
  {
    LeadRowRenamed(src);
  }

  /** Row `i` of the normalised leads is row `i` of the renamed frame with
      its full name and status id added. */
  lemma LeadsFrameRowAt(records: seq<Doc>, mapping: map<Cell, Cell>, i: int)
    requires !IsEmpty(FromRecords(records)) && LeadsFrame(records, mapping).Ok? && Injective(LeadRenames)
    requires 0 <= i < |records|
    ensures var g := Rename(FromRecords(records), LeadRenames);
      && FullNames(g.rows).Ok? && StatusIds(g.rows, mapping).Ok?
      && LeadsFrame(records, mapping).value.rows[i]
         == g.rows[i]["full_name" := Some(VStr(FullNames(g.rows).value[i]))]["lead_status_id" := Some(VInt(StatusIds(g.rows, mapping).value[i]))]
  {
  }

  /** Adding the two derived columns leaves the inputs they read alone. */
  lemma AddedColumnsKeep(mid: Doc, name: Cell, id: Cell)
    ensures var row := mid["full_name" := name]["lead_status_id" := id];
      && Get(row, "id") == Get(mid, "id") && Get(row, "email") == Get(mid, "email")
      && Get(row, "first_name") == Get(mid, "first_name")
      && Get(row, "last_name") == Get(mid, "last_name")
      && Get(row, "lead_status") == Get(mid, "lead_status")
      && Get(row, "full_name") == name && Get(row, "lead_status_id") == id
  {
  }

  // ---------------------------------------------------------------- deal frame

  /** `pd.to_datetime(value, errors='coerce')` for one cell: text goes
      through the date parser, a date stays, anything else becomes NaT. */
  function ToDatetime(c: Cell, parseDate: string -> Option<Date>): (r: Cell)
    ensures r.None? || r.value.VDate?
    ensures c.None? ==> r.None?
    ensures c.Some? && c.value.VStr? ==>
      (parseDate(c.value.s).None? ==> r.None?) && (parseDate(c.value.s).Some? ==> r == Some(VDate(parseDate(c.value.s).value)))
    ensures c.Some? && c.value.VDate? ==> r == c
  {
    match c
    case Some(VStr(s)) => (match parseDate(s) case Some(d) => Some(VDate(d)) case None => None)
    case Some(VDate(d)) => Some(VDate(d))
    case _ => None
  }

  /** The two date columns of one row parsed, each only when the frame has
      that column. */
  function ParseDates(r: Doc, parseDate: string -> Option<Date>): (r': Doc)
    ensures r'.Keys == r.Keys
  {
    var r1 := if "close_date" in r then r["close_date" := ToDatetime(r["close_date"], parseDate)] else r;
    if "create_date" in r1 then r1["create_date" := ToDatetime(r1["create_date"], parseDate)] else r1
  }

  /** Parsing the dates of one row touches only the two date fields. */
  lemma ParseDatesKeep(r: Doc, parseDate: string -> Option<Date>)
    ensures var r' := ParseDates(r, parseDate);
      && Get(r', "id") == Get(r, "id") && Get(r', "amount") == Get(r, "amount")
      && Get(r', "deal_stage") == Get(r, "deal_stage") && Get(r', "deal_name") == Get(r, "deal_name")
      && Get(r', "deal_type") == Get(r, "deal_type")
      && ("close_date" in r ==> Get(r', "close_date") == ToDatetime(r["close_date"], parseDate))
      && ("create_date" in r ==> Get(r', "create_date") == ToDatetime(r["create_date"], parseDate))
  {
  }

  /** The transform half of `get_deals_dataframe`: renames, then the two
      date columns parsed when present. It never fails (row-level facts are
      `DealsFrameRows`). */
  function DealsFrame(records: seq<Doc>, parseDate: string -> Option<Date>): (f: Frame)
    ensures |f.rows| == |records|
    ensures IsEmpty(FromRecords(records)) ==> f == FromRecords(records)
    ensures !IsEmpty(FromRecords(records)) ==>
      && "dealtype" !in f.columns && "dealstage" !in f.columns && "dealname" !in f.columns
      && "closedate" !in f.columns && "createdate" !in f.columns
  {
    var f0 := FromRecords(records);
    if IsEmpty(f0) then f0
    else
      RenameTablesInjective();
      RenameTablesDisjoint();
      var g := Rename(f0, DealRenames);
      Table(g.columns, ParseAllDates(g.rows, parseDate))
  }

  /** `pd.to_datetime` on the date columns of every row. */
  function ParseAllDates(rows: seq<Doc>, parseDate: string -> Option<Date>): (r: seq<Doc>)
    ensures |r| == |rows|
    ensures forall i :: 0 <= i < |rows| ==> r[i] == ParseDates(rows[i], parseDate)
  {
    seq(|rows|, i requires 0 <= i < |rows| => ParseDates(rows[i], parseDate))
  }

  /** One deal row through the rename. */
  lemma DealRowRenamed(src: Doc)
    requires Injective(DealRenames)
    ensures var mid := RenameRow(src, DealRenames);
      && Get(mid, "id") == Get(src, "id")
      && Get(mid, "amount") == Get(src, "amount")
      && ("dealstage" in src ==> Get(mid, "deal_stage") == Get(src, "dealstage"))
      && ("dealname" in src ==> Get(mid, "deal_name") == Get(src, "dealname"))
      && ("dealtype" in src ==> Get(mid, "deal_type") == Get(src, "dealtype"))
      && ("closedate" in src ==> "close_date" in mid && mid["close_date"] == src["closedate"])
      && ("createdate" in src ==> "create_date" in mid && mid["create_date"] == src["createdate"])
  {
    RenameLookups();
    RenameTablesDisjoint();
  }

  /** Row by row, a normalised deal keeps `id` and `amount`, carries the
      wire names under their new names and holds parsed dates. */
  lemma DealsFrameRows(records: seq<Doc>, parseDate: string -> Option<Date>, i: int)
    requires !IsEmpty(FromRecords(records))
    requires 0 <= i < |records|
    ensures var row := DealsFrame(records, parseDate).rows[i];
      && Get(row, "id") == Get(records[i], "id")
      && Get(row, "amount") == Get(records[i], "amount")
      && ("dealstage" in records[i] ==> Get(row, "deal_stage") == Get(records[i], "dealstage"))
      && ("dealname" in records[i] ==> Get(row, "deal_name") == Get(records[i], "dealname"))
      && ("dealtype" in records[i] ==> Get(row, "deal_type") == Get(records[i], "dealtype"))
      && ("closedate" in records[i] ==> Get(row, "close_date") == ToDatetime(Get(records[i], "closedate"), parseDate))
      && ("createdate" in records[i] ==> Get(row, "create_date") == ToDatetime(Get(records[i], "createdate"), parseDate))
  {
    RenameTablesInjective();
    var f0 := FromRecords(records);
    var g := Rename(f0, DealRenames);
    var src := f0.rows[i];
    var mid := g.rows[i];
    DealsFrameRowAt(records, parseDate, i);
    assert mid == RenameRow(src, DealRenames);
    DealRowRenamed(src);
    ParseDatesKeep(mid, parseDate);
    assert records[i].Keys <= src.Keys;
    assert forall k :: Get(src, k) == Get(records[i], k);
  }

  /** Row `i` of the normalised deals is row `i` of the renamed frame with
      its dates parsed. */
  lemma DealsFrameRowAt(records: seq<Doc>, parseDate: string -> Option<Date>, i: int)
    requires !IsEmpty(FromRecords(records)) && Injective(DealRenames)
    requires 0 <= i < |records|
    ensures DealsFrame(records, parseDate).rows[i] == ParseDates(Rename(FromRecords(records), DealRenames).rows[i], parseDate)
  {
    RenameTablesDisjoint();
  }

  // ---------------------------------------------------------------- amount

  /** `float(amount)` with the `ValueError`/`TypeError` fallback to null
      used before deals are stored: null stays null, numbers become floats,
      text goes through the number parser, a date cannot be converted. */
  function CoerceAmount(c: Cell, parseNumber: string -> Option<real>): (r: Cell)
    ensures r.None? || r.value.VNum?
    ensures c.None? ==> r.None?
    ensures c.Some? && c.value.VStr? ==>
      (parseNumber(c.value.s).None? ==> r.None?) && (parseNumber(c.value.s).Some? ==> r == Some(VNum(parseNumber(c.value.s).value)))
    ensures c.Some? && c.value.VNum? ==> r == c
    ensures c.Some? && c.value.VInt? ==> r == Some(VNum(c.value.i as real))
    ensures c.Some? && c.value.VDate? ==> r.None?
  {
    match c
    case None => None
    case Some(VNum(x)) => Some(VNum(x))
    case Some(VInt(i)) => Some(VNum(i as real))
    case Some(VStr(s)) => (match parseNumber(s) case Some(x) => Some(VNum(x)) case None => None)
    case Some(VDate(_)) => None
  }

  /** Coercing twice is the same as coercing once. */
  lemma CoerceAmountIdempotent(c: Cell, parseNumber: string -> Option<real>)
    ensures CoerceAmount(CoerceAmount(c, parseNumber), parseNumber) == CoerceAmount(c, parseNumber)
  {
  }
}

=== FILE: order.dfy ===
/** MongoDB's ascending sort order on the values the close summary sorts
    by: null before numbers, numbers before strings, strings before dates;
    numbers by value, strings by code point, dates by calendar order. */
module Order {
  import opened Wrappers
  import opened Values

  /** Lexicographic code-point order on strings. */
  predicate StrLess(a: string, b: string)
    decreases |a|
  {
    b != [] && (a == [] || a[0] < b[0] || (a[0] == b[0] && StrLess(a[1..], b[1..])))
  }

  lemma {:induction false} StrLessIrreflexive(a: string)
    ensures !StrLess(a, a)
    decreases |a|
  {
    if a != [] {
      StrLessIrreflexive(a[1..]);
    }
  }

  lemma {:induction false} StrLessTransitive(a: string, b: string, c: string)
    requires StrLess(a, b) && StrLess(b, c)
    ensures StrLess(a, c)
    decreases |a|
  {
    if a != [] && a[0] == b[0] && b[0] == c[0] {
      StrLessTransitive(a[1..], b[1..], c[1..]);
    }
  }

  lemma {:induction false} StrLessTotal(a: string, b: string)
    requires a != b
    ensures StrLess(a, b) || StrLess(b, a)
    decreases |a|
  {
    if a != [] && b != [] && a[0] == b[0] {
      StrLessTotal(a[1..], b[1..]);
    }
  }

  predicate DateLess(x: Date, y: Date) {
    x.year < y.year
    || (x.year == y.year && (x.month < y.month || (x.month == y.month && x.day < y.day)))
  }

  /** The kind of a cell in sort order. */
  function Rank(c: Cell): nat {
    match c
    case None => 0
    case Some(VInt(_)) => 1
    case Some(VNum(_)) => 1
    case Some(VStr(_)) => 2
    case Some(VDate(_)) => 3
  }

  /** The numeric value of a number; 0 for anything else. */
  function AsReal(v: Value): real {
    match v
    case VInt(i) => i as real
    case VNum(x) => x
    case _ => 0.0
  }

  /** Strict order on cells. An integer and a float of the same value
      compare equal in MongoDB; here the integer goes first so that the
      order is total. */
  predicate CellLess(a: Cell, b: Cell) {
    Rank(a) < Rank(b)
    || (Rank(a) == Rank(b) && a.Some? && b.Some? &&
      match (a.value, b.value)
      case (VStr(s), VStr(t)) => StrLess(s, t)
      case (VDate(x), VDate(y)) => DateLess(x, y)
      case (x, y) =>
        AsReal(x) < AsReal(y) || (AsReal(x) == AsReal(y) && x.VInt? && y.VNum?))
  }

  lemma CellLessIrreflexive(a: Cell)
    ensures !CellLess(a, a)
  {
    if a.Some? && a.value.VStr? {
      StrLessIrreflexive(a.value.s);
    }
  }

  lemma CellLessTransitive(a: Cell, b: Cell, c: Cell)
    requires CellLess(a, b) && CellLess(b, c)
    ensures CellLess(a, c)
  {
    if a.Some? && b.Some? && c.Some? && a.value.VStr? && b.value.VStr? && c.value.VStr? {
      StrLessTransitive(a.value.s, b.value.s, c.value.s);
    }
  }

  lemma CellLessTotal(a: Cell, b: Cell)
    requires a != b
    ensures CellLess(a, b) || CellLess(b, a)
  {
    if a.Some? && b.Some? && a.value.VStr? && b.value.VStr? {
      StrLessTotal(a.value.s, b.value.s);
    } else if a.Some? && b.Some? && a.value.VInt? && b.value.VInt? {
      assert a.value.i != b.value.i;
    }
  }

  /** `$year`/`$month` results: null before any number. */
  predicate OptLess(a: Option<int>, b: Option<int>) {
    (a.None? && b.Some?) || (a.Some? && b.Some? && a.value < b.value)
  }

  /** The close summary's group key `{year, month, deal_stage}`. */
  datatype CloseKey = CloseKey(year: Option<int>, month: Option<int>, stage: Cell)

  /** `{"_id.year": 1, "_id.month": 1, "_id.deal_stage": 1}`. */
  predicate KeyLess(k: CloseKey, l: CloseKey) {
    OptLess(k.year, l.year)
    || (k.year == l.year && (OptLess(k.month, l.month) || (k.month == l.month && CellLess(k.stage, l.stage))))
  }

  lemma KeyLessIrreflexive(k: CloseKey)
    ensures !KeyLess(k, k)
  {
    CellLessIrreflexive(k.stage);
  }

  lemma KeyLessTransitive(k: CloseKey, l: CloseKey, m: CloseKey)
    requires KeyLess(k, l) && KeyLess(l, m)
    ensures KeyLess(k, m)
  {
    if k.year == l.year == m.year && k.month == l.month == m.month {
      CellLessTransitive(k.stage, l.stage, m.stage);
    }
  }

  lemma KeyLessTotal(k: CloseKey, l: CloseKey)
    requires k != l
    ensures KeyLess(k, l) || KeyLess(l, k)
  {
    if k.year == l.year && k.month == l.month {
      CellLessTotal(k.stage, l.stage);
    }
  }
}

=== FILE: properties.dfy ===
/** The property dictionaries `create_contact`, `create_company` and
    `create_deal` submit, and the creation calls themselves. */
module Properties {
  import opened Wrappers
  import opened Text
  import opened JsonInput
  import opened Crm

  /** `k` is submitted with value `v` exactly when `v` is truthy. */
  predicate Carries(p: Props, k: string, v: Json) {
    (k in p <==> Truthy(v)) && (k in p ==> p[k] == v)
  }

  /** No submitted property is empty, zero, false or None. */
  predicate AllTruthy(p: Props) {
    forall k :: k in p ==> Truthy(p[k])
  }

  /** `{k: v for k, v in p.items() if v}`. */
  function DropFalsy(p: Props): (q: Props)
    ensures AllTruthy(q)
    ensures forall k :: k in p ==> (k in q <==> Truthy(p[k]))
    ensures forall k :: k in q ==> k in p && q[k] == p[k]
  {
    map k | k in p && Truthy(p[k]) :: p[k]
  }

  /** The arguments of `create_contact`. */
  datatype ContactArgs = ContactArgs(
    email: Json, firstName: Json, lastName: Json, phone: Json,
    company: Json, jobTitle: Json, isLead: bool, leadStatus: Json)

  const ContactKeys: set<string> :=
    {"email", "firstname", "lastname", "phone", "company", "jobtitle", "lifecyclestage", "hs_lead_status"}

  /** The contact's properties: the six fields, plus the lifecycle stage
      and lead status for a lead, with falsy values dropped. */
  function ContactProps(a: ContactArgs): (p: Props)
    ensures AllTruthy(p)
    ensures p.Keys <= ContactKeys
    ensures Carries(p, "email", a.email) && Carries(p, "firstname", a.firstName)
    ensures Carries(p, "lastname", a.lastName) && Carries(p, "phone", a.phone)
    ensures Carries(p, "company", a.company) && Carries(p, "jobtitle", a.jobTitle)
    ensures "lifecyclestage" in p <==> a.isLead
    ensures a.isLead ==> p["lifecyclestage"] == JStr("lead")
    ensures a.isLead ==> Carries(p, "hs_lead_status", a.leadStatus)
    ensures !a.isLead ==> "hs_lead_status" !in p
  {
    var base := map[
      "email" := a.email, "firstname" := a.firstName, "lastname" := a.lastName,
      "phone" := a.phone, "company" := a.company, "jobtitle" := a.jobTitle];
    var full := if a.isLead then base["lifecyclestage" := JStr("lead")]["hs_lead_status" := a.leadStatus] else base;
    DropFalsy(full)
  }

  /** `create_contact`: one contact creation, answered by the next
      outcome; it submits no falsy value, the email exactly when truthy,
      and the lifecycle stage `lead` and the lead status only for a lead.
      A raised exception is logged and turns into None, so the caller
      never sees it. */
  function CreateContact(log: Log, oracle: Oracle, a: ContactArgs): (c: Call)
    ensures c.request.Create? && c.request.kind == Contact
    ensures c.request.props.Keys <= ContactKeys && AllTruthy(c.request.props)
    ensures Carries(c.request.props, "email", a.email)
    ensures "lifecyclestage" in c.request.props <==> a.isLead
    ensures a.isLead ==> c.request.props["lifecyclestage"] == JStr("lead")
    ensures a.isLead ==> Carries(c.request.props, "hs_lead_status", a.leadStatus)
    ensures !a.isLead ==> "hs_lead_status" !in c.request.props
    ensures c.request == Create(Contact, ContactProps(a))
    ensures c.outcome == oracle(|log|)
  {
    Send(log, oracle, Create(Contact, ContactProps(a)))
  }

  /** The id `create_contact` returns: None when the call raised. */
  function ContactId(c: Call): (id: Option<string>)
    ensures id.Some? <==> c.outcome.Returned?
    ensures id.Some? ==> id.value == c.outcome.id
  {
    if c.outcome.Returned? then Some(c.outcome.id) else None
  }

  /** The company's properties: `name` always, `domain`, `phone` and `city`
      only when truthy, then the keyword arguments on top. */
  function CompanyProps(name: Json, domain: Json, phone: Json, city: Json, extra: Props): (p: Props)
    ensures "name" in p
    ensures "name" !in extra ==> p["name"] == name
    ensures "domain" !in extra ==> Carries(p, "domain", domain)
    ensures "phone" !in extra ==> Carries(p, "phone", phone)
    ensures "city" !in extra ==> Carries(p, "city", city)
    ensures forall k :: k in extra ==> k in p && p[k] == extra[k]
    ensures p.Keys <= {"name", "domain", "phone", "city"} + extra.Keys
  {
    var p0 := map["name" := name];
    var p1 := if Truthy(domain) then p0["domain" := domain] else p0;
    var p2 := if Truthy(phone) then p1["phone" := phone] else p1;
    var p3 := if Truthy(city) then p2["city" := city] else p2;
    p3 + extra
  }

  /** The deal's properties: `dealname` and `dealstage` always, `amount`
      as `str(amount)` only when truthy, then the keyword arguments on
      top. */
  function DealProps(name: Json, amount: Json, stage: Json, extra: Props, render: Json -> string): (p: Props)
    ensures "dealname" in p && "dealstage" in p
    ensures "dealname" !in extra ==> p["dealname"] == name
    ensures "dealstage" !in extra ==> p["dealstage"] == stage
    ensures "amount" !in extra ==> ("amount" in p <==> Truthy(amount))
    ensures "amount" !in extra && "amount" in p ==> p["amount"] == JStr(PyStr(amount, render))
    ensures forall k :: k in extra ==> k in p && p[k] == extra[k]
    ensures p.Keys <= {"dealname", "dealstage", "amount"} + extra.Keys
  {
    var p0 := map["dealname" := name, "dealstage" := stage];
    var p1 := if Truthy(amount) then p0["amount" := JStr(PyStr(amount, render))] else p0;
    p1 + extra
  }

  /** An integer amount is submitted as text that reads back as the same
      integer. */
  lemma DealAmountReadsBack(name: Json, i: int, stage: Json, extra: Props, render: Json -> string)
    requires i != 0 && "amount" !in extra
    ensures var p := DealProps(name, JInt(i), stage, extra, render);
      && "amount" in p && p["amount"].JStr?
      && var s := p["amount"].s;
        |s| >= 1 && (s[0] == '-' ==> IsDigits(s[1..])) && (s[0] != '-' ==> IsDigits(s))
        && ParseDecimal(s) == i
  {
    IntToDecimalRoundTrip(i);
  }

  /** The arguments of `create_company`: the four named fields and the
      keyword arguments. */
  datatype CompanyArgs = CompanyArgs(name: Json, domain: Json, phone: Json, city: Json, extra: Props)

  /** The company creation for `a`. */
  function CompanyRequest(a: CompanyArgs): Request {
    Create(Company, CompanyProps(a.name, a.domain, a.phone, a.city, a.extra))
  }

  /** `create_company`: one creation call whose exception propagates. It
      always submits a name, the domain, phone and city only when truthy,
      and the keyword arguments over them. */
  function CreateCompany(log: Log, oracle: Oracle, a: CompanyArgs): (c: Call)
    ensures c.request.Create? && c.request.kind == Company
    ensures "name" in c.request.props
    ensures "name" !in a.extra ==> c.request.props["name"] == a.name
    ensures "domain" !in a.extra ==> Carries(c.request.props, "domain", a.domain)
    ensures "phone" !in a.extra ==> Carries(c.request.props, "phone", a.phone)
    ensures "city" !in a.extra ==> Carries(c.request.props, "city", a.city)
    ensures forall k :: k in a.extra ==> k in c.request.props && c.request.props[k] == a.extra[k]
    ensures c.request == CompanyRequest(a)
    ensures c.outcome == oracle(|log|)
  {
    Send(log, oracle, CompanyRequest(a))
  }

  /** `create_deal`: one creation call whose exception propagates. It
      always submits a name and a stage, the amount as `str(amount)` only
      when truthy, and the keyword arguments over them. The contact and
      company association helpers only log, so they make no call. */
  function CreateDeal(log: Log, oracle: Oracle, name: Json, amount: Json, stage: Json, extra: Props,
                      render: Json -> string): (c: Call)
    ensures c.request.Create? && c.request.kind == Deal
    ensures "dealname" in c.request.props && "dealstage" in c.request.props
    ensures "dealname" !in extra ==> c.request.props["dealname"] == name
    ensures "dealstage" !in extra ==> c.request.props["dealstage"] == stage
    ensures "amount" !in extra ==> ("amount" in c.request.props <==> Truthy(amount))
    ensures "amount" !in extra && "amount" in c.request.props ==>
      c.request.props["amount"] == JStr(PyStr(amount, render))
    ensures forall k :: k in extra ==> k in c.request.props && c.request.props[k] == extra[k]
    ensures c.request == Create(Deal, DealProps(name, amount, stage, extra, render))
    ensures c.outcome == oracle(|log|)
  {
    Send(log, oracle, Create(Deal, DealProps(name, amount, stage, extra, render)))
  }
}

=== FILE: rollup.dfy ===
/** The three summary aggregations (`$group` then `$project`, and `$sort`
    for the close summary) and the keyed upserts that store their rows. */
module Rollup {
  import opened Wrappers
  import opened Values
  import opened Order
  import opened DocStore

  // ---------------------------------------------------------------- grouping

  /** One `$group` bucket: its key and its documents in scan order. */
  datatype Group<K> = Group(key: K, members: seq<Doc>)

  /** Reference definition: the documents with key `k`, in scan order. */
  function Members<K(==)>(docs: seq<Doc>, keyOf: Doc -> K, k: K): seq<Doc>
    decreases |docs|
  {
    if docs == [] then []
    else
      Members(docs[..|docs| - 1], keyOf, k) + (if keyOf(docs[|docs| - 1]) == k then [docs[|docs| - 1]] else [])
  }

  /** The number of grouped documents. */
  function Total<K>(gs: seq<Group<K>>): nat {
    if gs == [] then 0 else |gs[0].members| + Total(gs[1..])
  }

  /** Where a key's bucket is. */
  function Find<K(==)>(gs: seq<Group<K>>, k: K): (r: Option<nat>)
    ensures r.Some? ==> r.value < |gs| && gs[r.value].key == k
    ensures r.None? ==> forall i :: 0 <= i < |gs| ==> gs[i].key != k
  {
    if gs == [] then None
    else if gs[0].key == k then Some(0)
    else match Find(gs[1..], k) case None => None case Some(i) => Some(i + 1)
  }

  /** Growing one bucket by one document grows the total by one. */
  lemma {:induction false} TotalGrow<K>(gs: seq<Group<K>>, i: nat, d: Doc)
    requires i < |gs|
    ensures Total(gs[i := Group(gs[i].key, gs[i].members + [d])]) == Total(gs) + 1
    decreases |gs|
  {
    if i > 0 {
      assert gs[i := Group(gs[i].key, gs[i].members + [d])][1..] == gs[1..][i - 1 := Group(gs[i].key, gs[i].members + [d])];
      TotalGrow(gs[1..], i - 1, d);
    }
  }

  lemma {:induction false} TotalAppend<K>(gs: seq<Group<K>>, g: Group<K>)
    ensures Total(gs + [g]) == Total(gs) + |g.members|
    decreases |gs|
  {
    if gs != [] {
      assert (gs + [g])[1..] == gs[1..] + [g];
      TotalAppend(gs[1..], g);
    }
  }

  /** `gs` is the grouping of `docs`: distinct keys, each bucket exactly
      the documents with its key, every document in a bucket. */
  predicate Grouping<K(==)>(docs: seq<Doc>, keyOf: Doc -> K, gs: seq<Group<K>>) {
    && (forall i, j :: 0 <= i < j < |gs| ==> gs[i].key != gs[j].key)
    && (forall i :: 0 <= i < |gs| ==> gs[i].members == Members(docs, keyOf, gs[i].key) && gs[i].members != [])
    && (forall j :: 0 <= j < |docs| ==> keyOf(docs[j]) in KeysOf(gs))
    && Total(gs) == |docs|
  }

  /** The buckets' keys in order. */
  function KeysOf<K>(gs: seq<Group<K>>): (ks: seq<K>)
    ensures |ks| == |gs|
    ensures forall i :: 0 <= i < |gs| ==> ks[i] == gs[i].key
  {
    seq(|gs|, i requires 0 <= i < |gs| => gs[i].key)
  }

  /** One more scanned document: into its key's bucket, or a new bucket
      at the end. */
  function AddDoc<K(==)>(gs: seq<Group<K>>, d: Doc, keyOf: Doc -> K): (gs': seq<Group<K>>)
    ensures gs' != []
  {
    match Find(gs, keyOf(d))
    case Some(i) => gs[i := Group(keyOf(d), gs[i].members + [d])]
    case None => gs + [Group(keyOf(d), [d])]
  }

  /** `Members` over one more document. */
  lemma MembersSnoc<K>(init: seq<Doc>, d: Doc, keyOf: Doc -> K, k: K)
    ensures Members(init + [d], keyOf, k) == Members(init, keyOf, k) + (if keyOf(d) == k then [d] else [])
  {
    assert (init + [d])[..|init|] == init;
  }

  lemma AddDocGrouping<K>(init: seq<Doc>, d: Doc, keyOf: Doc -> K, gs: seq<Group<K>>)
    requires Grouping(init, keyOf, gs)
    ensures Grouping(init + [d], keyOf, AddDoc(gs, d, keyOf))
  {
    match Find(gs, keyOf(d))
    case Some(i) => AddDocInto(init, d, keyOf, gs, i);
    case None => AddDocNew(init, d, keyOf, gs);
  }

  /** The document joins the existing bucket `i` of its key. */
  lemma AddDocInto<K>(init: seq<Doc>, d: Doc, keyOf: Doc -> K, gs: seq<Group<K>>, i: nat)
    requires Grouping(init, keyOf, gs)
    requires i < |gs| && gs[i].key == keyOf(d)
    ensures Grouping(init + [d], keyOf, gs[i := Group(keyOf(d), gs[i].members + [d])])
  {
    var docs := init + [d];
    var gs' := gs[i := Group(keyOf(d), gs[i].members + [d])];
    forall l | 0 <= l < |gs'|
      ensures gs'[l].members == Members(docs, keyOf, gs'[l].key) && gs'[l].members != []
    {
      MembersSnoc(init, d, keyOf, gs[l].key);
      if l != i {
        assert gs'[l] == gs[l];
        assert gs[l].key != gs[i].key;
      }
    }
    TotalGrow(gs, i, d);
    forall j | 0 <= j < |docs|
      ensures keyOf(docs[j]) in KeysOf(gs')
    {
      if j < |init| {
        assert docs[j] == init[j];
        GroupingHas(init, keyOf, gs, j);
        var l :| 0 <= l < |gs| && gs[l].key == keyOf(init[j]);
        assert KeysOf(gs')[l] == gs[l].key;
      } else {
        assert KeysOf(gs')[i] == keyOf(d);
      }
    }
  }

  /** The document opens a new bucket at the end. */
  lemma AddDocNew<K>(init: seq<Doc>, d: Doc, keyOf: Doc -> K, gs: seq<Group<K>>)
    requires Grouping(init, keyOf, gs)
    requires forall l :: 0 <= l < |gs| ==> gs[l].key != keyOf(d)
    ensures Grouping(init + [d], keyOf, gs + [Group(keyOf(d), [d])])
  {
    AddDocNewMembers(init, d, keyOf, gs);
    AddDocNewCovers(init, d, keyOf, gs);
    TotalAppend(gs, Group(keyOf(d), [d]));
  }

  lemma AddDocNewMembers<K>(init: seq<Doc>, d: Doc, keyOf: Doc -> K, gs: seq<Group<K>>)
    requires Grouping(init, keyOf, gs)
    requires forall l :: 0 <= l < |gs| ==> gs[l].key != keyOf(d)
    ensures var gs' := gs + [Group(keyOf(d), [d])];
      forall l :: 0 <= l < |gs'| ==> gs'[l].members == Members(init + [d], keyOf, gs'[l].key)
  {
    var gs' := gs + [Group(keyOf(d), [d])];
    forall j | 0 <= j < |init|
      ensures keyOf(init[j]) != keyOf(d)
    {
      GroupingHas(init, keyOf, gs, j);
    }
    MembersNone(init, keyOf, keyOf(d));
    forall l | 0 <= l < |gs'|
      ensures gs'[l].members == Members(init + [d], keyOf, gs'[l].key)
    {
      MembersSnoc(init, d, keyOf, gs'[l].key);
    }
  }

  lemma AddDocNewCovers<K>(init: seq<Doc>, d: Doc, keyOf: Doc -> K, gs: seq<Group<K>>)
    requires Grouping(init, keyOf, gs)
    ensures var docs := init + [d]; var gs' := gs + [Group(keyOf(d), [d])];
      forall j :: 0 <= j < |docs| ==> keyOf(docs[j]) in KeysOf(gs')
  {
    var docs := init + [d];
    var gs' := gs + [Group(keyOf(d), [d])];
    forall j | 0 <= j < |docs|
      ensures keyOf(docs[j]) in KeysOf(gs')
    {
      if j < |init| {
        assert docs[j] == init[j];
        GroupingHas(init, keyOf, gs, j);
        var l :| 0 <= l < |gs| && gs[l].key == keyOf(init[j]);
        assert KeysOf(gs')[l] == gs[l].key;
      } else {
        assert KeysOf(gs')[|gs|] == keyOf(d);
      }
    }
  }

  /** `$group` by `keyOf`: one bucket per distinct key in first-appearance
      order, each holding exactly the documents with its key, no
      document lost or counted twice. */
  function GroupBy<K(==)>(docs: seq<Doc>, keyOf: Doc -> K): (gs: seq<Group<K>>)
    ensures Grouping(docs, keyOf, gs)
    ensures docs == [] <==> gs == []
    decreases |docs|
  {
    if docs == [] then []
    else
      var init := docs[..|docs| - 1];
      var d := docs[|docs| - 1];
      var gs := GroupBy(init, keyOf);
      assert init + [d] == docs;
      AddDocGrouping(init, d, keyOf, gs);
      var gs' := AddDoc(gs, d, keyOf);
      gs'
  }

  /** A key no document has collects nothing. */
  lemma {:induction false} MembersNone<K>(docs: seq<Doc>, keyOf: Doc -> K, k: K)
    requires forall j :: 0 <= j < |docs| ==> keyOf(docs[j]) != k
    ensures Members(docs, keyOf, k) == []
    decreases |docs|
  {
    if docs != [] {
      MembersNone(docs[..|docs| - 1], keyOf, k);
    }
  }

  // ---------------------------------------------------------------- $sum

  /** `$sum` over a field: numbers add up, anything else (null, missing,
      text, dates) is skipped; the sum stays an integer until a float
      joins it, and nothing numeric sums to integer 0. */
  function SumField(docs: seq<Doc>, field: string): (v: Value)
    ensures v.VInt? || v.VNum?
    ensures v.VNum? <==> exists j :: 0 <= j < |docs| && Get(docs[j], field).Some? && Get(docs[j], field).value.VNum?
    decreases |docs|
  {
    if docs == [] then VInt(0)
    else
      var acc := SumField(docs[..|docs| - 1], field);
      var c := Get(docs[|docs| - 1], field);
      assert forall j :: 0 <= j < |docs| - 1 ==> docs[j] == docs[..|docs| - 1][j];
      match (acc, c)
      case (VInt(a), Some(VInt(i))) => VInt(a + i)
      case (_, Some(VInt(i))) => VNum(AsReal(acc) + i as real)
      case (_, Some(VNum(x))) => VNum(AsReal(acc) + x)
      case _ => acc
  }

  /** Reference definition: the real sum of the numeric values of a field. */
  function NumericTotal(docs: seq<Doc>, field: string): real
    decreases |docs|
  {
    if docs == [] then 0.0
    else
      NumericTotal(docs[..|docs| - 1], field) +
      match Numeric(Get(docs[|docs| - 1], field)) case Some(x) => x case None => 0.0
  }

  /** `$sum` equals the sum of the numeric values; a group with none sums
      to 0. */
  lemma {:induction false} SumFieldValue(docs: seq<Doc>, field: string)
    ensures AsReal(SumField(docs, field)) == NumericTotal(docs, field)
    ensures (forall j :: 0 <= j < |docs| ==> Numeric(Get(docs[j], field)).None?) ==> SumField(docs, field) == VInt(0)
    decreases |docs|
  {
    if docs != [] {
      var init := docs[..|docs| - 1];
      assert forall j :: 0 <= j < |init| ==> init[j] == docs[j];
      SumFieldValue(init, field);
    }
  }

  // ---------------------------------------------------------------- lead status summary

  function LeadStatusKey(d: Doc): Cell {
    Get(d, "lead_status_id")
  }

  /** One field of every document, in order. */
  function Column(docs: seq<Doc>, field: string): (col: seq<Cell>)
    ensures |col| == |docs|
    ensures forall j :: 0 <= j < |docs| ==> col[j] == Get(docs[j], field)
  {
    seq(|docs|, j requires 0 <= j < |docs| => Get(docs[j], field))
  }

  /** A non-empty bucket's key is some document's key. */
  lemma {:induction false} MembersWitness<K>(docs: seq<Doc>, keyOf: Doc -> K, k: K)
    requires Members(docs, keyOf, k) != []
    ensures exists j :: 0 <= j < |docs| && keyOf(docs[j]) == k
    decreases |docs|
  {
    var init := docs[..|docs| - 1];
    if keyOf(docs[|docs| - 1]) != k {
      MembersWitness(init, keyOf, k);
      var j :| 0 <= j < |init| && keyOf(init[j]) == k;
      assert docs[j] == init[j];
    }
  }

  /** `{"id": _id, "total": {"$sum": 1}, "status": {"$first": "$lead_status"}}`. */
  function LeadStatusRow(g: Group<Cell>): (row: Doc)
    requires g.members != []
    ensures row.Keys == {"id", "total", "status"}
    ensures row["id"] == g.key
  {
    map["id" := g.key, "total" := Some(VInt(|g.members|)), "status" := Get(g.members[0], "lead_status")]
  }

  /** The sum of a summary's integer `total` fields. */
  function SumTotals(rows: seq<Doc>, field: string): int {
    if rows == [] then 0
    else
      (match Get(rows[0], field) case Some(VInt(n)) => n case _ => 0) + SumTotals(rows[1..], field)
  }

  lemma {:induction false} SumTotalsGroups<K>(gs: seq<Group<K>>, rows: seq<Doc>, field: string)
    requires |rows| == |gs|
    requires forall i :: 0 <= i < |rows| ==> Get(rows[i], field) == Some(VInt(|gs[i].members|))
    ensures SumTotals(rows, field) == Total(gs)
    decreases |rows|
  {
    if rows != [] {
      SumTotalsGroups(gs[1..], rows[1..], field);
    }
  }

  /** Summary rows built from a grouping by `field` carry exactly the
      distinct values of `field`, each in one row. */
  lemma SummaryIds(docs: seq<Doc>, field: string, keyOf: Doc -> Cell, gs: seq<Group<Cell>>, rows: seq<Doc>)
    requires forall d :: keyOf(d) == Get(d, field)
    requires Grouping(docs, keyOf, gs)
    requires |rows| == |gs|
    requires forall i :: 0 <= i < |rows| ==> "id" in rows[i] && rows[i]["id"] == gs[i].key
    ensures forall i, j :: 0 <= i < j < |rows| ==> rows[i]["id"] != rows[j]["id"]
    ensures forall i :: 0 <= i < |rows| ==> rows[i]["id"] in Column(docs, field)
    ensures forall j :: 0 <= j < |docs| ==> Get(docs[j], field) in Column(rows, "id")
  {
    forall i | 0 <= i < |rows|
      ensures rows[i]["id"] in Column(docs, field)
    {
      MembersWitness(docs, keyOf, gs[i].key);
      var j :| 0 <= j < |docs| && keyOf(docs[j]) == gs[i].key;
      assert Column(docs, field)[j] == rows[i]["id"];
    }
    forall j | 0 <= j < |docs|
      ensures Get(docs[j], field) in Column(rows, "id")
    {
      GroupingHas(docs, keyOf, gs, j);
      var i :| 0 <= i < |gs| && gs[i].key == keyOf(docs[j]);
      assert Column(rows, "id")[i] == Get(docs[j], field);
    }
  }

  /** Every document's key has a bucket. */
  lemma GroupingHas<K>(docs: seq<Doc>, keyOf: Doc -> K, gs: seq<Group<K>>, j: nat)
    requires Grouping(docs, keyOf, gs)
    requires j < |docs|
    ensures exists l :: 0 <= l < |gs| && gs[l].key == keyOf(docs[j])
  {
    assert keyOf(docs[j]) in KeysOf(gs);
    var l :| 0 <= l < |gs| && KeysOf(gs)[l] == keyOf(docs[j]);
  }

  /** The lead status summary: one row per distinct `lead_status_id` of
      the leads, counting the leads that carry it and labelled with the
      status of the first of them in scan order. */
  function LeadStatusSummary(leads: Collection): (rows: seq<Doc>)
    ensures forall i :: 0 <= i < |rows| ==> rows[i].Keys == {"id", "total", "status"}
    ensures forall i, j :: 0 <= i < j < |rows| ==> rows[i]["id"] != rows[j]["id"]
    ensures forall i :: 0 <= i < |rows| ==> rows[i]["id"] in Column(leads, "lead_status_id")
    ensures forall j :: 0 <= j < |leads| ==> Get(leads[j], "lead_status_id") in Column(rows, "id")
    ensures forall i :: 0 <= i < |rows| ==>
      var ms := Members(leads, LeadStatusKey, rows[i]["id"]);
      && ms != []
      && rows[i]["total"] == Some(VInt(|ms|))
      && rows[i]["status"] == Get(ms[0], "lead_status")
    ensures SumTotals(rows, "total") == |leads|
  {
    var gs := GroupBy(leads, LeadStatusKey);
    var rows := seq(|gs|, i requires 0 <= i < |gs| => LeadStatusRow(gs[i]));
    SummaryIds(leads, "lead_status_id", LeadStatusKey, gs, rows);
    SumTotalsGroups(gs, rows, "total");
    rows
  }

  // ---------------------------------------------------------------- deals summary

  function StageKey(d: Doc): Cell {
    Get(d, "deal_stage")
  }

  /** `{"id": _id, "total": {"$sum": 1}, "amount": {"$sum": "$amount"}}`. */
  function DealStageRow(g: Group<Cell>): (row: Doc)
    ensures row.Keys == {"id", "total", "amount"}
    ensures row["id"] == g.key && row["total"] == Some(VInt(|g.members|))
    ensures row["amount"].Some? && AsReal(row["amount"].value) == NumericTotal(g.members, "amount")
    ensures (forall j :: 0 <= j < |g.members| ==> Numeric(Get(g.members[j], "amount")).None?) ==>
      row["amount"] == Some(VInt(0))
  {
    SumFieldValue(g.members, "amount");
    map["id" := g.key, "total" := Some(VInt(|g.members|)), "amount" := Some(SumField(g.members, "amount"))]
  }

  /** The per-stage summary: one row per distinct `deal_stage` of the
      deals, counting them and summing their numeric amounts (0 when none
      has one). */
  function DealsSummary(deals: Collection): (rows: seq<Doc>)
    ensures forall i :: 0 <= i < |rows| ==> rows[i].Keys == {"id", "total", "amount"}
    ensures forall i, j :: 0 <= i < j < |rows| ==> rows[i]["id"] != rows[j]["id"]
    ensures forall i :: 0 <= i < |rows| ==> rows[i]["id"] in Column(deals, "deal_stage")
    ensures forall j :: 0 <= j < |deals| ==> Get(deals[j], "deal_stage") in Column(rows, "id")
    ensures forall i :: 0 <= i < |rows| ==>
      var ms := Members(deals, StageKey, rows[i]["id"]);
      && ms != []
      && rows[i]["total"] == Some(VInt(|ms|))
      && rows[i]["amount"].Some? && AsReal(rows[i]["amount"].value) == NumericTotal(ms, "amount")
      && ((forall j :: 0 <= j < |ms| ==> Numeric(Get(ms[j], "amount")).None?) ==> rows[i]["amount"] == Some(VInt(0)))
    ensures SumTotals(rows, "total") == |deals|
  {
    var gs := GroupBy(deals, StageKey);
    var rows := seq(|gs|, i requires 0 <= i < |gs| => DealStageRow(gs[i]));
    SummaryIds(deals, "deal_stage", StageKey, gs, rows);
    SumTotalsGroups(gs, rows, "total");
    rows
  }

  // ---------------------------------------------------------------- close summary

  /** `$year`/`$month` accept null, a missing field or a date; anything
      else makes the aggregation raise. */
  predicate DateOperandOk(d: Doc) {
    Get(d, "close_date").None? || Get(d, "close_date").value.VDate?
  }

  /** `{"year": {"$year": ...}, "month": {"$month": ...}, "deal_stage": ...}`. */
  function CloseKeyOf(d: Doc): (k: CloseKey)
    ensures k.stage == Get(d, "deal_stage")
    ensures Get(d, "close_date").None? ==> k.year.None? && k.month.None?
    ensures Get(d, "close_date").Some? && Get(d, "close_date").value.VDate? ==>
      k.year == Some(Get(d, "close_date").value.d.year) && k.month == Some(Get(d, "close_date").value.d.month)
  {
    match Get(d, "close_date")
    case Some(VDate(dt)) => CloseKey(Some(dt.year), Some(dt.month), Get(d, "deal_stage"))
    case _ => CloseKey(None, None, Get(d, "deal_stage"))
  }

  /** Strictly ascending keys. */
  predicate SortedGroups(gs: seq<Group<CloseKey>>) {
    forall i, j :: 0 <= i < j < |gs| ==> KeyLess(gs[i].key, gs[j].key)
  }

  /** Distinct keys. */
  predicate DistinctKeys<K(==)>(gs: seq<Group<K>>) {
    forall i, j :: 0 <= i < j < |gs| ==> gs[i].key != gs[j].key
  }

  /** A bound below every bucket of `ys` is below every bucket of a
      permutation of `ys`. */
  lemma BelowAll(k: CloseKey, xs: seq<Group<CloseKey>>, ys: seq<Group<CloseKey>>)
    requires multiset(xs) == multiset(ys)
    requires forall i :: 0 <= i < |ys| ==> KeyLess(k, ys[i].key)
    ensures forall i :: 0 <= i < |xs| ==> KeyLess(k, xs[i].key)
  {
    forall i | 0 <= i < |xs|
      ensures KeyLess(k, xs[i].key)
    {
      assert xs[i] in multiset(ys);
      var j :| 0 <= j < |ys| && ys[j] == xs[i];
    }
  }

  /** A sorted list's tail is sorted and lies above its head. */
  lemma SortedTail(gs: seq<Group<CloseKey>>)
    requires SortedGroups(gs) && gs != []
    ensures SortedGroups(gs[1..])
    ensures forall i :: 0 <= i < |gs[1..]| ==> KeyLess(gs[0].key, gs[1..][i].key)
  {
    forall i | 0 <= i < |gs[1..]|
      ensures KeyLess(gs[0].key, gs[1..][i].key)
    {
      assert gs[1..][i] == gs[i + 1];
    }
  }

  /** A bucket below every bucket of a sorted list can lead it. */
  lemma SortedCons(x: Group<CloseKey>, xs: seq<Group<CloseKey>>)
    requires SortedGroups(xs)
    requires forall i :: 0 <= i < |xs| ==> KeyLess(x.key, xs[i].key)
    ensures SortedGroups([x] + xs)
  {
    var ys := [x] + xs;
    forall i, j | 0 <= i < j < |ys|
      ensures KeyLess(ys[i].key, ys[j].key)
    {
      assert ys[j] == xs[j - 1];
      if i > 0 {
        assert ys[i] == xs[i - 1];
      }
    }
  }

  /** A bound below every bucket of `ys` and below `g`'s key is below
      every bucket of `ys + [g]`. */
  lemma BelowAppend(k: CloseKey, ys: seq<Group<CloseKey>>, g: Group<CloseKey>)
    requires forall i :: 0 <= i < |ys| ==> KeyLess(k, ys[i].key)
    requires KeyLess(k, g.key)
    ensures forall i :: 0 <= i < |ys + [g]| ==> KeyLess(k, (ys + [g])[i].key)
  {
    forall i | 0 <= i < |ys + [g]|
      ensures KeyLess(k, (ys + [g])[i].key)
    {
      if i < |ys| {
        assert (ys + [g])[i] == ys[i];
      }
    }
  }

  /** Insertion into a strictly ascending list of buckets whose keys all
      differ from the new one. */
  function Insert(g: Group<CloseKey>, gs: seq<Group<CloseKey>>): (r: seq<Group<CloseKey>>)
    requires SortedGroups(gs)
    requires forall i :: 0 <= i < |gs| ==> gs[i].key != g.key
    ensures SortedGroups(r)
    ensures multiset(r) == multiset(gs) + multiset{g}
    decreases |gs|
  {
    if gs == [] then [g]
    else if KeyLess(g.key, gs[0].key) then
      forall i | 0 < i < |gs|
        ensures KeyLess(g.key, gs[i].key)
      {
        KeyLessTransitive(g.key, gs[0].key, gs[i].key);
      }
      SortedCons(g, gs);
      [g] + gs
    else
      KeyLessTotal(g.key, gs[0].key);
      SortedTail(gs);
      var tail := gs[1..];
      assert forall i :: 0 <= i < |tail| ==> tail[i] == gs[i + 1];
      var rest := Insert(g, tail);
      assert gs == [gs[0]] + tail;
      BelowAppend(gs[0].key, tail, g);
      BelowAll(gs[0].key, rest, tail + [g]);
      SortedCons(gs[0], rest);
      [gs[0]] + rest
  }

  /** `$sort` on the close summary's key. */
  function SortGroups(gs: seq<Group<CloseKey>>): (r: seq<Group<CloseKey>>)
    requires DistinctKeys(gs)
    ensures SortedGroups(r)
    ensures multiset(r) == multiset(gs)
    decreases |gs|
  {
    if gs == [] then []
    else
      var init := gs[..|gs| - 1];
      var g := gs[|gs| - 1];
      var sorted := SortGroups(init);
      assert gs == init + [g];
      forall i | 0 <= i < |sorted|
        ensures sorted[i].key != g.key
      {
        assert sorted[i] in multiset(init);
        var j :| 0 <= j < |init| && init[j] == sorted[i];
      }
      Insert(g, sorted)
  }

  /** The fields a close summary document is keyed by. */
  const CloseFields: set<string> := {"year", "month", "deal_stage"}

  /** `$year`/`$month` as stored: a number, or null. */
  function OptCell(n: Option<int>): (c: Cell)
    ensures CellOpt(c) == n
  {
    match n
    case Some(v) => Some(VInt(v))
    case None => None
  }

  /** A stored `$year`/`$month` read back; anything but a number reads as
      null. */
  function CellOpt(c: Cell): Option<int> {
    match c
    case Some(VInt(v)) => Some(v)
    case _ => None
  }

  /** The bucket key a stored close summary document carries. */
  function RowKey(d: Doc): CloseKey {
    CloseKey(CellOpt(Get(d, "year")), CellOpt(Get(d, "month")), Get(d, "deal_stage"))
  }

  /** The `_id` document of a close bucket; reading it back gives the key. */
  function KeyDoc(k: CloseKey): (d: Doc)
    ensures d.Keys == CloseFields
    ensures RowKey(d) == k
  {
    map["year" := OptCell(k.year), "month" := OptCell(k.month), "deal_stage" := k.stage]
  }

  /** The key fields of a document determine its key. */
  lemma RowKeyProj(d: Doc)
    ensures RowKey(Proj(d, CloseFields)) == RowKey(d)
  {
    assert "year" in CloseFields && "month" in CloseFields && "deal_stage" in CloseFields;
  }

  function RowKeys(rows: seq<Doc>): (ks: seq<CloseKey>)
    ensures |ks| == |rows|
    ensures forall i :: 0 <= i < |rows| ==> ks[i] == RowKey(rows[i])
  {
    seq(|rows|, i requires 0 <= i < |rows| => RowKey(rows[i]))
  }

  /** Every deal's close key, in scan order. */
  function CloseKeys(deals: seq<Doc>): (ks: seq<CloseKey>)
    ensures |ks| == |deals|
    ensures forall j :: 0 <= j < |deals| ==> ks[j] == CloseKeyOf(deals[j])
  {
    seq(|deals|, j requires 0 <= j < |deals| => CloseKeyOf(deals[j]))
  }

  /** The close summary row: `{year, month, deal_stage, count, amount}`. */
  function CloseRow(g: Group<CloseKey>): (row: Doc)
    ensures row.Keys == CloseFields + {"count", "amount"}
    ensures RowKey(row) == g.key && Proj(row, CloseFields) == KeyDoc(g.key)
    ensures row["count"] == Some(VInt(|g.members|))
    ensures row["amount"].Some? && AsReal(row["amount"].value) == NumericTotal(g.members, "amount")
  {
    SumFieldValue(g.members, "amount");
    var row := KeyDoc(g.key)["count" := Some(VInt(|g.members|))]["amount" := Some(SumField(g.members, "amount"))];
    assert Proj(row, CloseFields) == KeyDoc(g.key);
    row
  }

  /** The buckets of the close summary in `$sort` order, or the error the
      aggregation raises. */
  function CloseGroups(deals: Collection): (r: Result<seq<Group<CloseKey>>, string>)
    ensures r.Err? <==> exists j :: 0 <= j < |deals| && !DateOperandOk(deals[j])
    ensures r.Ok? ==> SortedGroups(r.value) && multiset(r.value) == multiset(GroupBy(deals, CloseKeyOf))
  {
    if exists j :: 0 <= j < |deals| && !DateOperandOk(deals[j]) then Err("can't convert to Date")
    else Ok(SortGroups(GroupBy(deals, CloseKeyOf)))
  }

  /** Each bucket holds exactly the documents with its key, and some. */
  predicate BucketsOf<K(==)>(docs: seq<Doc>, keyOf: Doc -> K, gs: seq<Group<K>>) {
    forall i :: 0 <= i < |gs| ==> gs[i].members == Members(docs, keyOf, gs[i].key) && gs[i].members != []
  }

  /** A permutation of such buckets is such buckets. */
  lemma BucketsPermuted<K>(docs: seq<Doc>, keyOf: Doc -> K, xs: seq<Group<K>>, ys: seq<Group<K>>)
    requires multiset(xs) == multiset(ys) && BucketsOf(docs, keyOf, ys)
    ensures BucketsOf(docs, keyOf, xs) && |xs| == |ys|
  {
    assert |xs| == |multiset(xs)| == |multiset(ys)| == |ys|;
    forall i | 0 <= i < |xs|
      ensures xs[i].members == Members(docs, keyOf, xs[i].key) && xs[i].members != []
    {
      assert xs[i] in multiset(ys);
      var j :| 0 <= j < |ys| && ys[j] == xs[i];
    }
  }

  /** Sorting keeps the buckets: each sorted bucket is a bucket of the
      grouping, so it holds exactly the deals with its key. */
  lemma CloseGroupsMembers(deals: Collection)
    requires CloseGroups(deals).Ok?
    ensures var gs := CloseGroups(deals).value;
      && |gs| == |GroupBy(deals, CloseKeyOf)|
      && forall i :: 0 <= i < |gs| ==>
        gs[i].members == Members(deals, CloseKeyOf, gs[i].key) && gs[i].members != []
  {
    var g0 := GroupBy(deals, CloseKeyOf);
    assert BucketsOf(deals, CloseKeyOf, g0);
    BucketsPermuted(deals, CloseKeyOf, CloseGroups(deals).value, g0);
  }

  /** Each sorted bucket's key is some deal's close key. */
  lemma CloseGroupsKeys(deals: Collection)
    requires CloseGroups(deals).Ok?
    ensures var gs := CloseGroups(deals).value;
      forall i :: 0 <= i < |gs| ==> gs[i].key in CloseKeys(deals)
  {
    var gs := CloseGroups(deals).value;
    CloseGroupsMembers(deals);
    forall i | 0 <= i < |gs|
      ensures gs[i].key in CloseKeys(deals)
    {
      MembersWitness(deals, CloseKeyOf, gs[i].key);
      var j :| 0 <= j < |deals| && CloseKeyOf(deals[j]) == gs[i].key;
      assert CloseKeys(deals)[j] == gs[i].key;
    }
  }

  /** Every deal's close key has a sorted bucket. */
  lemma CloseGroupsCover(deals: Collection)
    requires CloseGroups(deals).Ok?
    ensures var gs := CloseGroups(deals).value;
      forall j :: 0 <= j < |deals| ==> CloseKeyOf(deals[j]) in KeysOf(gs)
  {
    var gs := CloseGroups(deals).value;
    var g0 := GroupBy(deals, CloseKeyOf);
    forall j | 0 <= j < |deals|
      ensures CloseKeyOf(deals[j]) in KeysOf(gs)
    {
      GroupingHas(deals, CloseKeyOf, g0, j);
      var l :| 0 <= l < |g0| && g0[l].key == CloseKeyOf(deals[j]);
      assert g0[l] in multiset(gs);
      var i :| 0 <= i < |gs| && gs[i] == g0[l];
      assert KeysOf(gs)[i] == CloseKeyOf(deals[j]);
    }
  }

  /** The close summary: one row per distinct close key of the deals, in
      ascending (year, month, stage) order, each counting the deals with
      that key and summing their numeric amounts; or the aggregation's
      failure when some close date is neither null nor a date. */
  function CloseSummary(deals: Collection): (r: Result<seq<Doc>, string>)
    ensures r.Err? <==> exists j :: 0 <= j < |deals| && !DateOperandOk(deals[j])
    ensures r.Ok? ==> forall i :: 0 <= i < |r.value| ==>
      r.value[i].Keys == CloseFields + {"count", "amount"} && Proj(r.value[i], CloseFields) == KeyDoc(RowKey(r.value[i]))
    ensures r.Ok? ==> forall i, j :: 0 <= i < j < |r.value| ==> KeyLess(RowKey(r.value[i]), RowKey(r.value[j]))
    ensures r.Ok? ==> forall i :: 0 <= i < |r.value| ==> RowKey(r.value[i]) in CloseKeys(deals)
    ensures r.Ok? ==> forall j :: 0 <= j < |deals| ==> CloseKeyOf(deals[j]) in RowKeys(r.value)
    ensures r.Ok? ==> forall i :: 0 <= i < |r.value| ==>
      var ms := Members(deals, CloseKeyOf, RowKey(r.value[i]));
      && ms != []
      && r.value[i]["count"] == Some(VInt(|ms|))
      && r.value[i]["amount"].Some? && AsReal(r.value[i]["amount"].value) == NumericTotal(ms, "amount")
  {
    match CloseGroups(deals)
    case Err(e) => Err(e)
    case Ok(gs) =>
      CloseGroupsMembers(deals);
      CloseGroupsKeys(deals);
      CloseGroupsCover(deals);
      var rows := seq(|gs|, i requires 0 <= i < |gs| => CloseRow(gs[i]));
      assert RowKeys(rows) == KeysOf(gs);
      Ok(rows)
  }

  // ---------------------------------------------------------------- storing a summary

  /** How a summary upsert ends: the aggregation raised (logged, nothing
      written), it came back empty (nothing written), or the rows were
      upserted. */
  datatype SummaryOutcome = AggregationFailed | NoRows | Stored(result: BulkResult)

  datatype SummaryRun = SummaryRun(c: Collection, outcome: SummaryOutcome)

  /** One `UpdateOne(filter, {"$set": row}, upsert=True)` per row, the
      filter being the row's own key fields. */
  function SummaryOps(rows: seq<Doc>, keys: set<string>): (ops: seq<Update>)
    requires forall i :: 0 <= i < |rows| ==> keys <= rows[i].Keys
    ensures |ops| == |rows|
    ensures Keyed(ops, keys)
    ensures forall i :: 0 <= i < |rows| ==> ops[i] == Update(Proj(rows[i], keys), rows[i])
  {
    seq(|rows|, i requires 0 <= i < |rows| => Update(Proj(rows[i], keys), rows[i]))
  }

  /** The first document with `row`'s key fields carries every field of
      `row`. */
  predicate Stores(c: Collection, row: Doc, keys: set<string>) {
    && FirstMatch(c, Proj(row, keys)).Some?
    && var d := c[FirstMatch(c, Proj(row, keys)).value];
      forall k :: k in row ==> k in d && d[k] == row[k]
  }

  /** No later row has the same key fields, so none overwrites row `i`. */
  predicate LastOfKey(rows: seq<Doc>, keys: set<string>, i: nat)
    requires i < |rows|
  {
    forall j :: i < j < |rows| ==> Proj(rows[j], keys) != Proj(rows[i], keys)
  }

  /** What a keyed batch of summary rows leaves in the collection. */
  lemma SummaryWrite(c: Collection, rows: seq<Doc>, keys: set<string>)
    requires forall i :: 0 <= i < |rows| ==> keys <= rows[i].Keys
    ensures var c1 := BulkWrite(c, SummaryOps(rows, keys)).c;
      && (forall i :: 0 <= i < |rows| && LastOfKey(rows, keys, i) ==> Stores(c1, rows[i], keys))
      && (forall p :: 0 <= p < |c| && (forall i :: 0 <= i < |rows| ==> Proj(c[p], keys) != Proj(rows[i], keys)) ==>
            c1[p] == c[p])
      && (UniqueKeys(c, keys) ==> UniqueKeys(c1, keys))
  {
    var ops := SummaryOps(rows, keys);
    var c1 := BulkWrite(c, ops).c;
    forall i | 0 <= i < |rows| && LastOfKey(rows, keys, i)
      ensures Stores(c1, rows[i], keys)
    {
      BulkWriteLastWins(c, ops, keys, i);
    }
    forall p | 0 <= p < |c| && (forall i :: 0 <= i < |rows| ==> Proj(c[p], keys) != Proj(rows[i], keys))
      ensures c1[p] == c[p]
    {
      forall i | 0 <= i < |ops|
        ensures !Matches(c[p], ops[i].filter)
      {
        MatchesProj(c[p], ops[i].filter, keys);
      }
      BulkWriteUntouched(c, ops, keys, p);
    }
    if UniqueKeys(c, keys) {
      BulkWriteUnique(c, ops, keys);
    }
  }

  /** Upsert a summary's rows keyed by `keys`; no rows, no write. A row no
      later row shares a key with ends up in the first document with its
      key; a document with no row's key is kept; one document per key
      stays one document per key. */
  function StoreSummary(c: Collection, rows: seq<Doc>, keys: set<string>): (r: SummaryRun)
    requires forall i :: 0 <= i < |rows| ==> keys <= rows[i].Keys
    ensures rows == [] ==> r == SummaryRun(c, NoRows)
    ensures rows != [] ==> r.outcome.Stored? && r.outcome.result.matched + r.outcome.result.upserted == |rows|
    ensures forall i :: 0 <= i < |rows| && LastOfKey(rows, keys, i) ==> Stores(r.c, rows[i], keys)
    ensures forall p :: 0 <= p < |c| && (forall i :: 0 <= i < |rows| ==> Proj(c[p], keys) != Proj(rows[i], keys)) ==>
      p < |r.c| && r.c[p] == c[p]
    ensures UniqueKeys(c, keys) ==> UniqueKeys(r.c, keys)
  {
    if rows == [] then SummaryRun(c, NoRows)
    else
      SummaryWrite(c, rows, keys);
      var w := BulkWrite(c, SummaryOps(rows, keys));
      SummaryRun(w.c, Stored(w.result))
  }

  /** Storing the same summary again changes nothing. */
  lemma StoreSummaryReplay(c: Collection, rows: seq<Doc>, keys: set<string>)
    requires forall i :: 0 <= i < |rows| ==> keys <= rows[i].Keys
    ensures StoreSummary(StoreSummary(c, rows, keys).c, rows, keys).c == StoreSummary(c, rows, keys).c
  {
    if rows != [] {
      BulkWriteReplay(c, SummaryOps(rows, keys), keys);
    }
  }

  /** Rows with distinct ids, each some document's `field`: every row is
      stored under its id, and a document whose id is no document's
      `field` is kept. */
  lemma StoreById(c: Collection, rows: seq<Doc>, docs: seq<Doc>, field: string)
    requires forall i :: 0 <= i < |rows| ==> "id" in rows[i]
    requires forall i, j :: 0 <= i < j < |rows| ==> rows[i]["id"] != rows[j]["id"]
    requires forall i :: 0 <= i < |rows| ==> rows[i]["id"] in Column(docs, field)
    requires forall j :: 0 <= j < |docs| ==> Get(docs[j], field) in Column(rows, "id")
    ensures var r := StoreSummary(c, rows, {"id"});
      && (docs == [] ==> r == SummaryRun(c, NoRows))
      && (docs != [] ==> r.outcome.Stored?)
      && (forall i :: 0 <= i < |rows| ==> Stores(r.c, rows[i], {"id"}))
      && (forall p :: 0 <= p < |c| && Get(c[p], "id") !in Column(docs, field) ==> p < |r.c| && r.c[p] == c[p])
      && (UniqueKeys(c, {"id"}) ==> UniqueKeys(r.c, {"id"}))
  {
    assert docs != [] ==> Get(docs[0], field) in Column(rows, "id");
    forall i | 0 <= i < |rows|
      ensures LastOfKey(rows, {"id"}, i)
    {
      forall j | i < j < |rows|
        ensures Proj(rows[j], {"id"}) != Proj(rows[i], {"id"})
      {
        assert Proj(rows[j], {"id"})["id"] != Proj(rows[i], {"id"})["id"];
      }
    }
    forall p, i | 0 <= p < |c| && Get(c[p], "id") !in Column(docs, field) && 0 <= i < |rows|
      ensures Proj(c[p], {"id"}) != Proj(rows[i], {"id"})
    {
      assert Proj(c[p], {"id"})["id"] != Proj(rows[i], {"id"})["id"];
    }
  }

  /** Rows in strictly ascending key order, each keyed by some deal's close
      key: every row is stored under its key, and a document whose key is
      no deal's close key is kept. */
  lemma StoreByCloseKey(c: Collection, rows: seq<Doc>, deals: seq<Doc>)
    requires forall i :: 0 <= i < |rows| ==>
      CloseFields <= rows[i].Keys && Proj(rows[i], CloseFields) == KeyDoc(RowKey(rows[i]))
    requires forall i, j :: 0 <= i < j < |rows| ==> KeyLess(RowKey(rows[i]), RowKey(rows[j]))
    requires forall i :: 0 <= i < |rows| ==> RowKey(rows[i]) in CloseKeys(deals)
    requires forall j :: 0 <= j < |deals| ==> CloseKeyOf(deals[j]) in RowKeys(rows)
    ensures var r := StoreSummary(c, rows, CloseFields);
      && (deals == [] ==> r == SummaryRun(c, NoRows))
      && (deals != [] ==> r.outcome.Stored?)
      && (forall i :: 0 <= i < |rows| ==> Stores(r.c, rows[i], CloseFields))
      && (forall p :: 0 <= p < |c| && RowKey(c[p]) !in CloseKeys(deals) ==> p < |r.c| && r.c[p] == c[p])
      && (UniqueKeys(c, CloseFields) ==> UniqueKeys(r.c, CloseFields))
  {
    assert deals != [] ==> CloseKeyOf(deals[0]) in RowKeys(rows);
    forall i | 0 <= i < |rows|
      ensures LastOfKey(rows, CloseFields, i)
    {
      forall j | i < j < |rows|
        ensures Proj(rows[j], CloseFields) != Proj(rows[i], CloseFields)
      {
        KeyLessIrreflexive(RowKey(rows[i]));
      }
    }
    forall p, i | 0 <= p < |c| && RowKey(c[p]) !in CloseKeys(deals) && 0 <= i < |rows|
      ensures Proj(c[p], CloseFields) != Proj(rows[i], CloseFields)
    {
      RowKeyProj(c[p]);
    }
  }

  /** `upsert_lead_status_summary`: no leads, no write; otherwise every
      summary row is stored under its id, and a stored document whose id
      is no lead's status id is kept. */
  function StoreLeadStatusSummary(leads: Collection, summary: Collection): (r: SummaryRun)
    ensures leads == [] ==> r == SummaryRun(summary, NoRows)
    ensures leads != [] ==> r.outcome.Stored?
    ensures forall i :: 0 <= i < |LeadStatusSummary(leads)| ==> Stores(r.c, LeadStatusSummary(leads)[i], {"id"})
    ensures forall p :: 0 <= p < |summary| && Get(summary[p], "id") !in Column(leads, "lead_status_id") ==>
      p < |r.c| && r.c[p] == summary[p]
    ensures UniqueKeys(summary, {"id"}) ==> UniqueKeys(r.c, {"id"})
  {
    var rows := LeadStatusSummary(leads);
    StoreById(summary, rows, leads, "lead_status_id");
    StoreSummary(summary, rows, {"id"})
  }

  /** `upsert_deals_summary`: no deals, no write; otherwise every stage row
      is stored under its id, and a stored document whose id is no deal's
      stage is kept. */
  function StoreDealsSummary(deals: Collection, summary: Collection): (r: SummaryRun)
    ensures deals == [] ==> r == SummaryRun(summary, NoRows)
    ensures deals != [] ==> r.outcome.Stored?
    ensures forall i :: 0 <= i < |DealsSummary(deals)| ==> Stores(r.c, DealsSummary(deals)[i], {"id"})
    ensures forall p :: 0 <= p < |summary| && Get(summary[p], "id") !in Column(deals, "deal_stage") ==>
      p < |r.c| && r.c[p] == summary[p]
    ensures UniqueKeys(summary, {"id"}) ==> UniqueKeys(r.c, {"id"})
  {
    var rows := DealsSummary(deals);
    StoreById(summary, rows, deals, "deal_stage");
    StoreSummary(summary, rows, {"id"})
  }

  /** `upsert_deals_close_summary`: a failing aggregation or no deals
      writes nothing; otherwise every row is stored under its
      `(year, month, deal_stage)` key, and a stored document whose key is
      no deal's close key is kept. */
  function StoreCloseSummary(deals: Collection, summary: Collection): (r: SummaryRun)
    ensures CloseSummary(deals).Err? ==> r == SummaryRun(summary, AggregationFailed)
    ensures deals == [] ==> r == SummaryRun(summary, NoRows)
    ensures CloseSummary(deals).Ok? && deals != [] ==> r.outcome.Stored?
    ensures CloseSummary(deals).Ok? ==>
      forall i :: 0 <= i < |CloseSummary(deals).value| ==> Stores(r.c, CloseSummary(deals).value[i], CloseFields)
    ensures forall p :: 0 <= p < |summary| && RowKey(summary[p]) !in CloseKeys(deals) ==>
      p < |r.c| && r.c[p] == summary[p]
    ensures UniqueKeys(summary, CloseFields) ==> UniqueKeys(r.c, CloseFields)
  {
    match CloseSummary(deals)
    case Err(_) => SummaryRun(summary, AggregationFailed)
    case Ok(rows) =>
      StoreByCloseKey(summary, rows, deals);
      StoreSummary(summary, rows, CloseFields)
  }
}

=== FILE: sync.dfy ===
/** The two runs of the sync entry point: `--type leads` (normalise, upsert
    into `leads`, store the lead status summary) and `--type deals`
    (normalise, upsert into `deals`, store both deal summaries). The
    extracted CRM records are given; the database is a map from collection
    name to collection. */
module Sync {
  import opened Wrappers
  import opened Values
  import opened Frame
  import opened Normalize
  import opened DocStore
  import opened Upsert
  import opened Rollup

  type Database = map<string, Collection>

  /** A collection that was never written reads as empty. */
  function Coll(db: Database, name: string): (c: Collection)
    ensures name in db ==> c == db[name]
    ensures name !in db ==> c == []
  {
    if name in db then db[name] else []
  }

  /** Two databases hold the same collection under `name`. */
  predicate SameAt(db: Database, db': Database, name: string) {
    (name in db <==> name in db') && Coll(db, name) == Coll(db', name)
  }

  /** Store a collection back only when a write happened. */
  function Put(db: Database, name: string, c: Collection, wrote: bool): (db': Database)
    ensures !wrote ==> db' == db
    ensures wrote ==> name in db' && db'[name] == c
    ensures forall n :: n != name ==> (n in db' <==> n in db) && Coll(db', n) == Coll(db, n)
  {
    if wrote then db[name := c] else db
  }

  /** Writing back what is already there is no change. */
  lemma PutSettled(db: Database, name: string, c: Collection, wrote: bool)
    requires wrote ==> name in db && db[name] == c
    ensures Put(db, name, c, wrote) == db
  {
  }

  // ---------------------------------------------------------------- leads

  /** `upsert_leads_to_mongo` on the `leads` collection. */
  function LeadsUpsertStage(db: Database, f: Frame): (db': Database)
    ensures forall n :: n != "leads" ==> (n in db' <==> n in db) && Coll(db', n) == Coll(db, n)
    ensures IsEmpty(f) || "id" !in f.columns ==> db' == db
  {
    var u := UpsertLeads(Coll(db, "leads"), f);
    Put(db, "leads", u.c, u.outcome.Upserted?)
  }

  /** `upsert_lead_status_summary` from the stored leads. */
  function LeadsSummaryStage(db: Database): (db': Database)
    ensures forall n :: n != "resume_lead_status" ==> (n in db' <==> n in db) && Coll(db', n) == Coll(db, n)
    ensures Coll(db, "leads") == [] ==> db' == db
  {
    var s := StoreLeadStatusSummary(Coll(db, "leads"), Coll(db, "resume_lead_status"));
    Put(db, "resume_lead_status", s.c, s.outcome.Stored?)
  }

  /** The leads run. A normalisation error propagates to the entry
      point's handler and nothing is written; otherwise the leads are
      upserted and the summary is rebuilt from the stored leads. */
  function SyncLeads(db: Database, contacts: seq<Doc>): (db': Database)
    ensures LeadsFrame(contacts, StatusMapping(Coll(db, "lead_status"))).Err? ==> db' == db
    ensures forall n :: n != "leads" && n != "resume_lead_status" ==> (n in db' <==> n in db) && Coll(db', n) == Coll(db, n)
  {
    match LeadsFrame(contacts, StatusMapping(Coll(db, "lead_status")))
    case Err(_) => db
    case Ok(f) => LeadsSummaryStage(LeadsUpsertStage(db, f))
  }

  /** Upserting the same frame into a database whose `leads` collection is
      already the result of that upsert changes nothing. */
  lemma LeadsUpsertSettled(db0: Database, f: Frame, db: Database)
    requires SameAt(db, LeadsUpsertStage(db0, f), "leads")
    ensures LeadsUpsertStage(db, f) == db
  {
    var u := UpsertLeads(Coll(db0, "leads"), f);
    if u.outcome.Upserted? {
      UpsertLeadsReplay(Coll(db0, "leads"), f);
      PutSettled(db, "leads", UpsertLeads(Coll(db, "leads"), f).c, true);
    }
  }

  /** Storing the summary of the same leads over the stored summary
      changes nothing. */
  lemma LeadsSummarySettled(db0: Database, db: Database)
    requires SameAt(db, db0, "leads")
    requires SameAt(db, LeadsSummaryStage(db0), "resume_lead_status")
    ensures LeadsSummaryStage(db) == db
  {
    var leads := Coll(db0, "leads");
    var s := StoreLeadStatusSummary(leads, Coll(db0, "resume_lead_status"));
    if s.outcome.Stored? {
      StoreSummaryReplay(Coll(db0, "resume_lead_status"), LeadStatusSummary(leads), {"id"});
      PutSettled(db, "resume_lead_status", StoreLeadStatusSummary(leads, s.c).c, true);
    }
  }

  /** A second leads run with the same extract changes nothing. */
  lemma SyncLeadsIdempotent(db: Database, contacts: seq<Doc>)
    ensures SyncLeads(SyncLeads(db, contacts), contacts) == SyncLeads(db, contacts)
  {
    var y := SyncLeads(db, contacts);
    assert SameAt(db, y, "lead_status");
    match LeadsFrame(contacts, StatusMapping(Coll(db, "lead_status")))
    case Err(_) =>
    case Ok(f) =>
      var x := LeadsUpsertStage(db, f);
      assert y == LeadsSummaryStage(x);
      LeadsUpsertSettled(db, f, y);
      LeadsSummarySettled(x, y);
  }

  // ---------------------------------------------------------------- deals

  /** `upsert_deals_to_mongo` on the `deals` collection. */
  function DealsUpsertStage(db: Database, f: Frame, parseNumber: string -> Option<real>): (db': Database)
    ensures forall n :: n != "deals" ==> (n in db' <==> n in db) && Coll(db', n) == Coll(db, n)
    ensures IsEmpty(f) || "id" !in f.columns ==> db' == db
  {
    var u := UpsertDeals(Coll(db, "deals"), f, parseNumber);
    Put(db, "deals", u.c, u.outcome.Upserted?)
  }

  /** `upsert_deals_summary` from the stored deals. */
  function DealsSummaryStage(db: Database): (db': Database)
    ensures forall n :: n != "total_deals" ==> (n in db' <==> n in db) && Coll(db', n) == Coll(db, n)
    ensures Coll(db, "deals") == [] ==> db' == db
  {
    var s := StoreDealsSummary(Coll(db, "deals"), Coll(db, "total_deals"));
    Put(db, "total_deals", s.c, s.outcome.Stored?)
  }

  /** `upsert_deals_close_summary` from the stored deals; an aggregation
      error writes nothing. */
  function CloseSummaryStage(db: Database): (db': Database)
    ensures forall n :: n != "resume_close_deals" ==> (n in db' <==> n in db) && Coll(db', n) == Coll(db, n)
    ensures CloseSummary(Coll(db, "deals")).Err? ==> db' == db
  {
    var s := StoreCloseSummary(Coll(db, "deals"), Coll(db, "resume_close_deals"));
    Put(db, "resume_close_deals", s.c, s.outcome.Stored?)
  }

  /** The deals run: normalise (never raises), upsert into `deals`, then
      store the per-stage summary and the close summary, each read from
      the stored deals. */
  function SyncDeals(db: Database, deals: seq<Doc>, parsers: Parsers): (db': Database)
    ensures forall n :: n != "deals" && n != "total_deals" && n != "resume_close_deals" ==> (n in db' <==> n in db) && Coll(db', n) == Coll(db, n)
  {
    var f := DealsFrame(deals, parsers.date);
    CloseSummaryStage(DealsSummaryStage(DealsUpsertStage(db, f, parsers.number)))
  }

  lemma DealsUpsertSettled(db0: Database, f: Frame, parseNumber: string -> Option<real>, db: Database)
    requires SameAt(db, DealsUpsertStage(db0, f, parseNumber), "deals")
    ensures DealsUpsertStage(db, f, parseNumber) == db
  {
    var u := UpsertDeals(Coll(db0, "deals"), f, parseNumber);
    if u.outcome.Upserted? {
      UpsertDealsReplay(Coll(db0, "deals"), f, parseNumber);
      PutSettled(db, "deals", UpsertDeals(Coll(db, "deals"), f, parseNumber).c, true);
    }
  }

  lemma DealsSummarySettled(db0: Database, db: Database)
    requires SameAt(db, db0, "deals")
    requires SameAt(db, DealsSummaryStage(db0), "total_deals")
    ensures DealsSummaryStage(db) == db
  {
    var deals := Coll(db0, "deals");
    var s := StoreDealsSummary(deals, Coll(db0, "total_deals"));
    if s.outcome.Stored? {
      StoreSummaryReplay(Coll(db0, "total_deals"), DealsSummary(deals), {"id"});
      PutSettled(db, "total_deals", StoreDealsSummary(deals, s.c).c, true);
    }
  }

  lemma CloseSummarySettled(db0: Database, db: Database)
    requires SameAt(db, db0, "deals")
    requires SameAt(db, CloseSummaryStage(db0), "resume_close_deals")
    ensures CloseSummaryStage(db) == db
  {
    var deals := Coll(db0, "deals");
    var s := StoreCloseSummary(deals, Coll(db0, "resume_close_deals"));
    if s.outcome.Stored? {
      var rows := CloseSummary(deals).value;
      CloseGroupsMembers(deals);
      assert |rows| == |GroupBy(deals, CloseKeyOf)|;
      StoreSummaryReplay(Coll(db0, "resume_close_deals"), rows, {"year", "month", "deal_stage"});
      PutSettled(db, "resume_close_deals", StoreCloseSummary(deals, s.c).c, true);
    }
  }

  /** A second deals run with the same extract changes nothing. */
  lemma SyncDealsIdempotent(db: Database, deals: seq<Doc>, parsers: Parsers)
    ensures SyncDeals(SyncDeals(db, deals, parsers), deals, parsers) == SyncDeals(db, deals, parsers)
  {
    var f := DealsFrame(deals, parsers.date);
    var x1 := DealsUpsertStage(db, f, parsers.number);
    var x2 := DealsSummaryStage(x1);
    var x3 := CloseSummaryStage(x2);
    DealsUpsertSettled(db, f, parsers.number, x3);
    DealsSummarySettled(x1, x3);
    CloseSummarySettled(x2, x3);
  }
}

=== FILE: text.dfy ===
/** The few Python string operations the core relies on: `str.strip()`,
    `str.lower()`, the `in` substring test and `str()` of an integer. */
module Text {

  /** Python's `str.isspace()` characters: ASCII whitespace, the information
      separators, NEL, no-break space and the Unicode space separators. */
  predicate IsSpace(c: char) {
    c == ' ' || ('\t' <= c <= '\r') || ('\U{1c}' <= c <= '\U{1f}')
    || c == '\U{85}' || c == '\U{a0}' || c == '\U{1680}'
    || ('\U{2000}' <= c <= '\U{200a}') || c == '\U{2028}' || c == '\U{2029}'
    || c == '\U{202f}' || c == '\U{205f}' || c == '\U{3000}'
  }

  predicate AllSpace(s: string) {
    forall i :: 0 <= i < |s| ==> IsSpace(s[i])
  }

  /** `s` with its leading whitespace removed. */
  function TrimStart(s: string): (r: string)
    ensures |r| <= |s| && r == s[|s| - |r|..]
    ensures forall i :: 0 <= i < |s| - |r| ==> IsSpace(s[i])
    ensures r == [] || !IsSpace(r[0])
  {
    if |s| > 0 && IsSpace(s[0]) then
      TrimStart(s[1..])
    else s
  }

  /** `s` with its trailing whitespace removed. */
  function TrimEnd(s: string): (r: string)
    ensures |r| <= |s| && r == s[..|r|]
    ensures forall i :: |r| <= i < |s| ==> IsSpace(s[i])
    ensures r == [] || !IsSpace(r[|r| - 1])
  {
    if |s| > 0 && IsSpace(s[|s| - 1]) then
      TrimEnd(s[..|s| - 1])
    else s
  }

  /** Python's `str.strip()` with no argument: the middle of `s` once the
      whitespace runs at both ends are cut off. Text strips to the empty
      string exactly when it is all whitespace. */
  function Trim(s: string): (r: string)
    ensures exists i, j :: 0 <= i <= j <= |s| && r == s[i..j] && AllSpace(s[..i]) && AllSpace(s[j..])
    ensures r == [] || (!IsSpace(r[0]) && !IsSpace(r[|r| - 1]))
    ensures r == [] <==> AllSpace(s)
  {
    var t := TrimStart(s);
    var r := TrimEnd(t);
    TrimCuts(s, t, r);
    r
  }

  /** Where strip cuts: after the leading whitespace `TrimStart` drops and
      before the trailing whitespace `TrimEnd` drops. */
  lemma TrimCuts(s: string, t: string, r: string)
    requires |t| <= |s| && t == s[|s| - |t|..]
    requires forall k :: 0 <= k < |s| - |t| ==> IsSpace(s[k])
    requires |r| <= |t| && r == t[..|r|]
    requires forall k :: |r| <= k < |t| ==> IsSpace(t[k])
    ensures var i := |s| - |t|;
      && r == s[i..i + |r|]
      && AllSpace(s[..i]) && AllSpace(s[i + |r|..])
  {
    PrefixOfSuffix(s, t, r);
    SuffixOfSuffix(s, t, |r|);
    SpacePrefix(s, |s| - |t|);
    SpaceSuffix(t, |r|);
  }

  /** A prefix of a suffix is a slice. */
  lemma PrefixOfSuffix<T>(s: seq<T>, t: seq<T>, r: seq<T>)
    requires |t| <= |s| && t == s[|s| - |t|..]
    requires |r| <= |t| && r == t[..|r|]
    ensures r == s[|s| - |t|..|s| - |t| + |r|]
  {
  }

  /** A suffix of a suffix is a suffix. */
  lemma SuffixOfSuffix<T>(s: seq<T>, t: seq<T>, n: nat)
    requires |t| <= |s| && t == s[|s| - |t|..]
    requires n <= |t|
    ensures s[|s| - |t| + n..] == t[n..]
  {
  }

  lemma SpacePrefix(s: string, i: nat)
    requires i <= |s|
    requires forall k :: 0 <= k < i ==> IsSpace(s[k])
    ensures AllSpace(s[..i])
  {
  }

  lemma SpaceSuffix(s: string, j: nat)
    requires j <= |s|
    requires forall k :: j <= k < |s| ==> IsSpace(s[k])
    ensures AllSpace(s[j..])
  {
    assert forall k :: 0 <= k < |s| - j ==> s[j..][k] == s[j + k];
  }

  /** Text with no whitespace at either end is left unchanged by strip. */
  lemma TrimClean(s: string)
    requires s == [] || (!IsSpace(s[0]) && !IsSpace(s[|s| - 1]))
    ensures Trim(s) == s
  {
  }

  /** A whitespace character in front of `s` does not survive strip. */
  lemma TrimSpacePrefix(c: char, s: string)
    requires IsSpace(c)
    ensures Trim([c] + s) == Trim(s)
  {
    assert ([c] + s)[1..] == s;
  }

  /** A whitespace character after `s` does not survive strip. */
  lemma TrimSpaceSuffix(s: string, c: char)
    requires IsSpace(c)
    ensures Trim(s + [c]) == Trim(s)
  {
    TrimStartAppend(s, c);
    var t := TrimStart(s);
    if t == [] {
      assert TrimStart(s + [c]) == [];
    } else {
      assert TrimStart(s + [c]) == t + [c];
      assert (t + [c])[..|t + [c]| - 1] == t;
    }
  }

  lemma {:induction false} TrimStartAppend(s: string, c: char)
    ensures TrimStart(s) == [] ==> TrimStart(s + [c]) == [] || TrimStart(s + [c]) == [c]
    ensures TrimStart(s) != [] ==> TrimStart(s + [c]) == TrimStart(s) + [c]
    decreases |s|
  {
    if |s| > 0 {
      assert (s + [c])[0] == s[0];
      assert (s + [c])[1..] == s[1..] + [c];
      if IsSpace(s[0]) {
        TrimStartAppend(s[1..], c);
      }
    } else {
      assert s + [c] == [c];
    }
  }

  /** ASCII lower-casing of one character. */
  function LowerChar(c: char): char {
    if 'A' <= c <= 'Z' then (c as int + 32) as char else c
  }

  /** Python's `str.lower()`, restricted to ASCII letters. */
  function Lower(s: string): (r: string)
    ensures |r| == |s|
    ensures forall i :: 0 <= i < |r| ==> !('A' <= r[i] <= 'Z')
    ensures forall i :: 0 <= i < |s| && !('A' <= s[i] <= 'Z') ==> r[i] == s[i]
  {
    seq(|s|, i requires 0 <= i < |s| => LowerChar(s[i]))
  }

  /** `t` occurs in `s` starting at position `i`. */
  predicate OccursAt(s: string, t: string, i: nat) {
    i + |t| <= |s| && s[i..i + |t|] == t
  }

  /** Python's `t in s` for strings, computed by scanning `s`. */
  predicate Contains(s: string, t: string)
    decreases |s|
  {
    (|t| <= |s| && s[..|t|] == t) || (|s| > 0 && Contains(s[1..], t))
  }

  /** The scan finds `t` exactly when `t` occurs somewhere in `s`. */
  lemma {:induction false} ContainsIff(s: string, t: string)
    ensures Contains(s, t) <==> exists i: nat :: OccursAt(s, t, i)
    decreases |s|
  {
    if |t| <= |s| && s[..|t|] == t {
      assert OccursAt(s, t, 0);
    } else if |s| > 0 {
      ContainsIff(s[1..], t);
      if Contains(s[1..], t) {
        var i: nat :| OccursAt(s[1..], t, i);
        assert s[1..][i..i + |t|] == s[i + 1..i + 1 + |t|];
        assert OccursAt(s, t, i + 1);
      }
      if exists i: nat :: OccursAt(s, t, i) {
        var i: nat :| OccursAt(s, t, i);
        if i > 0 {
          assert s[1..][i - 1..i - 1 + |t|] == s[i..i + |t|];
          assert OccursAt(s[1..], t, i - 1);
        }
      }
    }
  }

  /** The decimal digit character for `d`. */
  function DigitChar(d: nat): (c: char)
    requires d < 10
    ensures '0' <= c <= '9'
  {
    (48 + d) as char
  }

  predicate IsDigits(s: string) {
    forall i :: 0 <= i < |s| ==> '0' <= s[i] <= '9'
  }

  /** The decimal text of a natural number, without leading zeros. */
  function NatToDecimal(n: nat): (r: string)
    ensures |r| >= 1 && IsDigits(r)
    ensures r[0] == '0' ==> n == 0
    decreases n
  {
    if n < 10 then [DigitChar(n)] else NatToDecimal(n / 10) + [DigitChar(n % 10)]
  }

  /** The number a string of decimal digits denotes. */
  function DecimalValue(s: string): nat
    requires IsDigits(s)
  {
    if s == [] then 0 else DecimalValue(s[..|s| - 1]) * 10 + (s[|s| - 1] as int - 48)
  }

  /** Python's `str()` of an integer. */
  function IntToDecimal(i: int): (r: string)
    ensures |r| >= 1
    ensures r[0] == '-' <==> i < 0
  {
    if i < 0 then "-" + NatToDecimal(-i) else NatToDecimal(i)
  }

  /** Reading back the text `str()` produces. */
  function ParseDecimal(s: string): int
    requires |s| >= 1
    requires s[0] == '-' ==> IsDigits(s[1..])
    requires s[0] != '-' ==> IsDigits(s)
  {
    if s[0] == '-' then 0 - DecimalValue(s[1..]) else DecimalValue(s)
  }

  lemma {:induction false} NatToDecimalRoundTrip(n: nat)
    ensures DecimalValue(NatToDecimal(n)) == n
    decreases n
  {
    if n >= 10 {
      NatToDecimalRoundTrip(n / 10);
      var r := NatToDecimal(n);
      assert r[..|r| - 1] == NatToDecimal(n / 10);
    }
  }

  /** `str()` of an integer reads back as the same integer. */
  lemma IntToDecimalRoundTrip(i: int)
    ensures var r := IntToDecimal(i);
      (r[0] == '-' ==> IsDigits(r[1..])) && (r[0] != '-' ==> IsDigits(r)) && ParseDecimal(r) == i
  {
    if i < 0 {
      NatToDecimalRoundTrip(-i);
      assert IntToDecimal(i)[1..] == NatToDecimal(-i);
    } else {
      NatToDecimalRoundTrip(i);
    }
  }
}

=== FILE: upsert.dfy ===
/** `upsert_leads_to_mongo` and `upsert_deals_to_mongo`: every row of a
    normalised frame becomes one upserting update selected by the row's
    `id`, and the updates go out as one ordered batch. */
module Upsert {
  import opened Wrappers
  import opened Values
  import opened Frame
  import opened Normalize
  import opened DocStore

  /** How an upsert call ends: an empty frame returns before connecting,
      a frame without `id` raises `KeyError` while the batch is being
      built (caught and logged, nothing written), otherwise the batch is
      written. */
  datatype UpsertOutcome = NothingToUpsert | MissingId | Upserted(result: BulkResult)

  datatype UpsertRun = UpsertRun(c: Collection, outcome: UpsertOutcome)

  /** The row documents carry exactly the frame's columns. */
  predicate Shaped(f: Frame, docs: seq<Doc>) {
    |docs| == |f.rows| && forall i :: 0 <= i < |docs| ==> docs[i].Keys == f.columns
  }

  /** `UpdateOne({"id": doc["id"]}, {"$set": doc}, upsert=True)` per row. */
  function RowOps(docs: seq<Doc>): (ops: seq<Update>)
    requires forall i :: 0 <= i < |docs| ==> "id" in docs[i]
    ensures |ops| == |docs|
    ensures Keyed(ops, {"id"})
    ensures forall i :: 0 <= i < |docs| ==> ops[i].fields == docs[i] && Matches(docs[i], ops[i].filter)
  {
    seq(|docs|, i requires 0 <= i < |docs| => Update(map["id" := docs[i]["id"]], docs[i]))
  }

  /** The shared body of both upserts, given the documents the rows turn
      into. */
  function UpsertRows(c: Collection, f: Frame, docs: seq<Doc>): (r: UpsertRun)
    requires Shaped(f, docs)
    ensures IsEmpty(f) ==> r == UpsertRun(c, NothingToUpsert)
    ensures !IsEmpty(f) && "id" !in f.columns ==> r == UpsertRun(c, MissingId)
    ensures !IsEmpty(f) && "id" in f.columns ==> r.outcome.Upserted?
    ensures r.outcome.Upserted? ==>
      && r.outcome.result.matched + r.outcome.result.upserted == |f.rows|
      && r.outcome.result.modified <= r.outcome.result.matched
      && |r.c| == |c| + r.outcome.result.upserted
  {
    if IsEmpty(f) then UpsertRun(c, NothingToUpsert)
    else if "id" !in f.columns then UpsertRun(c, MissingId)
    else
      var w := BulkWrite(c, RowOps(docs));
      UpsertRun(w.c, Upserted(w.result))
  }

  /** `upsert_leads_to_mongo`: the rows go in as they are. */
  function UpsertLeads(c: Collection, leads: Frame): (r: UpsertRun)
    ensures IsEmpty(leads) ==> r == UpsertRun(c, NothingToUpsert)
    ensures !IsEmpty(leads) && "id" !in leads.columns ==> r == UpsertRun(c, MissingId)
    ensures !IsEmpty(leads) && "id" in leads.columns ==> r.outcome.Upserted?
    ensures r.outcome.Upserted? ==> r.outcome.result.matched + r.outcome.result.upserted == |leads.rows|
  {
    UpsertRows(c, leads, leads.rows)
  }

  /** One deal row as stored: a non-null `amount` goes through `float()`,
      null when that raises; every other field stays. */
  function DealDoc(row: Doc, parseNumber: string -> Option<real>): (d: Doc)
    ensures d.Keys == row.Keys
    ensures "amount" in row ==> d["amount"] == CoerceAmount(row["amount"], parseNumber)
    ensures forall k :: k in row && k != "amount" ==> d[k] == row[k]
  {
    if "amount" in row && row["amount"] != None then
      row["amount" := CoerceAmount(row["amount"], parseNumber)]
    else row
  }

  function DealDocs(f: Frame, parseNumber: string -> Option<real>): (docs: seq<Doc>)
    ensures Shaped(f, docs)
    ensures forall i :: 0 <= i < |docs| ==> docs[i] == DealDoc(f.rows[i], parseNumber)
  {
    seq(|f.rows|, i requires 0 <= i < |f.rows| => DealDoc(f.rows[i], parseNumber))
  }

  /** `upsert_deals_to_mongo`. */
  function UpsertDeals(c: Collection, deals: Frame, parseNumber: string -> Option<real>): (r: UpsertRun)
    ensures IsEmpty(deals) ==> r == UpsertRun(c, NothingToUpsert)
    ensures !IsEmpty(deals) && "id" !in deals.columns ==> r == UpsertRun(c, MissingId)
    ensures !IsEmpty(deals) && "id" in deals.columns ==> r.outcome.Upserted?
    ensures r.outcome.Upserted? ==> r.outcome.result.matched + r.outcome.result.upserted == |deals.rows|
  {
    UpsertRows(c, deals, DealDocs(deals, parseNumber))
  }

  // ---------------------------------------------------------------- properties

  /** Running the same upsert again changes nothing and inserts nothing. */
  lemma UpsertRowsReplay(c: Collection, f: Frame, docs: seq<Doc>)
    requires Shaped(f, docs)
    ensures UpsertRows(UpsertRows(c, f, docs).c, f, docs).c == UpsertRows(c, f, docs).c
    ensures UpsertRows(c, f, docs).outcome.Upserted? ==>
      UpsertRows(UpsertRows(c, f, docs).c, f, docs).outcome.result.upserted == 0
  {
    if !IsEmpty(f) && "id" in f.columns {
      BulkWriteReplay(c, RowOps(docs), {"id"});
    }
  }

  /** After the upsert, a row that is the last one with its `id` has every
      one of its fields on the document holding that `id`. */
  lemma UpsertRowsCarries(c: Collection, f: Frame, docs: seq<Doc>, i: nat)
    requires Shaped(f, docs) && !IsEmpty(f) && "id" in f.columns
    requires i < |docs|
    requires forall j :: i < j < |docs| ==> docs[j]["id"] != docs[i]["id"]
    ensures var c' := UpsertRows(c, f, docs).c;
      && FirstMatch(c', map["id" := docs[i]["id"]]).Some?
      && var d := c'[FirstMatch(c', map["id" := docs[i]["id"]]).value];
        forall k :: k in docs[i] ==> k in d && d[k] == docs[i][k]
  {
    var ops := RowOps(docs);
    forall j | i < j < |ops|
      ensures ops[j].filter != ops[i].filter
    {
      assert ops[j].filter["id"] == docs[j]["id"];
    }
    BulkWriteLastWins(c, ops, {"id"}, i);
  }

  /** Documents whose `id` no row carries come out unchanged. */
  lemma UpsertRowsUntouched(c: Collection, f: Frame, docs: seq<Doc>, p: nat)
    requires Shaped(f, docs) && !IsEmpty(f) && "id" in f.columns
    requires p < |c|
    requires forall i :: 0 <= i < |docs| ==> docs[i]["id"] != Get(c[p], "id")
    ensures UpsertRows(c, f, docs).c[p] == c[p]
  {
    var ops := RowOps(docs);
    forall i | 0 <= i < |ops|
      ensures !Matches(c[p], ops[i].filter)
    {
      assert ops[i].filter["id"] == docs[i]["id"];
    }
    BulkWriteUntouched(c, ops, {"id"}, p);
  }

  /** A collection with one document per `id` keeps one document per `id`. */
  lemma UpsertRowsUnique(c: Collection, f: Frame, docs: seq<Doc>)
    requires Shaped(f, docs)
    requires UniqueKeys(c, {"id"})
    ensures UniqueKeys(UpsertRows(c, f, docs).c, {"id"})
  {
    if !IsEmpty(f) && "id" in f.columns {
      BulkWriteUnique(c, RowOps(docs), {"id"});
    }
  }

  /** The lead upsert is replay-safe. */
  lemma UpsertLeadsReplay(c: Collection, leads: Frame)
    ensures UpsertLeads(UpsertLeads(c, leads).c, leads).c == UpsertLeads(c, leads).c
  {
    UpsertRowsReplay(c, leads, leads.rows);
  }

  /** The deal upsert is replay-safe. */
  lemma UpsertDealsReplay(c: Collection, deals: Frame, parseNumber: string -> Option<real>)
    ensures UpsertDeals(UpsertDeals(c, deals, parseNumber).c, deals, parseNumber).c == UpsertDeals(c, deals, parseNumber).c
  {
    UpsertRowsReplay(c, deals, DealDocs(deals, parseNumber));
  }
}

=== FILE: values.dfy ===
/** Scalar values as they travel between the CRM extract, the pandas frames
    and the document store. */
module Values {
  import opened Wrappers

  /** A calendar date; `$year` and `$month` read its first two fields. */
  datatype Date = Date(year: int, month: int, day: int)

  /** A non-null scalar: text, an integer, a floating-point number (as a
      real) or a timestamp. */
  datatype Value = VStr(s: string) | VInt(i: int) | VNum(x: real) | VDate(d: Date)

  /** A field value where `None` is null (Python `None`, NaN or NaT). */
  type Cell = Option<Value>

  /** A flat record, a frame row or a stored document: field name to value.
      A key mapped to `None` is an explicit null; an absent key is a missing
      field. */
  type Doc = map<string, Cell>

  /** Reading a field the way both pandas (a missing column is NaN) and a
      store query (a missing field compares as null) do. */
  function Get(d: Doc, k: string): (c: Cell)
    ensures k !in d ==> c == None
    ensures k in d ==> c == d[k]
  {
    if k in d then d[k] else None
  }

  /** The numeric value `$sum` adds for a cell: numbers count, anything else
      (text, dates, null) contributes nothing. */
  function Numeric(c: Cell): (r: Option<real>)
    ensures r.Some? <==> c.Some? && (c.value.VInt? || c.value.VNum?)
  {
    match c
    case Some(VInt(i)) => Some(i as real)
    case Some(VNum(x)) => Some(x)
    case _ => None
  }
}

=== FILE: wrappers.dfy ===
/** Failure-compatible wrappers used across the model: `Option` for Python's
    None/NaN and `Result` for an operation that can raise. */
module Wrappers {

  /** A value that may be missing (Python `None`, pandas NaN/NaT). */
  datatype Option<+T> = None | Some(value: T) {

    /** The wrapped value, or `default` when there is none. */
    function GetOr(default: T): T {
      match this
      case Some(v) => v
      case None => default
    }
  }

  /** The outcome of a step that either produces a value or raises an error. */
  datatype Result<+T, +E> = Ok(value: T) | Err(error: E)
}
